=== FILE: README.md ===
# Noise reduction for PipeWire: a verified model

This project models the core of BigLinux's microphone noise-reduction tool in Dafny. The tool is a GTK application with a command-line companion. It builds a PipeWire filter-chain configuration out of the user's settings: a GTCRN neural denoiser, a noise gate and a 15-band equalizer, followed by one of four channel topologies (mono, dual mono, radio or voice changer). It starts and stops that filter chain and pushes parameter changes to the running chain without a restart.

One module per source file:

| module | source file | what it models |
|---|---|---|
| `FilterChain` | `audio/filter_chain.py` | the configuration as a structured graph: stage selection, linking, the four topologies, the equalizer remap, the radio compressor, the voice-changer pitch and gain |
| `PipeWireService` | `services/pipewire_service.py` | the service object: clamping setters, the busy flag, the FIFO of live updates and its worker, the cached node id, start, stop, restart and apply |
| `Config` | `config.py` | settings records, `to_dict`/`from_dict` with the legacy stereo modes, model lookups, the equalizer presets and limits |
| `ConfigPersistence` | `services/config_persistence.py` | the persisted filter-chain state and its config file |
| `ProfileService` | `services/profile_service.py` | the profile map with protected defaults and the active profile |
| `Validators` | `utils/validators.py` | clamps, scaling, dB conversion, name checks and sanitising |
| `AudioMonitor` | `services/audio_monitor.py` | band bin ranges and weights, the 50 % overlap loop, level and band clamping, peak decay |
| `SpectrumWidget` | `ui/spectrum_widget.py` | band resampling, peak-hold counters, the dB scale, reset |
| `VisualizerWidget` | `ui/visualizer_widget.py` | the level bar, the bar visualizer and the waveform ring buffer |
| `MainView` | `ui/main_view.py` | the main window's decisions and handlers |
| `TooltipHelper` | `utils/tooltip_helper.py` | the tooltip colour arithmetic and the hover state |
| `Cli` | `cli.py` | `ps`/`pactl` output parsing, the config mapping and the exit codes of the commands |

`Wrappers`, `Strings` and `PyNum` are helpers. They hold `Option`/`Result`, Python's string operations (`split`, `splitlines`, `strip`, `int()`), and Python's `min`, `max` and float-to-int truncation.

Objects whose fields the source updates in place are classes. These are the service, the config persistence, the profile service, the audio monitor, the widgets, the main window and the hover state. Their methods are proved against specification functions. Everything that talks to the outside world (`pw-cli`, `pw-dump`, `pactl`, `ps`, files, the clock) is a parameter of the operation that uses it. The exponential `4**w`, `log10`, `sqrt`, the FFT and decimal formatting are also parameters (oracles). Numbers are `real`. Python's `int()` on a float is truncation toward zero, written out.

Where the source disagrees with the behaviour one might expect, the model follows the source:
- `SpectrumAnalyzerWidget.reset` does not reset the 60-frame hold counter of the overall peak.
- `LevelBar.set_level` keeps an unclamped peak.
- `from_dict` does not check the band count.
- A stereo section lacking `enabled` loads as disabled.
- `set_stereo_width` in radio mode queues a makeup gain of 6 + 6w dB (`WidthLiveUpdates` uses `RadioLiveUpdatesAsWritten`).
- The CLI's `generate_config` passes the plain string "mono" when stereo is disabled (`Cli.GenerateConfig` uses `CliConfigAsWritten`).

The last two are places where the source evidently does not do what it intends. They are under "## Findings", where the intended versions (`RadioLiveUpdates`, `CliConfig`) are separate functions with their own proofs; the operations above keep the behaviour as written.

## Model

| member | source | states |
|---|---|---|
| FilterChain.ActiveStages | src/biglinux_microphone/audio/filter_chain.py:310-327 | the active filters are exactly the enabled ones, each once, in the order ai, gate, eq |
| FilterChain.MbeqValues | src/biglinux_microphone/audio/filter_chain.py:391-394 | the equalizer node always carries 15 mbeq gains |
| FilterChain.EqIndexTableIncreasing | src/biglinux_microphone/audio/filter_chain.py:100 | the band table has ten entries, strictly increasing and all below 15, so no two UI bands drive the same mbeq band |
| FilterChain.MbeqValuesPlaceBand | src/biglinux_microphone/audio/filter_chain.py:391-394 | UI band i is written at mbeq index `EQ_BAND_TO_MBEQ_INDEX[i]` |
| FilterChain.MbeqValuesUnmapped | src/biglinux_microphone/audio/filter_chain.py:391-394 | an mbeq band no UI band drives keeps the initial 0 |
| FilterChain.UnmappedMbeqBands | src/biglinux_microphone/audio/filter_chain.py:79-100 | the undriven mbeq bands are exactly 3, 5, 7, 9 and 11, that is 220, 440, 880, 1750 and 3500 Hz |
| FilterChain.MbeqValuesMissingBandZero | src/biglinux_microphone/audio/filter_chain.py:391-394 | with fewer than ten stored bands the mbeq band of a missing UI band stays 0 |
| FilterChain.MbeqValuesIgnoreExtraBands | src/biglinux_microphone/audio/filter_chain.py:392-393 | bands after the tenth do not change the equalizer |
| FilterChain.GenerateEqNode | src/biglinux_microphone/audio/filter_chain.py:385-420 | the zero-filled 15-slot list written band by band gives the equalizer node of the specification |
| FilterChain.PitchAndGainBounds | src/biglinux_microphone/audio/filter_chain.py:685-717 | whatever `4 ** width` is, the clamped pitch lies in [0.5, 2] and the compensation gain in [5, 15] dB, exactly 5 dB once the pitch is at least 1 |
| FilterChain.PitchKnownPoints | src/biglinux_microphone/audio/filter_chain.py:685-690 | width 0, 0.5 and 1 give pitch 0.5, 1 and 2, with gains 15, 5 and 5 dB |
| FilterChain.PassthroughWhenNoStages | src/biglinux_microphone/audio/filter_chain.py:268-305 | the single-copy pass-through graph on one channel is produced exactly when AI, gate and equalizer are all off, in every stereo mode |
| FilterChain.StageChainShape | src/biglinux_microphone/audio/filter_chain.py:307-383 | the graph starts with the stage nodes in order, links each stage to the next and takes input at the first stage; in mono that is the whole graph, with output at the last stage on one MONO channel |
| FilterChain.StereoLayout | src/biglinux_microphone/audio/filter_chain.py:422-553 | every non-mono mode ends in the tee and its two copies, captures MONO and plays back FL FR; any mode value other than radio and voice changer, a plain string included, gives the dual-mono graph |
| FilterChain.RadioCompressorChain | src/biglinux_microphone/audio/filter_chain.py:555-664 | radio mode puts the SC4 compressor after the last stage with ratio 4+6w, threshold -15-10w, attack 10, release 100+100w, makeup 2+4w and knee 3, then feeds the tee |
| FilterChain.VoiceChangerChain | src/biglinux_microphone/audio/filter_chain.py:666-798 | voice-changer mode chains the pitch shifter and the gain stage after the last stage and then the tee, with pitch in [0.5, 2] and gain in [5, 15] |
| FilterChain.TransientAndCrossfeedIgnored | src/biglinux_microphone/audio/filter_chain.py:196-208 | the transient and crossfeed settings never change the generated graph |
| FilterChain.SameStageInputsSameGraph | src/biglinux_microphone/audio/filter_chain.py:196-208 | two configurations that agree on the stage switches, the stage nodes, the equalizer bands, the stereo mode and the width generate the same graph |
| FilterChain.CollectStages | src/biglinux_microphone/audio/filter_chain.py:314-327 | the appends build the active-filter names and their nodes of the specification |
| FilterChain.LinkStages | src/biglinux_microphone/audio/filter_chain.py:334-338 | the link loop joins `stage[i]:Output` to `stage[i+1]:Input` for each consecutive pair |
| FilterChain.GenerateMonoConfig | src/biglinux_microphone/audio/filter_chain.py:307-383 | the list-building code computes the mono graph of the specification |
| FilterChain.GenerateDualMonoStereo | src/biglinux_microphone/audio/filter_chain.py:476-553 | the dual-mono builder computes the tee graph of the specification |
| FilterChain.GenerateRadioMode | src/biglinux_microphone/audio/filter_chain.py:555-664 | the radio builder computes the compressor graph of the specification |
| FilterChain.GeneratePitchMode | src/biglinux_microphone/audio/filter_chain.py:666-798 | the voice-changer builder computes the pitch graph of the specification |
| FilterChain.GenerateStereoConfig | src/biglinux_microphone/audio/filter_chain.py:422-474 | dispatches radio and voice changer by name and everything else to dual mono, as the specification does |
| FilterChain.Generate | src/biglinux_microphone/audio/filter_chain.py:196-208 | `generate` computes `Compile`, whose shape the lemmas above state |
| FilterChain.RenderedStreamProps | src/biglinux_microphone/audio/filter_chain.py:367-374 | the channel count and both position lists of the graph appear in the rendered text |
| FilterChain.RenderedStereoPositions | src/biglinux_microphone/audio/filter_chain.py:538-545 | a stereo file captures `[ MONO ]` and plays back `[ FL FR ]` |
| FilterChain.RenderedMonoPositions | src/biglinux_microphone/audio/filter_chain.py:367-374 | a mono file plays back `[ MONO ]` with `audio.channels = 1` |
| FilterChain.Save | src/biglinux_microphone/audio/filter_chain.py:800-821 | the file at the given path, by default the configuration file in the config directory, now holds the rendered graph, and nothing else changes |
| FilterChain.SaveThenDelete | src/biglinux_microphone/audio/filter_chain.py:800-841 | deleting the file just saved at the same path reports that it existed and leaves every other file as it was before the save; when the unlink fails the error is returned and the saved file stays |
| FilterChain.Delete | src/biglinux_microphone/audio/filter_chain.py:823-840 | an error exactly when the file exists and cannot be unlinked, with every file kept; otherwise true exactly when the file existed, and afterwards it is gone and every other file is unchanged |
| FilterChain.GenerateConfigForSettings | src/biglinux_microphone/audio/filter_chain.py:843-878 | pass-through exactly when AI and gate are both off; a mono request otherwise gives a one-channel graph whose input is the first enabled stage |
| PipeWireService.FirstFilterNode | src/biglinux_microphone/services/pipewire_service.py:830-838 | finds the first Node object whose name contains "big.filter-microphone" or "filter-chain", and finds none exactly when no object qualifies |
| PipeWireService.RadioLiveUpdatesMatchCompressor | src/biglinux_microphone/services/pipewire_service.py:613-624 | each corrected radio update carries the port name and value of the matching control of the compressor node the generator writes for the same width |
| PipeWireService.RadioMakeupAsWrittenDiverges | src/biglinux_microphone/services/pipewire_service.py:617 | as written, the live makeup gain exceeds the configured one by 4+2w dB (6 against 2 at width 0), while ratio, threshold and release agree |
| PipeWireService.PitchLiveUpdatesMatchGraph | src/biglinux_microphone/services/pipewire_service.py:630-644 | the voice-changer updates carry the ports and values of the pitch and gain nodes of the generated graph |
| PipeWireService.ClampBands | src/biglinux_microphone/services/pipewire_service.py:713 | each stored band lies in [-12, 12] and a band already inside is kept |
| PipeWireService.EqLiveUpdatesMatchEqNode | src/biglinux_microphone/services/pipewire_service.py:715-722 | for ten bands within 12 dB, band i is sent to the port and value that the generated equalizer node gives mbeq band `EQ_BAND_TO_MBEQ_INDEX[i]` |
| PipeWireService.EqLiveClampDiverges | src/biglinux_microphone/services/pipewire_service.py:713 | a band of 20 dB is written to the configuration as 20 but sent live as 12 |
| PipeWireService.ConfigFromSettings | src/biglinux_microphone/services/pipewire_service.py:951-976 | the configuration uses mono whenever stereo is disabled, carries the equalizer, AI and gate switches of the settings, and leaves transient and crossfeed level at their defaults |
| PipeWireService.StereoDisabledGivesMono | src/biglinux_microphone/services/pipewire_service.py:951-953 | with stereo disabled in the settings, the generated graph is mono on one channel or the pass-through graph |
| PipeWireService.StereoEnabledRoundTrip | src/biglinux_microphone/services/pipewire_service.py:544-565 | `get_stereo_enabled` reads back what `set_stereo_enabled` set, and enabling keeps a mode that is not mono |
| PipeWireService.BluetoothAutoswitchRoundTrip | src/biglinux_microphone/services/pipewire_service.py:757-810 | `get_bluetooth_autoswitch` reads back what `set_bluetooth_autoswitch` wrote, and a missing policy file reads as off |
| PipeWireService.Service.Status | src/biglinux_microphone/services/pipewire_service.py:193-204 | "enabled" exactly when `is_enabled` holds |
| PipeWireService.Service.constructor | src/biglinux_microphone/services/pipewire_service.py:56-91 | the state `__init__` sets: low-latency model, threshold -36 dB, mono, ten flat bands, an empty queue, no cached id and not busy, with the files already on disk |
| PipeWireService.Service.SyncFromSettings | src/biglinux_microphone/services/pipewire_service.py:123-151 | the audio attributes become those of the settings, the stored mode copied even when stereo is disabled |
| PipeWireService.Service.UpdateParamLive | src/biglinux_microphone/services/pipewire_service.py:878-891 | appends the update at the back of the queue, returns True and changes nothing else |
| PipeWireService.Service.GetFilterChainNodeId | src/biglinux_microphone/services/pipewire_service.py:812-845 | a truthy cached id is returned without a query; otherwise a failed dump gives None, and a successful one caches and returns the id of the first filter node |
| PipeWireService.Service.PerformLiveUpdate | src/biglinux_microphone/services/pipewire_service.py:893-926 | issues exactly the call `LiveUpdateStep` gives: one set-param to the node `LiveNodeId` finds (a truthy cached id, else the first filter node of a successful dump, which is cached), and none without a truthy id; it succeeds exactly when that call returns 0, and a non-zero return drops the cached id |
| PipeWireService.Service.DrainOne | src/biglinux_microphone/services/pipewire_service.py:847-876 | the worker takes the oldest update, leaves the rest of the queue in order, and issues exactly the call `LiveUpdateStep` gives for that update from the current cache |
| PipeWireService.Service.DrainAll | src/biglinux_microphone/services/pipewire_service.py:847-876 | draining takes every pending update in queue order; the calls issued, in order, and the cache left are exactly `DrainCalls` of the queue, the `pw-dump` and `pw-cli` answers and the starting cache |
| PipeWireService.DrainWithCachedNode | src/biglinux_microphone/services/pipewire_service.py:812-814 | with a truthy cached id and every `pw-cli` call returning 0, the worker sends exactly the queued updates, in queue order, to the cached node, and keeps the cache |
| PipeWireService.LiveStepCacheForNext | src/biglinux_microphone/services/pipewire_service.py:916-921 | after a failed `pw-cli` call the next update looks the node up in `pw-dump` again; after a success the next update reuses the same non-empty id |
| PipeWireService.Service.SetModel | src/biglinux_microphone/services/pipewire_service.py:404-418 | stores the model and queues its value on ai:Model only while running |
| PipeWireService.Service.SetStrength | src/biglinux_microphone/services/pipewire_service.py:424-443 | stores the strength clamped to [0, 1] and queues it only while running |
| PipeWireService.Service.SetGateThreshold | src/biglinux_microphone/services/pipewire_service.py:466-481 | stores the threshold clamped to [-60, 0] and queues it only while running |
| PipeWireService.Service.SetGateRange | src/biglinux_microphone/services/pipewire_service.py:487-502 | stores the range clamped to [-90, 0] and queues it only while running |
| PipeWireService.Service.SetGateAttack | src/biglinux_microphone/services/pipewire_service.py:508-514 | stores the attack clamped to [0.1, 500] ms and queues it only while running |
| PipeWireService.Service.SetGateHold | src/biglinux_microphone/services/pipewire_service.py:520-526 | stores the hold clamped to [0, 1000] ms and queues it only while running |
| PipeWireService.Service.SetGateRelease | src/biglinux_microphone/services/pipewire_service.py:532-542 | stores the release clamped to [0, 1000] ms and queues it on the Decay port only while running |
| PipeWireService.Service.SetGateEnabled | src/biglinux_microphone/services/pipewire_service.py:449-460 | stores the switch and queues nothing |
| PipeWireService.Service.SetStereoEnabled | src/biglinux_microphone/services/pipewire_service.py:548-565 | enabling turns mono into dual mono and keeps another mode, disabling sets mono; afterwards `get_stereo_enabled` equals the argument |
| PipeWireService.Service.SetStereoMode | src/biglinux_microphone/services/pipewire_service.py:571-582 | stores the mode and queues nothing |
| PipeWireService.Service.SetCrossfeedEnabled | src/biglinux_microphone/services/pipewire_service.py:661-676 | stores the switch and queues nothing |
| PipeWireService.Service.SetEqEnabled | src/biglinux_microphone/services/pipewire_service.py:682-693 | stores the switch and queues nothing |
| PipeWireService.Service.QueueAll | src/biglinux_microphone/services/pipewire_service.py:626-628 | the update loop appends the updates to the queue in order |
| PipeWireService.Service.SetStereoWidth | src/biglinux_microphone/services/pipewire_service.py:588-655 | stores the width clamped to [0, 1]; while running and not mono it queues the radio updates as written (makeup gain 6 + 6w dB) or the voice-changer updates for the mode, and nothing in dual mono |
| PipeWireService.Service.SetEqBands | src/biglinux_microphone/services/pipewire_service.py:699-725 | a list that is not ten long is refused and changes nothing; otherwise the bands are stored clamped to 12 dB and queued band by band only while running with the equalizer on |
| PipeWireService.Service.SetEqBand | src/biglinux_microphone/services/pipewire_service.py:727-755 | an index outside 0..9 is refused with no change; an index the stored list does not reach is an IndexError; otherwise only that band changes, clamped, and is queued only while running with the equalizer on |
| PipeWireService.Service.SetBluetoothAutoswitch | src/biglinux_microphone/services/pipewire_service.py:776-810 | the policy file holds the text for the switch when it can be written, and the result says whether it was |
| PipeWireService.Service.StopFilterChain | src/biglinux_microphone/services/pipewire_service.py:356-398 | reports whether the file is gone: always when there was none, else exactly when unlinking succeeds; then the file is gone and the cached id cleared, while a failed unlink, which raises before line 389, leaves the file and the cached id as they were |
| PipeWireService.Service.GenerateConfig | src/biglinux_microphone/services/pipewire_service.py:938-982 | the configuration file holds the text for the given settings, or for the settings file's; a failed load or a failed write leaves the file unchanged |
| PipeWireService.Service.Start | src/biglinux_microphone/services/pipewire_service.py:210-275 | refused with no change while busy; otherwise it ends not busy. When the old file cannot be unlinked the exception is caught: False, with the audio state, the file and the cached id unchanged. Otherwise it ends with no cached id, syncs the given settings, and succeeds exactly when the settings file loads, its configuration is written (an OSError is caught and gives False) and the process is spawned; the file then exists exactly when it was written |
| PipeWireService.Service.Launch | src/biglinux_microphone/services/pipewire_service.py:230-264 | once the old file is gone: the given settings are synced, the file is the one written from the settings file when that loads and the write succeeds (else none), the cached id is cleared, and the result is whether the settings loaded, the file was written and the process spawned |
| PipeWireService.Service.WriteFromSettingsFile | src/biglinux_microphone/services/pipewire_service.py:236-238 | with the old file removed, the file written in `start` holds the text for the settings file exactly when that file loads and the write succeeds; otherwise there is no file |
| PipeWireService.Service.PollUntilEnabled | src/biglinux_microphone/services/pipewire_service.py:256-264 | with the configuration file present the first poll succeeds and clears the cached id |
| PipeWireService.Service.Stop | src/biglinux_microphone/services/pipewire_service.py:332-354 | refused with no change while busy; otherwise it ends not busy. When the file cannot be unlinked the exception is caught: False, with the file and the cached id kept. Otherwise there is no configuration file and no cached id, and it succeeds exactly when nothing is seen running |
| PipeWireService.Service.Restart | src/biglinux_microphone/services/pipewire_service.py:1032-1036 | stop then start: the queue and audio state are kept and, unless busy, the service ends not busy; when the old file cannot be unlinked both steps fail and keep the file and the cached id, otherwise it ends with no cached id and the file written from the settings file when that loads and the write succeeds, else no file |
| PipeWireService.Service.ApplyConfig | src/biglinux_microphone/services/pipewire_service.py:984-1006 | syncs the given settings; fails with no change to the file, the busy flag or the cached id exactly when no settings are given and the settings file does not load, or when writing the file fails; otherwise it always restarts, because `is_enabled` sees the file just written. When not busy the restart leaves it not busy; if the file just written cannot be unlinked, that file and the cached id stay, otherwise there is no cached id and the file is the one written from the settings file when that loads and the restart's write succeeds, else no file |
| PipeWireService.Service.SyncAndGenerate | src/biglinux_microphone/services/pipewire_service.py:993-998 | the audio attributes become those of the given settings (else stay); the settings used are the given ones, else the settings file's, and the file is written exactly when they load and the write succeeds (else left as it was); the update queue, the busy flag and the cached id are untouched |
| Config.NoiseModelFromValue | src/biglinux_microphone/config.py:87-97 | `NoiseModel(i)` succeeds exactly for 0 and 1 and gives the member with that value |
| Config.StereoModeFromValue | src/biglinux_microphone/config.py:100-106 | `StereoMode(s)` succeeds exactly for the four stored names and gives the member with that name |
| Config.VisualizerStyleFromValue | src/biglinux_microphone/config.py:109-114 | `VisualizerStyle(i)` succeeds exactly for 0, 1 and 2 and gives the member with that value |
| Config.FlatBands | src/biglinux_microphone/config.py:273-275 | the default band list has EQ_BAND_COUNT entries, all EQ_BAND_DEFAULT |
| Config.ToDict | src/biglinux_microphone/config.py:327-346 | every section is written, with each enum stored as its value |
| Config.ParseStereoMode | src/biglinux_microphone/config.py:370-381 | a missing mode means dual mono, the legacy names map to voice changer or dual mono, a current name maps to its member, and anything else is a ValueError |
| Config.FromDictToDict | src/biglinux_microphone/config.py:327-430 | `from_dict(to_dict(s)) == s` for all settings |
| Config.FromDictFailsIffBadEnum | src/biglinux_microphone/config.py:347-430 | `from_dict` fails exactly when a stored model, stereo mode or visualizer style is not a member (legacy stereo names included) |
| Config.FromDictDefaultAsymmetry | src/biglinux_microphone/config.py:351-381 | a stereo section without "enabled" gives disabled stereo although the dataclass default is enabled; a section without "model" gives the low-latency model although the default is full quality |
| Config.FromDictKeepsBands | src/biglinux_microphone/config.py:386-392 | stored equalizer bands are taken as they are, with no length or range check |
| Config.PluginFor | src/biglinux_microphone/config.py:534-537 | the plugin found is the first whose model list holds the model, and none is found only when no list holds it |
| Config.GetPluginForModel | src/biglinux_microphone/config.py:524-537 | a plugin is returned exactly when some plugin lists the model, and that plugin lists it |
| Config.IndexOf | src/biglinux_microphone/config.py:555-558 | `list.index`: the first position of the element, or the length when it is absent |
| Config.ModelControlValueIsIndex | src/biglinux_microphone/config.py:540-558 | the control value is the model's position in the GTCRN list: 0 for low latency, 1 for full quality |
| Config.PresetsWellFormed | src/biglinux_microphone/config.py:565-611 | every equalizer preset has ten bands within [-40, 40] and the preset keys are distinct |
| Config.LoadSavedSettings | src/biglinux_microphone/config.py:438-485 | loading what `save_settings` wrote gives the settings back; a missing or unreadable file never makes loading fail |
| ConfigPersistence.PostInit | src/biglinux_microphone/services/config_persistence.py:56-59 | a missing band list becomes ten zero bands, a given list (even an empty one) is kept, and no other field changes |
| ConfigPersistence.ToFilterConfig | src/biglinux_microphone/services/config_persistence.py:61-75 | every carried field is copied, the bands are kept unless None or empty (then ten zeros), and gate timings, crossfeed level and transient keep the `FilterChainConfig` defaults |
| ConfigPersistence.DefaultBandsAreFlat | src/biglinux_microphone/services/config_persistence.py:56-75 | a state built without bands converts exactly as it would after `__post_init__`, with ten flat bands |
| ConfigPersistence.ServiceState | src/biglinux_microphone/services/config_persistence.py:150-166 | the state saved from the service always has noise reduction on and carries the given model, mode, threshold and band list |
| ConfigPersistence.SavedStateRunsNoiseReduction | src/biglinux_microphone/services/config_persistence.py:130-166 | whatever the service state, the saved configuration starts with the AI stage and is never the pass-through graph |
| ConfigPersistence.ConfigPersistence.constructor | src/biglinux_microphone/services/config_persistence.py:92-105 | the directory is the given one or the default under the home directory, and the configuration file is that directory joined with `source-gtcrn-smart.conf` |
| ConfigPersistence.ConfigPersistence.ConfigPath | src/biglinux_microphone/services/config_persistence.py:103-105 | the path is the configuration file fixed at construction |
| ConfigPersistence.ConfigPersistence.Save | src/biglinux_microphone/services/config_persistence.py:111-128 | a successful write returns the configuration path, after which the file holds the rendered graph of the state; a failed write is an error and changes no file; no other file appears or disappears |
| ConfigPersistence.ConfigPersistence.SaveFromServiceState | src/biglinux_microphone/services/config_persistence.py:130-166 | a successful write leaves the configuration file holding the rendered graph of the service state with noise reduction on, and nothing else changed; a failed write is an error and changes nothing |
| ConfigPersistence.ConfigPersistence.Delete | src/biglinux_microphone/services/config_persistence.py:168-179 | an error exactly when the file exists and cannot be unlinked (the OSError escapes), with the files unchanged; otherwise True exactly when the file existed, and afterwards `config_exists` is False and only that file is gone |
| ConfigPersistence.SaveThenDelete | src/biglinux_microphone/services/config_persistence.py:111-179 | deleting right after a save fails exactly when there is a file (always after a successful write) that cannot be unlinked, and then the file stays and no other file changed; otherwise it reports that the file existed and leaves the other files as they were before the save |
| ProfileService.DefaultProfile | src/biglinux_microphone/services/profile_service.py:81-136 | each built-in profile is stored under its own id and has ten equalizer bands |
| ProfileService.ShortUuidIsNotDefault | src/biglinux_microphone/services/profile_service.py:31 | an eight-digit hexadecimal id never equals a built-in id, so a new profile cannot replace a built-in one |
| ProfileService.CopyProfile | src/biglinux_microphone/services/profile_service.py:288-307 | the copy has the new id, name, description and timestamps and every audio field of the base profile |
| ProfileService.Filter | src/biglinux_microphone/services/profile_service.py:220-229 | keeps exactly the keys that are (or are not) built-in ids, in their order |
| ProfileService.Insert | src/biglinux_microphone/services/profile_service.py:224-230 | inserting a profile into the sorted list keeps every profile and adds one |
| ProfileService.InsertKeepsSorted | src/biglinux_microphone/services/profile_service.py:224-230 | insertion into a list sorted by lower-cased name keeps it sorted |
| ProfileService.SortByName | src/biglinux_microphone/services/profile_service.py:224-230 | the sort is a permutation of its input |
| ProfileService.SortByNameSorted | src/biglinux_microphone/services/profile_service.py:224-230 | the sorted list is ordered by lower-cased name |
| ProfileService.DefaultMap | src/biglinux_microphone/services/profile_service.py:165-167 | the initial dictionary holds exactly the built-in ids, each with its built-in profile |
| ProfileService.LoadAll | src/biglinux_microphone/services/profile_service.py:177-179 | after loading, the keys are the built-in ids plus the ids of the file's profiles |
| ProfileService.LoadAllKeepsLast | src/biglinux_microphone/services/profile_service.py:177-179 | when the file holds an id twice, the later profile wins |
| ProfileService.LoadAllKeepsOthers | src/biglinux_microphone/services/profile_service.py:177-179 | an id the file does not mention keeps its built-in profile |
| ProfileService.ProfileService.UserKeys | src/biglinux_microphone/services/profile_service.py:190-194 | the user profiles are exactly the keys after the built-in ones |
| ProfileService.ProfileService.ListProfilesSpec | src/biglinux_microphone/services/profile_service.py:212-231 | `list_profiles` gives the four built-in profiles first in their order, then the user profiles sorted by lower-cased name, and is a permutation of all stored profiles |
| ProfileService.ProfileService.UserProfilesSpec | src/biglinux_microphone/services/profile_service.py:186-200 | `_save_profiles` writes exactly the user profiles, each once |
| ProfileService.ProfileService.constructor | src/biglinux_microphone/services/profile_service.py:138-184 | the built-in profiles, then each profile of the file, and the active id the file names |
| ProfileService.ProfileService.LoadFileProfiles | src/biglinux_microphone/services/profile_service.py:178-180 | each profile of the file is stored under its id, in file order, and the key order keeps no repeats and the built-in ids first |
| ProfileService.ProfileService.Put | src/biglinux_microphone/services/profile_service.py:177-178 | a dictionary store: only that key changes, and a new key goes last in iteration order |
| ProfileService.ProfileService.SaveProfiles | src/biglinux_microphone/services/profile_service.py:186-210 | when the write succeeds the profiles file holds the active id and the user profiles in insertion order; a failed write is swallowed and leaves the old file |
| ProfileService.ProfileService.GetProfile | src/biglinux_microphone/services/profile_service.py:233-243 | a profile is found exactly when the id is stored, and it is the stored one |
| ProfileService.ProfileService.GetActiveProfile | src/biglinux_microphone/services/profile_service.py:245-254 | a profile is found exactly when the active id is nonempty and stored |
| ProfileService.ProfileService.SetActiveProfile | src/biglinux_microphone/services/profile_service.py:256-269 | an unknown id leaves the active id and the file unchanged; None clears it; a stored id becomes the active profile; the file is saved with the new active id when the write succeeds, else left as it was |
| ProfileService.ProfileService.CreateProfile | src/biglinux_microphone/services/profile_service.py:271-315 | with a truthy stored base id the new profile copies the base, otherwise it has default fields; it is added under the fresh id, and the profiles file is saved when the write succeeds, else left as it was |
| ProfileService.ProfileService.UpdateProfile | src/biglinux_microphone/services/profile_service.py:317-335 | a missing or built-in id changes nothing; otherwise only that entry is replaced, with a new modification time, and the profiles file is saved when the write succeeds, else left as it was |
| ProfileService.ProfileService.DeleteProfile | src/biglinux_microphone/services/profile_service.py:337-363 | True exactly for a stored user id; then only that entry is removed, a matching active id is cleared, and the profiles file is saved when the write succeeds; otherwise nothing changes |
| ProfileService.ProfileService.DuplicateProfile | src/biglinux_microphone/services/profile_service.py:365-387 | a missing id gives None and no change; otherwise a copy named by the argument, or the original name plus " (Copy)", is added and the profiles file is saved when the write succeeds, else left as it was |
| ProfileService.ProfileService.ExportProfile | src/biglinux_microphone/services/profile_service.py:389-411 | True exactly for a stored id whose file can be written, and then the written record is that profile |
| ProfileService.ProfileService.ImportProfile | src/biglinux_microphone/services/profile_service.py:413-441 | an unreadable file gives None and no change; otherwise the profile is stored under a fresh id named "<name> (Imported)" with fresh timestamps, and the profiles file is saved when the write succeeds, else left as it was |
| ProfileService.ProfileService.ApplyProfile | src/biglinux_microphone/services/profile_service.py:443-486 | False exactly for a missing id, with nothing changed; otherwise each given record takes the profile's values (an unknown mode gives mono) and the profile becomes active; when the write succeeds the profile file holds that id as active and the user profiles, else it is left as it was |
| Validators.ValidateRange | src/biglinux_microphone/utils/validators.py:16-39 | fails exactly when the value lies outside [lo, hi]; otherwise returns the value unchanged |
| Validators.Clamp | src/biglinux_microphone/utils/validators.py:42-54 | the result lies in [lo, hi] for a nonempty range, equals the value inside it, lo below it (or for an inverted range) and hi above it |
| Validators.ClampInt | src/biglinux_microphone/utils/validators.py:42-54 | the same four cases for integer arguments |
| Validators.Scale | src/biglinux_microphone/utils/validators.py:93 | a factor in [0, 1] times a span lies between 0 and that span, whatever the span's sign |
| Validators.Normalize | src/biglinux_microphone/utils/validators.py:57-75 | the position is always in [0, 1]: 0 for an empty range, 0 at or below lo and 1 at or above hi for a nonempty range, and inside the range it scales back to the offset from lo |
| Validators.Denormalize | src/biglinux_microphone/utils/validators.py:78-94 | the result lies between lo and hi, in either order of the two |
| Validators.DenormalizeNormalize | src/biglinux_microphone/utils/validators.py:57-94 | denormalize(normalize(v)) == v for every v in a nonempty range |
| Validators.NormalizeDenormalize | src/biglinux_microphone/utils/validators.py:57-94 | normalize(denormalize(p)) == p for every p in [0, 1] |
| Validators.PercentageToDb | src/biglinux_microphone/utils/validators.py:126-139 | 50% maps to 0 dB, 0% to -range, 100% to +range, and [0, 100] into [-range, range] |
| Validators.DbToPercentage | src/biglinux_microphone/utils/validators.py:142-154 | fails (division by zero) exactly for a zero range; otherwise the percentage lies in [0, 100] |
| Validators.DbToPercentageInverts | src/biglinux_microphone/utils/validators.py:126-154 | db_to_percentage(percentage_to_db(p, r), r) == p for every p in [0, 100] and nonzero r |
| Validators.ValidateFilterChainParam | src/biglinux_microphone/utils/validators.py:212-244 | a known parameter ends inside its table range and is unchanged when already inside; an unknown name passes through |
| Validators.FilterChainParamTable | src/biglinux_microphone/utils/validators.py:228-242 | the table has exactly the seven parameters strength, threshold, attack, release, width, crossfeed and gain, each with lo < hi |
| Validators.IsValidSourceName | src/biglinux_microphone/utils/validators.py:312-327 | true exactly when the name is nonempty and holds none of the seven characters `<`, `>`, `:`, `"`, the vertical bar, `?` and `*` |
| Validators.ReplaceChars | src/biglinux_microphone/utils/validators.py:341-344 | the replacement keeps the length of the name; each listed character becomes `_` and every other character stays where it was |
| Validators.SanitizeProfileName | src/biglinux_microphone/utils/validators.py:330-349 | the replacement loop, strip, 64-character cut and "Untitled" fallback compute SanitizedName |
| Validators.CutOrUntitledSafe | src/biglinux_microphone/utils/validators.py:346-349 | cutting to 64 characters and falling back to "Untitled" gives a nonempty name of at most 64 characters and keeps it free of invalid characters |
| Validators.ReplaceCharsAvoids | src/biglinux_microphone/utils/validators.py:341-344 | after the replacement no invalid character is left |
| Validators.StripAvoids | src/biglinux_microphone/utils/validators.py:347 | stripping does not bring back an invalid character |
| Validators.SanitizedNameIsSafe | src/biglinux_microphone/utils/validators.py:330-349 | every sanitized name is nonempty, at most 64 characters and free of the nine characters the source rejects |
| Validators.SanitizedNameKeepsSafeNames | src/biglinux_microphone/utils/validators.py:330-349 | a name that is short, trimmed and already free of invalid characters is returned unchanged |
| Validators.ReplaceCharsKeeps | src/biglinux_microphone/utils/validators.py:341-344 | the replacement does not change a name that has no invalid character |
| AudioMonitor.DefaultLevels | src/biglinux_microphone/services/audio_monitor.py:42-51 | the default input level and peak are 0 and there are NUM_SPECTRUM_BANDS (32) bands |
| AudioMonitor.BandBins | src/biglinux_microphone/services/audio_monitor.py:99-104 | every band's bin range starts at bin 1 or later and ends at bin FFT_SIZE/2 or earlier, its start being the truncated edge index raised to 1 |
| AudioMonitor.BandWeight | src/biglinux_microphone/services/audio_monitor.py:108-112 | a band's compensation weight never exceeds 5, and is otherwise the square root of its centre frequency over 200 Hz |
| AudioMonitor.PeakAmplitude | src/biglinux_microphone/services/audio_monitor.py:427 | the peak is the largest absolute sample: no sample exceeds it and one sample reaches it |
| AudioMonitor.Normalized | src/biglinux_microphone/services/audio_monitor.py:466-468 | the normalised value lies in [0, 1], is 0 at or below -80 dB and 1 at or above 0 dB |
| AudioMonitor.MeterLevel | src/biglinux_microphone/services/audio_monitor.py:427-435 | the meter level lies in [0, 1] and a peak of at most 1e-10 gives 0 |
| AudioMonitor.BandValue | src/biglinux_microphone/services/audio_monitor.py:449-469 | every band value lies in [0, 1], and a weighted magnitude of at most 1e-10 gives 0 |
| AudioMonitor.BandValues | src/biglinux_microphone/services/audio_monitor.py:449-469 | one value per band range, each computed from its own range and weight |
| AudioMonitor.NextLevels | src/biglinux_microphone/services/audio_monitor.py:423-483 | the meter lies in [0, 1] and equals the output level; the peak is the meter or the decayed previous peak, whichever is larger; at most 30 bands are published, each in [0, 1] |
| AudioMonitor.OverlapChunks | src/biglinux_microphone/services/audio_monitor.py:411-414 | every chunk the buffering loop processes holds exactly FFT_SIZE samples |
| AudioMonitor.OverlapRest | src/biglinux_microphone/services/audio_monitor.py:411-414 | the loop ends with fewer than FFT_SIZE samples in the buffer |
| AudioMonitor.OverlapWindows | src/biglinux_microphone/services/audio_monitor.py:411-414 | chunk k is the window of FFT_SIZE samples starting at sample k times FFT_SIZE/2, so consecutive windows overlap by half |
| AudioMonitor.OverlapRestIsSuffix | src/biglinux_microphone/services/audio_monitor.py:411-414 | the samples kept are the buffer after the first FFT_SIZE/2 samples of each processed window |
| AudioMonitor.FoldLevelsSnoc | src/biglinux_microphone/services/audio_monitor.py:411-414 | processing one more window applies the level update to the levels after the earlier windows |
| AudioMonitor.AudioMonitor.constructor | src/biglinux_microphone/services/audio_monitor.py:62-120 | band i gets the bin range and weight of its edges, the buffer is empty, the levels are the defaults and the monitor is stopped |
| AudioMonitor.AudioMonitor.ProcessFftChunk | src/biglinux_microphone/services/audio_monitor.py:423-487 | the band loop computes the new levels of the specification |
| AudioMonitor.AudioMonitor.ConsumeWindow | src/biglinux_microphone/services/audio_monitor.py:412-414 | one pass processes the first window and drops its first half |
| AudioMonitor.AudioMonitor.DrainWindows | src/biglinux_microphone/services/audio_monitor.py:411-414 | the loop processes every full half-overlapping window in order and leaves the short rest |
| AudioMonitor.AudioMonitor.OnNewSample | src/biglinux_microphone/services/audio_monitor.py:383-421 | appending the samples and running the loop processes exactly the windows of the old buffer plus the new samples, keeping fewer than FFT_SIZE samples |
| AudioMonitor.AudioMonitor.Start | src/biglinux_microphone/services/audio_monitor.py:152-230 | a running monitor returns True and changes nothing; otherwise the buffer is reset, the filtered source is chosen if found, else the default one, and the result is whether the pipeline started |
| AudioMonitor.AudioMonitor.Stop | src/biglinux_microphone/services/audio_monitor.py:232-248 | nothing happens when stopped; otherwise the monitor stops, drops its callback and resets the levels to the defaults |
| SpectrumWidget.SourceIndex | src/biglinux_microphone/ui/spectrum_widget.py:118-121 | the input band shown at widget band i is a valid input index, namely the slot of [0, m) cut into n slots that holds i, so the `min` with n-1 never applies |
| SpectrumWidget.SourceIndexMonotone | src/biglinux_microphone/ui/spectrum_widget.py:118-121 | a later widget band never shows an earlier input band |
| SpectrumWidget.SourceIndexIdentity | src/biglinux_microphone/ui/spectrum_widget.py:116-121 | with as many inputs as widget bands the general index rule picks band i for band i |
| SpectrumWidget.Target | src/biglinux_microphone/ui/spectrum_widget.py:116-121 | every target lies in [0, 1] |
| SpectrumWidget.Resample | src/biglinux_microphone/ui/spectrum_widget.py:114-121 | `set_bands` writes one target per widget band, each computed for its own index |
| SpectrumWidget.ResampleMeaning | src/biglinux_microphone/ui/spectrum_widget.py:114-121 | every target is the input band at its source index clamped to [0, 1], and with equal lengths target i is input i clamped |
| SpectrumWidget.NextBand | src/biglinux_microphone/ui/spectrum_widget.py:172-176 | a band moves toward its target without passing it, closing 45% of a gap wider than 0.001 and staying put otherwise |
| SpectrumWidget.HoldStep | src/biglinux_microphone/ui/spectrum_widget.py:158-168 | one frame of a held peak: a new high is taken and held for the full count, the value never rises above the larger of the old peak and the input, never goes negative, and the counter stays within the hold |
| SpectrumWidget.HoldLasts | src/biglinux_microphone/ui/spectrum_widget.py:179-185 | while no frame exceeds the held peak it stays unchanged for as many frames as its counter says |
| SpectrumWidget.FallenClosedForm | src/biglinux_microphone/ui/spectrum_widget.py:186-187 | falling by d for k frames leaves the peak at max(0, v - k d) |
| SpectrumWidget.DecayAfterHold | src/biglinux_microphone/ui/spectrum_widget.py:186-187 | once the hold has run out, each silent frame takes the decay off the peak, down to 0 |
| SpectrumWidget.NewPeakHeldThenDecays | src/biglinux_microphone/ui/spectrum_widget.py:158-187 | a new high followed by silence is shown unchanged for the whole hold and then falls by the decay per frame, floored at 0 |
| SpectrumWidget.HoldRunAppend | src/biglinux_microphone/ui/spectrum_widget.py:143-192 | running the frames of two stretches one after the other is running them together |
| SpectrumWidget.MaxBand | src/biglinux_microphone/ui/spectrum_widget.py:148 | the highest target: 0 for no bands, otherwise one of the targets and at least every target |
| SpectrumWidget.Db | src/biglinux_microphone/ui/spectrum_widget.py:309-316 | the displayed value lies in [-80, 0] dB; a ratio at or below 0.0001 shows -80 and a ratio up to 1 shows -80 + 80 times the ratio |
| SpectrumWidget.DbMonotone | src/biglinux_microphone/ui/spectrum_widget.py:309-316 | a higher meter ratio never shows a lower dB value |
| SpectrumWidget.Colour | src/biglinux_microphone/ui/spectrum_widget.py:318-330 | red exactly above -3 dB, orange exactly in (-10, -3] dB |
| SpectrumWidget.SpectrumAnalyzer.constructor | src/biglinux_microphone/ui/spectrum_widget.py:55-95 | every band, target, peak, counter, level and peak hold starts at zero |
| SpectrumWidget.SpectrumAnalyzer.SetBands | src/biglinux_microphone/ui/spectrum_widget.py:109-121 | an empty input leaves every target unchanged; otherwise every target is rewritten by the resampling rule |
| SpectrumWidget.SpectrumAnalyzer.AnimateMeter | src/biglinux_microphone/ui/spectrum_widget.py:147-168 | the meter level falls by 0.01 unless a higher target arrives, and the peak hold follows the held-peak step with 60 frames and decay 0.005 |
| SpectrumWidget.SpectrumAnalyzer.AnimateBands | src/biglinux_microphone/ui/spectrum_widget.py:170-187 | each band takes its next position and then its peak marker follows the held-peak step with 40 frames and decay 0.01 |
| SpectrumWidget.SpectrumAnalyzer.Animate | src/biglinux_microphone/ui/spectrum_widget.py:143-192 | one frame of the meter followed by one frame of every band, keeping every height, target and peak in [0, 1] |
| SpectrumWidget.SpectrumAnalyzer.MeterDb | src/biglinux_microphone/ui/spectrum_widget.py:309-316 | both readings lie in [-80, 0] dB and a peak hold at least the level never reads lower |
| SpectrumWidget.SpectrumAnalyzer.Reset | src/biglinux_microphone/ui/spectrum_widget.py:558-566 | bands, targets, peaks, counters, level and peak hold go to zero, while the peak-hold counter is kept |
| VisualizerWidget.Glide | src/biglinux_microphone/ui/visualizer_widget.py:107-116 | one LevelBar animation frame never overshoots the target, at least 30% of the remaining distance is covered, and a level within 0.001 lands exactly on the target |
| VisualizerWidget.GlideConverges | src/biglinux_microphone/ui/visualizer_widget.py:107-116 | after k frames toward a fixed target the distance has shrunk at least by the factor 0.7^k, so the bar converges to the target |
| VisualizerWidget.LevelBar.constructor | src/biglinux_microphone/ui/visualizer_widget.py:36-82 | a new bar starts at level, target and peak 0 with no peak-hold timer |
| VisualizerWidget.LevelBar.SetLevel | src/biglinux_microphone/ui/visualizer_widget.py:84-99 | the target is the input clamped to [0, 1]; the peak becomes the maximum of the old peak and the input, unclamped; the hold timer runs when it already ran or the peak rose |
| VisualizerWidget.LevelBar.DecayPeak | src/biglinux_microphone/ui/visualizer_widget.py:101-105 | when the hold timer fires the peak marker drops to the current level and the timer is cleared |
| VisualizerWidget.LevelBar.Animate | src/biglinux_microphone/ui/visualizer_widget.py:107-118 | the level after one frame is Glide of the old level toward the target; nothing else changes |
| VisualizerWidget.NextBar | src/biglinux_microphone/ui/visualizer_widget.py:335-346 | a spectrum bar never overshoots; a bar further than 0.001 from its target closes exactly a quarter of the distance, a closer one stays where it is |
| VisualizerWidget.Overlay | src/biglinux_microphone/ui/visualizer_widget.py:304-312 | after set_bands the first min(len(bands), num_bands) targets are the clamped inputs and the remaining targets keep their value |
| VisualizerWidget.OverlayIdempotent | src/biglinux_microphone/ui/visualizer_widget.py:304-312 | setting the same bands twice is the same as setting them once |
| VisualizerWidget.OverlayCoveringForgets | src/biglinux_microphone/ui/visualizer_widget.py:304-312 | an input with at least num_bands values makes the new targets independent of the old ones |
| VisualizerWidget.SpectrumVisualizer.constructor | src/biglinux_microphone/ui/visualizer_widget.py:270-281 | a new visualizer has num_bands bars and targets, all 0 |
| VisualizerWidget.SpectrumVisualizer.SetBands | src/biglinux_microphone/ui/visualizer_widget.py:304-312 | the targets become Overlay of the old targets and the input; bars are untouched |
| VisualizerWidget.SpectrumVisualizer.Animate | src/biglinux_microphone/ui/visualizer_widget.py:335-346 | every bar takes one NextBar step toward its own target; the targets are unchanged |
| VisualizerWidget.Unroll | src/biglinux_microphone/ui/visualizer_widget.py:559-561 | reading the ring from a start slot yields every slot, the i-th read being slot (start + i) mod size |
| VisualizerWidget.Recent | src/biglinux_microphone/ui/visualizer_widget.py:471-481 | the last buffer_size samples of the history, padded in front with the initial zeros, has exactly buffer_size entries |
| VisualizerWidget.TraversalVisitsEverySlotOnce | src/biglinux_microphone/ui/visualizer_widget.py:559-561 | the draw loop's index (sample_index + i) mod buffer_size is injective over i and reaches every slot, so each sample is drawn exactly once |
| VisualizerWidget.UnrollAfterWrite | src/biglinux_microphone/ui/visualizer_widget.py:495-503 | writing a sample at the read start and advancing the index drops the oldest sample from the read order and appends the new one |
| VisualizerWidget.RecentSnoc | src/biglinux_microphone/ui/visualizer_widget.py:495-503 | one more sample slides the recent window by one: the oldest leaves and the new sample is last |
| VisualizerWidget.Waveform.constructor | src/biglinux_microphone/ui/visualizer_widget.py:471-481 | a new waveform holds buffer_size zeros, writes next at slot 0 and has seen no sample |
| VisualizerWidget.Waveform.AddSample | src/biglinux_microphone/ui/visualizer_widget.py:495-504 | with a non-empty buffer only the slot at the index takes the sample, the index advances modulo the size and the read order drops the oldest sample and appends the new one; with size 0 (IndexError in the widget) nothing changes |
| VisualizerWidget.Waveform.DrawOrder | src/biglinux_microphone/ui/visualizer_widget.py:520-561 | nothing is drawn while every sample is zero; otherwise every slot is drawn once starting at the index, which is the last buffer_size samples oldest first |
| MainView.SelectedStereoMode | src/biglinux_microphone/ui/main_view.py:807-819 | the combo never yields MONO: an index in range selects DUAL_MONO, RADIO or VOICE_CHANGER in that order, any other index DUAL_MONO |
| MainView.ComboIndex | src/biglinux_microphone/ui/main_view.py:717-728 | a stored mode is shown at its position among the three combo modes; MONO (not offered) is shown at index 0 |
| MainView.ComboRoundTrip | src/biglinux_microphone/ui/main_view.py:717-728 | selecting an index and looking up the mode's index gives the index back, and a stored mode reads back as itself, except MONO which reads back as DUAL_MONO |
| MainView.LoadStereo | src/biglinux_microphone/ui/main_view.py:710-736 | loading the stereo section selects the mode's combo index, then tells the service whether stereo is on, the mode (MONO exactly when stereo is off, else the stored non-MONO mode) and the width, in that order |
| MainView.MonitorChannels | src/biglinux_microphone/ui/main_view.py:1474-1491 | the monitor uses one channel exactly when noise reduction is off and stereo is off or in MONO or DUAL_MONO mode, two otherwise |
| MainView.ServiceStateCall | src/biglinux_microphone/ui/main_view.py:849-872 | with noise reduction on, a running service is re-applied and a stopped one started; with it off the service is stopped; exactly one of the three happens |
| MainView.ThresholdDb | src/biglinux_microphone/ui/main_view.py:1075-1083 | the threshold slider maps 0..100 % into -60..0 dB, with 0 % at -60 dB and 100 % at 0 dB |
| MainView.RangeDb | src/biglinux_microphone/ui/main_view.py:1092-1099 | the range slider maps 0..100 % into 0..-80 dB, with 0 % at 0 dB and 100 % at -80 dB |
| MainView.SlidersMonotone | src/biglinux_microphone/ui/main_view.py:1075-1099 | moving either gate slider up never lowers the threshold and never lessens the reduction, despite the truncation by int() |
| MainView.CustomIndexIsCustom | src/biglinux_microphone/ui/main_view.py:1340-1347 | "custom" is the ninth equalizer preset, and the only one with that name, so the index the band handler selects is the custom preset |
| MainView.BandChanged | src/biglinux_microphone/ui/main_view.py:1323-1347 | a band edit sets that band when it exists, leaves every other band and the band count alone, and switches the preset to "custom" |
| MainView.PresetSelected | src/biglinux_microphone/ui/main_view.py:1286-1321 | an out-of-range index changes nothing; "custom" only renames the preset; any other preset also replaces the bands by its own |
| MainView.CustomKeepsEdits | src/biglinux_microphone/ui/main_view.py:1286-1347 | choosing "custom" after editing a band keeps the edited bands |
| MainView.PresetGivesWellFormedBands | src/biglinux_microphone/ui/main_view.py:1286-1321 | choosing any preset other than "custom" leaves ten bands within the equalizer limits, whatever the bands were before |
| MainView.BandChangeKeepsWellFormed | src/biglinux_microphone/ui/main_view.py:1323-1335 | an in-range slider edit of well-formed bands keeps them well formed |
| MainView.MainWindow.constructor | src/biglinux_microphone/ui/main_view.py:68-120 | a new window holds the loaded settings and is not loading; the main switch shows what `is_enabled` answered; the service got the six gate calls, then the stereo calls of `LoadStereo`, then the equalizer switch and bands; the stored preset is selected when it exists; the last known state is what `is_enabled` answered when polling started |
| MainView.MainWindow.LoadState | src/biglinux_microphone/ui/main_view.py:584-764 | ends not loading with the main switch on the service's state; appends the gate calls in order, then the stereo calls, then the equalizer switch and bands; selects the stored preset's position when the name exists and keeps the selection otherwise |
| MainView.PresetIndexFrom | src/biglinux_microphone/ui/main_view.py:751-754 | finds a position holding the preset name exactly when some preset from there on has that name |
| MainView.PresetIndexUnique | src/biglinux_microphone/ui/main_view.py:751-754 | since preset names are distinct, the position found is the one holding the name, as `list.index` returns |
| MainView.MainWindow.CheckExternalState | src/biglinux_microphone/ui/main_view.py:1011-1035 | polling always continues; a failed query changes nothing; a state different from a known previous one is copied to the switch and the settings with the loading guard released; the state seen is always recorded |
| MainView.MainWindow.UpdateServiceState | src/biglinux_microphone/ui/main_view.py:849-872 | appends exactly the call ServiceStateCall chooses for the current settings and the service's answer |
| MainView.MainWindow.OnThresholdScaleChanged | src/biglinux_microphone/ui/main_view.py:1075-1090 | while loading nothing happens; otherwise the gate threshold becomes ThresholdDb, a save is scheduled and the service gets the same value |
| MainView.MainWindow.OnRangeScaleChanged | src/biglinux_microphone/ui/main_view.py:1092-1106 | while loading nothing happens; otherwise the gate range becomes RangeDb, a save is scheduled and the service gets the same value |
| MainView.MainWindow.OnEqBandChanged | src/biglinux_microphone/ui/main_view.py:1323-1351 | while loading nothing happens; otherwise the equalizer becomes BandChanged, the combo moves to the custom index when the preset was not custom, and the service call is deferred to the debounce timer |
| MainView.MainWindow.ApplyEqConfig | src/biglinux_microphone/ui/main_view.py:1353-1358 | when the debounce timer fires the service gets the current bands and the timer is cleared |
| MainView.MainWindow.OnEqPresetSelected | src/biglinux_microphone/ui/main_view.py:1286-1321 | while loading or out of range nothing happens; otherwise the equalizer becomes PresetSelected and the service gets the preset's bands unless the preset is "custom" |
| TooltipHelper.HexDigit | src/biglinux_microphone/utils/tooltip_helper.py:480-482 | a character read as a hexadecimal digit has a value below 16 |
| TooltipHelper.ShortFieldRange | src/biglinux_microphone/utils/tooltip_helper.py:480-482 | int(field, 16) on a slice of at most two characters lies in -15..255, a minus sign being the only way below zero |
| TooltipHelper.LStripHash | src/biglinux_microphone/utils/tooltip_helper.py:479 | lstrip("#") removes exactly the leading run of '#' and leaves a suffix of the input that does not start with '#' |
| TooltipHelper.PySlice | src/biglinux_microphone/utils/tooltip_helper.py:480-482 | a Python slice [i:j] clipped to the string is at most j - i characters long |
| TooltipHelper.ParseRgb | src/biglinux_microphone/utils/tooltip_helper.py:479-482 | the three channels parsed from characters 0-2, 2-4 and 4-6 after the '#'s each lie in -15..255; any field that is not hexadecimal gives None (the ValueError) |
| TooltipHelper.HexChar | src/biglinux_microphone/utils/tooltip_helper.py:496 | each digit written reads back as the value it was written from |
| TooltipHelper.Hex2 | src/biglinux_microphone/utils/tooltip_helper.py:496 | "{:02x}" writes a channel below 256 as exactly two characters |
| TooltipHelper.Hex2RoundTrip | src/biglinux_microphone/utils/tooltip_helper.py:480-496 | two digits written by "{:02x}" parse back with int(_, 16) to the channel value |
| TooltipHelper.FormatRgb | src/biglinux_microphone/utils/tooltip_helper.py:496 | a colour is written as seven characters starting with '#' |
| TooltipHelper.FormatRgbRoundTrip | src/biglinux_microphone/utils/tooltip_helper.py:479-496 | parsing a formatted colour gives its three channels back |
| TooltipHelper.AdjustRgb | src/biglinux_microphone/utils/tooltip_helper.py:484-494 | on a dark theme every channel rises by at most 50 and stays at most 255; on a light one each falls by at most 30 and stays at least 0; the result always fits in 0..255 |
| TooltipHelper.AdjustTooltipBackground | src/biglinux_microphone/utils/tooltip_helper.py:473-498 | an input that does not parse comes back unchanged; one that parses gives a "#rrggbb" string that parses to the adjusted channels |
| TooltipHelper.BorderColour | src/biglinux_microphone/utils/tooltip_helper.py:421-435 | the border is the dark grey "#707070" exactly when the background parses and is dark by the luminance test, else "#a0a0a0" |
| TooltipHelper.ParsesStandardColours | src/biglinux_microphone/utils/tooltip_helper.py:396-498 | for a colour given as "#rrggbb" the background is the adjusted colour and the border follows the colour's own darkness |
| TooltipHelper.AdjustMovesAwayFromTheme | src/biglinux_microphone/utils/tooltip_helper.py:421-498 | the background adjustment and the border agree: with the dark border the tooltip is no darker than the theme, with the light border no lighter |
| TooltipHelper.HoverState.constructor | src/biglinux_microphone/utils/tooltip_helper.py:175-245 | a new helper has no active widget, no pending timer and no tooltip shown |
| TooltipHelper.HoverState.ClearTimer | src/biglinux_microphone/utils/tooltip_helper.py:282-286 | a pending show timer is handed back to the main loop and forgotten; none pending, nothing happens |
| TooltipHelper.HoverState.HideTooltip | src/biglinux_microphone/utils/tooltip_helper.py:366-394 | afterwards no tooltip is shown |
| TooltipHelper.HoverState.OnEnter | src/biglinux_microphone/utils/tooltip_helper.py:288-297 | with tooltips disabled or the same widget re-entered nothing changes; otherwise the old timer is removed, the tooltip hidden, the widget becomes active and the new 250 ms timer is pending |
| TooltipHelper.HoverState.OnLeave | src/biglinux_microphone/utils/tooltip_helper.py:299-304 | the pending timer is removed and no widget stays active; a tooltip is hidden only when a widget was active |
| TooltipHelper.HoverState.ShowTooltip | src/biglinux_microphone/utils/tooltip_helper.py:306-364 | the timer never repeats; with no active widget nothing changes; an unusable widget is dropped; a widget without text changes nothing; otherwise the timer is forgotten and the tooltip is shown, or the widget dropped when showing fails |
| Cli.PidsFromLinesMembers | src/biglinux_microphone/cli.py:42-51 | an id is listed exactly when some ps line names the filter-chain process and has that integer as its second field |
| Cli.PidOfLine | src/biglinux_microphone/cli.py:44-50 | one line contributes the integer in its second field when the line names the filter-chain process, and nothing otherwise, a non-integer field included |
| Cli.FindFilterPids | src/biglinux_microphone/cli.py:36-53 | the ids of every matching ps line in line order, none when ps could not be run |
| Cli.NameRun | src/biglinux_microphone/cli.py:88-89 | the [\w.-]* tail of a match is the longest run of name characters, stopping at the first other character |
| Cli.SearchName | src/biglinux_microphone/cli.py:100-103 | a pattern matches exactly when its literal occurs; the match starts at the leftmost occurrence, begins with the literal and continues only with name characters |
| Cli.NameLineHasColon | src/biglinux_microphone/cli.py:121-122 | a line holding "Name:" has a colon, so splitting it at the first colon always yields a second part |
| Cli.NameAbove | src/biglinux_microphone/cli.py:120-122 | the name comes from the highest line among the five above the description that holds "Name:", and there is none exactly when no such line holds it |
| Cli.DescriptionName | src/biglinux_microphone/cli.py:116-122 | the name of the first description line, from line `from` on, that has a name in the five lines above it; none exactly when no such line has one |
| Cli.DescriptionNameFromAbove | src/biglinux_microphone/cli.py:116-122 | a name found was read from a "Name:" line inside the five-line window above a description line |
| Cli.FilterSource | src/biglinux_microphone/cli.py:85-127 | the first pattern wins, then the second, then the first short-listing line mentioning the filter chain, then the long listing's descriptions; no listing means no source |
| Cli.ScanChainLines | src/biglinux_microphone/cli.py:106-110 | the loop returns the second field of the first line that mentions the filter chain and has one |
| Cli.ScanNameAbove | src/biglinux_microphone/cli.py:120-122 | the inner loop returns what NameAbove specifies |
| Cli.ScanDescriptions | src/biglinux_microphone/cli.py:116-124 | the outer loop returns what DescriptionName specifies |
| Cli.GetFilterSource | src/biglinux_microphone/cli.py:85-127 | the step-by-step search returns what FilterSource specifies |
| Cli.CliConfigAsWritten | src/biglinux_microphone/cli.py:168-184 | noise reduction is always on; with stereo disabled the mode is the plain string "mono", which is not the MONO member |
| Cli.CliConfig | src/biglinux_microphone/cli.py:168-184 | noise reduction is always on; the mode is MONO exactly when stereo is disabled or set to MONO; bands, gate and equalizer switch are the saved ones |
| Cli.CliMonoAsWrittenDiverges | src/biglinux_microphone/cli.py:178 | with stereo disabled the configuration as written compiles to a two-channel FL/FR dual-mono graph, while the intended one compiles to one MONO channel |
| Cli.CliConfigMatchesService | src/biglinux_microphone/cli.py:168-184 | the intended configuration compiles to the same graph as the desktop service's configuration with noise reduction on |
| Cli.GenerateConfig | src/biglinux_microphone/cli.py:157-193 | a configuration is written exactly when the settings load and saving succeeds, and it is the mapping as written (`CliConfigAsWritten`) of the loaded settings, with the plain "mono" string when stereo is disabled |
| Cli.KillActions | src/biglinux_microphone/cli.py:56-62 | one kill per listed id, in order |
| Cli.RemoveLegacy | src/biglinux_microphone/cli.py:203-205 | a file is removed exactly when some listed path with that name exists, at most one removal per path, and nothing but removals |
| Cli.RemoveLegacyAppend | src/biglinux_microphone/cli.py:203-205 | the loop follows the list: removing over two lists in turn is removing over the joined list, so removals come in list order |
| Cli.RemoveLegacyTwo | src/biglinux_microphone/cli.py:203-205 | with two listed paths, the first is removed, when it exists, before the second |
| Cli.FirstStuck | src/biglinux_microphone/cli.py:196-205 | the index of the first existing file that cannot be unlinked, or the number of files when there is none: every file before it is absent or removable |
| Cli.RemoveEach | src/biglinux_microphone/cli.py:196-205 | the loop over the files stops at the first one that cannot be unlinked: it completes exactly when there is none, a file is left exactly when it existed and lies at or after that point, and the removals are those of the files before it in order |
| Cli.StuckUnlinkable | src/biglinux_microphone/cli.py:196-205 | the loop runs to the end exactly when every existing file can be unlinked |
| Cli.RemovalsPrefix | src/biglinux_microphone/cli.py:196-205 | the removals done before stopping are a prefix of the full list, a proper one when the file it stopped at exists |
| Cli.RemovalsInOrder | src/biglinux_microphone/cli.py:196-205 | the full list of removals is the current file, when it exists, followed by the existing legacy files in list order |
| Cli.RemoveConfig | src/biglinux_microphone/cli.py:196-205 | completes exactly when every existing file can be unlinked, and then no configuration file exists and the removals are the current file if it exists, then each legacy file that exists, in list order; otherwise the unlink error stops it at the first file that cannot go, the files before it are removed and it and every later file are kept, so the removals are a proper prefix of that list (none when the current file is the one kept) |
| Cli.CmdStatus | src/biglinux_microphone/cli.py:208-215 | 0 and "enabled" exactly when the configuration file exists, 1 and "disabled" otherwise; nothing changes |
| Cli.CmdStop | src/biglinux_microphone/cli.py:243-251 | 0 exactly when every existing configuration file can be unlinked, and then the files are removed first and every filter process is killed after; otherwise the unlink error escapes `main` (exit status 1), only a proper prefix of the removals happened and nothing is killed |
| Cli.CmdStart | src/biglinux_microphone/cli.py:218-240 | running filters are killed first; the configuration is written only when missing; 1 exactly when a needed write or the spawn fails; the filter is spawned exactly on success, after which the configuration exists |
| Cli.CmdGenerate | src/biglinux_microphone/cli.py:264-267 | 0 exactly when writing the configuration succeeded, in which case the file exists; on failure nothing changes |
| Cli.CmdRemove | src/biglinux_microphone/cli.py:270-273 | 0 exactly when every existing configuration file can be unlinked, and then no configuration file exists; otherwise the error escapes `main` (exit status 1) after a proper prefix of the removals |
| Cli.StopThenStatus | src/biglinux_microphone/cli.py:208-273 | a stop or remove that exits 0 is followed by status reporting disabled |
| Cli.StopFailsStillEnabled | src/biglinux_microphone/cli.py:196-251 | when the current configuration file exists but cannot be unlinked, stop exits 1 having removed and killed nothing, and status still reports enabled |
| Cli.StartThenStatus | src/biglinux_microphone/cli.py:208-267 | after a successful start or generate, status reports enabled |

## Left out

- GTK, Adwaita and Cairo: widget construction, every `_draw*` method, CSS providers and `queue_draw`. Only the values the drawing code reads are modelled (the waveform's draw order, the spectrum's dB scale and colours).
- GLib timers and idle callbacks: a timer becomes the method it fires (`Animate`, `DecayPeak`, `ApplyEqConfig`, `ShowTooltip`). The tooltip's 200 ms fade before `popdown` is not modelled.
- Threads and asyncio: the worker thread becomes a FIFO field drained by `DrainOne`/`DrainAll`; `_run_restart_in_thread`, the sleeps in `start`, `stop` and `cmd_start`, and `utils/async_utils.py` are not modelled. They exist for scheduling, and the model has no concurrency.
- Subprocess and file I/O (`pw-dump`, `pw-cli`, `pgrep`, `pactl`, `ps`, `kill`, `Popen`, reading and writing files): each result is a parameter. A write's success is the parameter `writeOk` (`restartWriteOk` for the write of the restart in `apply_config`), or `writable` in the profile export and the Bluetooth policy file and `saveOk` in the CLI. A failed write is modelled as leaving the old file, and a write that fails after truncating the file is not modelled. An unlink's success is the parameter `removeOk` in the services and the filter-chain store, and `removable`, one flag per file, in the CLI. A failed unlink raises with the file kept, and the model follows each caller: `stop` and `start` catch the error, while `delete` and the CLI's `remove_config` let it escape. Failures of `mkdir` are not modelled. `_cleanup_legacy_configs`, `_ensure_daemon_config` and `_configure_filter_source` only do such I/O or log, and are not modelled. The same holds for the CLI's `configure_filter_source`, `start_filter_process` and `main` argument parsing.
- JSON text: settings and profile files are structured values (`SettingsFile`, records of optional fields). The model starts from the parsed dictionary.
- Text of the generated configuration: the graph is a datatype, and numbers are rendered through a formatting oracle. Python's `str(float)` and `:.1f` are not modelled. `FilterChain.Render` gives the lines without indentation, blank lines or comment lines other than the two header lines, so the layout differs from the source's text. One difference is in the pass-through text: the source writes `links = []` on one line (src/biglinux_microphone/audio/filter_chain.py:287), while `Render` writes every link list as `links = [` and `]`, which is how the source lays out the empty list of a single-stage graph.
- Transcendental numerics: `4**w`, `log10`, `sqrt`, `numpy.logspace` and the FFT are oracle parameters. Their stated properties are used only where the source relies on them.
- Floating point: all arithmetic is exact `real` arithmetic. Rounding at a boundary (for example a luminance of exactly 0.5 in the tooltip colours) can come out differently in Python.
- Character classes: `\w` and `str.isdigit` are taken as ASCII only. Python's `int()` accepting `_` between digits is not modelled. `str.lower()` is modelled by `Strings.Lower`, which lowers ASCII letters only. For names outside ASCII the profile order and the `pactl` source match can differ from Python: Python puts "éa" before "Éz" (both lower to "é…"), while `Lower` leaves "É" as it is and "É" (U+00C9) sorts before "é" (U+00E9).
- ProfileService.InsertKeepsSorted: sorted by the ASCII-only `Lower` key, not by Python's Unicode `str.lower()`; see "Character classes".
- ProfileService.SortByNameSorted: the same ASCII-only key as `InsertKeepsSorted`.
- ProfileService.ProfileService.ListProfilesSpec: the order it states uses the ASCII-only key, so for non-ASCII names it can differ from `list_profiles`.
- MainView.MainWindow.constructor: of `_load_state` only the main switch, the calls to the PipeWire service and the preset selection are modelled. Slider positions, subtitles and sensitivity are widget state. The headphone monitor that `_load_state` starts when it is enabled goes through `monitor_service.py`, which is not part of this model.
- Randomised display helpers (`SpectrumVisualizerWidget.set_level`, `WaveformWidget.set_level`, `SpectrumAnalyzer.update_from_level`), `SpectrumAnalyzerWidget.set_level` and the `DualLevelMeter` forwarding widget: they only feed random, sine-shaped or forwarded values to the modelled widgets. `SpectrumAnalyzerWidget.set_level` needs `sin` and is not modelled; its targets are `level * weight * variation` and can exceed 1 (up to 1.15 at full level), unlike the clamped targets of `SetBands`.
- `_requires_restart` always returns True, so every configuration change goes through `apply_config`. The model has no separate member for it.
- The getters of `PipeWireService` (`get_model`, `get_strength` and the like) only read a field. They are the components of the field `Service.audio`, one `AudioState` record that holds the fourteen audio attributes `__init__` sets.
- `monitor_service.py` and `settings_service.py` are thin wrappers around a subprocess and a disk cache. They are not part of this model.
- ProfileService.ProfileService.ApplyProfile: the source also sets an attribute `crossfeed` on the stereo settings object. That object has no such field (it has `crossfeed_enabled` and `crossfeed_level`), so nothing reads the attribute, and the model leaves it out.
- `MBEQ_PARAM_NAMES[k] == f"{MBEQ_BANDS[k]}Hz gain"`: proving this for all 15 names at once runs out of solver resources. The model states the names as constants and proves the band-to-index remap instead.
- PipeWireService.Service.ApplyConfig: the branch that does not restart is modelled but cannot be taken: after a successful regeneration `is_enabled` falls back to the file just written. While another start or stop is in progress the restart is refused, and the model does not state the file in that case. The `on_complete` callback and the restart thread are not modelled.
- FilterChain.Save: states only a successful write. `write_text` raises an OSError when the write fails. That case is modelled in the callers, `PipeWireService.Service.GenerateConfig` and `ConfigPersistence.ConfigPersistence.Save`, through their `writeOk` parameter.
- PipeWireService.Service.Start: the six readiness polls are modelled. However, `is_enabled` falls back to the existence of the config file that `start` has just written, so the first poll already succeeds. `start` also writes the configuration from the settings file even when settings are passed in, and the model does the same.
- PipeWireService.Service.SetEqBand: an index inside 0..9 when the stored list is shorter raises IndexError in the source. The model returns an error value in that case.
- PipeWireService.Service.GetFilterChainNodeId: an empty cached id is falsy in Python, so it is queried again. The model does the same.
- VisualizerWidget.Waveform.AddSample: with `buffer_size` 0 the source raises IndexError. The model reports `ok == false` and changes nothing.
- TooltipHelper.HoverState.ShowTooltip: on its early returns the source keeps the stale timer id. The model keeps it too.
- SpectrumWidget.SpectrumAnalyzer.Reset: `reset` leaves the hold counter of the overall peak as it was. The model keeps it as well, rather than the "reset everything" its docstring suggests.

## Findings

| source | as written | input that shows it | evidently intended | confidence | as-written member | corrected member |
|---|---|---|---|---|---|---|
| src/biglinux_microphone/services/pipewire_service.py:617 | the live radio update sends a makeup gain of 6 + 6w dB | stereo width 0 in radio mode: 6 dB live against the 2 dB the generator writes (2 + 4w) | the same makeup as the generated compressor, 2 + 4w, as the comment on the live update says | not executed | PipeWireService.RadioMakeupAsWrittenDiverges | PipeWireService.RadioLiveUpdatesMatchCompressor |
| src/biglinux_microphone/cli.py:178 | with stereo disabled the CLI passes the plain string "mono" as the stereo mode; it does not equal `StereoMode.MONO`, so the generator takes the stereo branch | default settings with stereo disabled: a two-channel FL/FR dual-mono graph | the one-channel mono graph the desktop service writes for the same settings | not executed | Cli.CliMonoAsWrittenDiverges | Cli.CliConfigMatchesService |

=== FILE: audio_monitor.dfy ===
/**
 * The audio monitor: sample buffering into half-overlapping FFT windows,
 * the level meter and the spectrum bands computed from each window, and the
 * start/stop guards.
 *
 * The FFT (`np.fft.rfft` of the Hann-windowed chunk), `log10`, `logspace`
 * and `sqrt` are parameters: `rfftAbs`, `log10`, the band `edges` and
 * `sqrt`. Everything done with their results is modelled.
 */
module AudioMonitor {
  import opened Wrappers
  import opened PyNum
  import Validators

  const NUM_SPECTRUM_BANDS: nat := 32
  const SPECTRUM_THRESHOLD_DB: real := -80.0
  const SAMPLE_RATE: nat := 32000
  const FFT_SIZE: nat := 2048
  /** `FFT_SIZE // 2`: how far each window advances past the previous one. */
  const HOP: nat := 1024
  /** The number of bins `rfft` returns for a chunk of FFT_SIZE samples. */
  const FFT_BINS: nat := FFT_SIZE / 2 + 1
  const FREQ_RESOLUTION: real := SAMPLE_RATE as real / FFT_SIZE as real
  const PEAK_DECAY: real := 0.95
  const MAX_WEIGHT: real := 5.0
  const PUBLISHED_BANDS: nat := 30
  /** `(FFT_SIZE / 2.0) * 0.5`: the magnitude taken as 0 dB. */
  const REF_MAGNITUDE: real := 512.0
  const SILENCE: real := 0.0000000001

  datatype AudioLevels = AudioLevels(
    inputLevel: real, outputLevel: real, inputPeak: real, outputPeak: real, spectrumBands: seq<real>)

  /** `AudioLevels()` */
  function DefaultLevels(): (l: AudioLevels)
    ensures |l.spectrumBands| == NUM_SPECTRUM_BANDS && l.inputLevel == 0.0 && l.inputPeak == 0.0
  {
    AudioLevels(0.0, 0.0, 0.0, 0.0, seq(NUM_SPECTRUM_BANDS, _ => 0.0))
  }

  // ---------------------------------------------------------------------------
  // Precomputed band tables
  // ---------------------------------------------------------------------------

  datatype BinRange = BinRange(start: int, end: int)

  /** The FFT bins of band `i`: its edges divided by the bin width, at least bin 1 and at most bin FFT_SIZE / 2. */
  function BandBins(edges: seq<real>, i: nat): (r: BinRange)
    requires i + 1 < |edges|
    ensures 1 <= r.start && r.end <= FFT_SIZE / 2
    ensures r.start == (if Trunc(edges[i] / FREQ_RESOLUTION) < 1 then 1 else Trunc(edges[i] / FREQ_RESOLUTION))
  {
    var s := Trunc(edges[i] / FREQ_RESOLUTION);
    var e := Trunc(edges[i + 1] / FREQ_RESOLUTION);
    BinRange(if s < 1 then 1 else s, if e < FFT_SIZE / 2 then e else FFT_SIZE / 2)
  }

  /** The compensation weight of band `i`: the square root of its centre frequency over 200 Hz, at most 5. */
  function BandWeight(edges: seq<real>, i: nat, sqrt: real -> real): (w: real)
    requires i + 1 < |edges|
    ensures w <= MAX_WEIGHT
    ensures w == MAX_WEIGHT || w == sqrt((edges[i] + edges[i + 1]) / 2.0 / 200.0)
  {
    Min(sqrt((edges[i] + edges[i + 1]) / 2.0 / 200.0), MAX_WEIGHT)
  }

  // ---------------------------------------------------------------------------
  // One FFT window
  // ---------------------------------------------------------------------------

  /** `np.max(np.abs(chunk))` */
  function PeakAmplitude(chunk: seq<real>): (r: real)
    requires |chunk| > 0
    ensures forall i :: 0 <= i < |chunk| ==> r >= Abs(chunk[i])
    ensures exists i :: 0 <= i < |chunk| && r == Abs(chunk[i])
  {
    if |chunk| == 1 then Abs(chunk[0])
    else
      var rest := PeakAmplitude(chunk[1..]);
      assert forall i :: 1 <= i < |chunk| ==> chunk[i] == chunk[1..][i - 1];
      Max(Abs(chunk[0]), rest)
  }

  function Abs(x: real): real
  {
    if x < 0.0 then -x else x
  }

  /** dB above the -80 dB floor, as a fraction of 80 dB, clamped to [0, 1]. */
  function Normalized(db: real): (r: real)
    ensures 0.0 <= r <= 1.0
    ensures db <= SPECTRUM_THRESHOLD_DB ==> r == 0.0
    ensures db >= 0.0 ==> r == 1.0
  {
    Validators.Clamp((db - SPECTRUM_THRESHOLD_DB) / (-SPECTRUM_THRESHOLD_DB), 0.0, 1.0)
  }

  /** The meter level of a chunk: its peak in dBFS, normalised; silence gives 0. */
  function MeterLevel(chunk: seq<real>, log10: real -> real): (r: real)
    requires |chunk| > 0
    ensures 0.0 <= r <= 1.0
    ensures PeakAmplitude(chunk) <= SILENCE ==> r == 0.0
  {
    var peak := PeakAmplitude(chunk);
    Normalized(if peak > SILENCE then 20.0 * log10(peak) else SPECTRUM_THRESHOLD_DB)
  }

  /** The magnitude of a band: the largest bin of its range, or the single bin at its start. */
  function BandMagnitude(spectrum: seq<real>, r: BinRange): real
    requires |spectrum| == FFT_BINS && 1 <= r.start && r.end <= FFT_SIZE / 2
  {
    if r.start < r.end then MaxOf(spectrum[r.start..r.end])
    else spectrum[if r.start < |spectrum| - 1 then r.start else |spectrum| - 1]
  }

  /** The displayed value of a band, in [0, 1]. */
  function BandValue(spectrum: seq<real>, r: BinRange, weight: real, log10: real -> real): (v: real)
    requires |spectrum| == FFT_BINS && 1 <= r.start && r.end <= FFT_SIZE / 2
    ensures 0.0 <= v <= 1.0
    ensures BandMagnitude(spectrum, r) * weight <= SILENCE ==> v == 0.0
  {
    var m := BandMagnitude(spectrum, r) * weight;
    Normalized(if m > SILENCE then 20.0 * log10(m / REF_MAGNITUDE) else SPECTRUM_THRESHOLD_DB)
  }

  predicate RangesInBounds(ranges: seq<BinRange>)
  {
    forall i :: 0 <= i < |ranges| ==> 1 <= ranges[i].start && ranges[i].end <= FFT_SIZE / 2
  }

  function BandValues(spectrum: seq<real>, ranges: seq<BinRange>, weights: seq<real>, log10: real -> real)
    : (bands: seq<real>)
    requires |spectrum| == FFT_BINS && RangesInBounds(ranges) && |weights| == |ranges|
    ensures |bands| == |ranges|
    ensures forall i :: 0 <= i < |bands| ==> bands[i] == BandValue(spectrum, ranges[i], weights[i], log10)
  {
    seq(|ranges|, i requires 0 <= i < |ranges| => BandValue(spectrum, ranges[i], weights[i], log10))
  }

  /**
   * `_process_fft_chunk`: the new levels. The meter and every published
   * band lie in [0, 1], only the first 30 bands are published, and the peak
   * is the meter level or the decayed previous peak, whichever is larger.
   */
  function NextLevels(prev: AudioLevels, chunk: seq<real>, spectrum: seq<real>, ranges: seq<BinRange>,
                      weights: seq<real>, log10: real -> real): (l: AudioLevels)
    requires |chunk| > 0 && |spectrum| == FFT_BINS && RangesInBounds(ranges) && |weights| == |ranges|
    ensures 0.0 <= l.inputLevel <= 1.0 && l.outputLevel == l.inputLevel
    ensures l.inputPeak >= l.inputLevel && l.inputPeak >= prev.inputPeak * PEAK_DECAY
    ensures l.inputPeak == l.inputLevel || l.inputPeak == prev.inputPeak * PEAK_DECAY
    ensures l.outputPeak == l.inputPeak
    ensures |l.spectrumBands| == if |ranges| < PUBLISHED_BANDS then |ranges| else PUBLISHED_BANDS
    ensures forall i :: 0 <= i < |l.spectrumBands| ==> 0.0 <= l.spectrumBands[i] <= 1.0
  {
    var meter := MeterLevel(chunk, log10);
    var bands := BandValues(spectrum, ranges, weights, log10);
    var peak := Max(meter, prev.inputPeak * PEAK_DECAY);
    AudioLevels(meter, meter, peak, peak, if |bands| < PUBLISHED_BANDS then bands else bands[..PUBLISHED_BANDS])
  }

  // ---------------------------------------------------------------------------
  // Buffering with 50% overlap
  // ---------------------------------------------------------------------------

  /** The chunks the buffering loop takes from `buf`: every window of FFT_SIZE samples, advancing by half. */
  function OverlapChunks(buf: seq<real>): (cs: seq<seq<real>>)
    ensures forall k :: 0 <= k < |cs| ==> |cs[k]| == FFT_SIZE
    decreases |buf|
  {
    if |buf| < FFT_SIZE then [] else [buf[..FFT_SIZE]] + OverlapChunks(buf[HOP..])
  }

  /** What the loop leaves in the buffer: fewer than FFT_SIZE samples. */
  function OverlapRest(buf: seq<real>): (rest: seq<real>)
    ensures |rest| < FFT_SIZE
    decreases |buf|
  {
    if |buf| < FFT_SIZE then buf else OverlapRest(buf[HOP..])
  }

  /** Chunk k is the window of FFT_SIZE samples starting at sample k * HOP. */
  lemma {:induction false} OverlapWindows(buf: seq<real>)
    ensures var cs := OverlapChunks(buf);
            forall k :: 0 <= k < |cs| ==> k * HOP + FFT_SIZE <= |buf| && cs[k] == buf[k * HOP..k * HOP + FFT_SIZE]
    decreases |buf|
  {
    if |buf| >= FFT_SIZE {
      var tail := buf[HOP..];
      OverlapWindows(tail);
      var cs := OverlapChunks(buf);
      var ct := OverlapChunks(tail);
      assert cs == [buf[..FFT_SIZE]] + ct;
      forall k | 1 <= k < |cs|
        ensures k * HOP + FFT_SIZE <= |buf| && cs[k] == buf[k * HOP..k * HOP + FFT_SIZE]
      {
        assert cs[k] == ct[k - 1];
        assert (k - 1) * HOP + FFT_SIZE <= |tail|;
        assert tail[(k - 1) * HOP..(k - 1) * HOP + FFT_SIZE] == buf[k * HOP..k * HOP + FFT_SIZE];
      }
    }
  }

  /** The samples kept are those after the first HOP samples of the last window. */
  lemma {:induction false} OverlapRestIsSuffix(buf: seq<real>)
    ensures |OverlapChunks(buf)| * HOP <= |buf|
    ensures OverlapRest(buf) == buf[|OverlapChunks(buf)| * HOP..]
    decreases |buf|
  {
    if |buf| >= FFT_SIZE {
      var tail := buf[HOP..];
      OverlapRestIsSuffix(tail);
      assert |OverlapChunks(buf)| == |OverlapChunks(tail)| + 1;
      assert tail[|OverlapChunks(tail)| * HOP..] == buf[|OverlapChunks(buf)| * HOP..];
    }
  }

  /** Every chunk is a full window whose spectrum has FFT_BINS bins. */
  predicate Windows(cs: seq<seq<real>>, rfftAbs: seq<real> -> seq<real>)
  {
    forall k :: 0 <= k < |cs| ==> |cs[k]| == FFT_SIZE && |rfftAbs(cs[k])| == FFT_BINS
  }

  /** The levels after processing `cs` in order, starting from `l`. */
  function FoldLevels(l: AudioLevels, cs: seq<seq<real>>, rfftAbs: seq<real> -> seq<real>, ranges: seq<BinRange>,
                      weights: seq<real>, log10: real -> real): AudioLevels
    requires Windows(cs, rfftAbs)
    requires RangesInBounds(ranges) && |weights| == |ranges|
  {
    if cs == [] then l
    else
      assert Windows(cs[..|cs| - 1], rfftAbs) by {
        forall k | 0 <= k < |cs| - 1 ensures cs[..|cs| - 1][k] == cs[k] { }
      }
      var last := cs[|cs| - 1];
      NextLevels(FoldLevels(l, cs[..|cs| - 1], rfftAbs, ranges, weights, log10), last, rfftAbs(last),
                 ranges, weights, log10)
  }

  /** Processing one more chunk after `cs` applies NextLevels to the levels after `cs`. */
  lemma FoldLevelsSnoc(l: AudioLevels, cs: seq<seq<real>>, c: seq<real>, rfftAbs: seq<real> -> seq<real>,
                       ranges: seq<BinRange>, weights: seq<real>, log10: real -> real)
    requires Windows(cs, rfftAbs) && |c| == FFT_SIZE && |rfftAbs(c)| == FFT_BINS
    requires RangesInBounds(ranges) && |weights| == |ranges|
    ensures Windows(cs + [c], rfftAbs)
    ensures FoldLevels(l, cs + [c], rfftAbs, ranges, weights, log10) ==
            NextLevels(FoldLevels(l, cs, rfftAbs, ranges, weights, log10), c, rfftAbs(c), ranges, weights, log10)
  {
    assert (cs + [c])[..|cs|] == cs;
  }

  // ---------------------------------------------------------------------------
  // The monitor
  // ---------------------------------------------------------------------------

  class AudioMonitor {
    const numBands: nat
    const binRanges: seq<BinRange>
    const weights: seq<real>

    var isRunning: bool
    var hasCallback: bool
    var currentSource: Option<string>
    var buffer: seq<real>
    var levels: AudioLevels

    /** The band tables: one bin range and one weight per band. */
    ghost predicate Tables()
    {
      |binRanges| == numBands && |weights| == numBands && RangesInBounds(binRanges) &&
      (forall i :: 0 <= i < |weights| ==> weights[i] <= MAX_WEIGHT)
    }

    /** Between callbacks the buffer holds less than one window. */
    ghost predicate Valid()
      reads this
    {
      Tables() && |buffer| < FFT_SIZE
    }

    /**
     * `__init__`: band `i` covers `edges[i]` to `edges[i + 1]` (the
     * logarithmic band edges from 20 Hz to 16 kHz, `num_bands + 1` of them).
     */
    constructor (n: nat, edges: seq<real>, sqrt: real -> real)
      requires |edges| == n + 1
      ensures Valid() && numBands == n && !isRunning && !hasCallback
      ensures forall i :: 0 <= i < n ==> binRanges[i] == BandBins(edges, i) && weights[i] == BandWeight(edges, i, sqrt)
      ensures buffer == [] && levels == DefaultLevels() && currentSource.None?
    {
      var ranges: seq<BinRange> := [];
      var ws: seq<real> := [];
      var i := 0;
      while i < n
        invariant 0 <= i <= n && |ranges| == i
        invariant forall j :: 0 <= j < i ==> ranges[j] == BandBins(edges, j)
      {
        ranges := ranges + [BandBins(edges, i)];
        i := i + 1;
      }
      i := 0;
      while i < n
        invariant 0 <= i <= n && |ws| == i
        invariant forall j :: 0 <= j < i ==> ws[j] == BandWeight(edges, j, sqrt)
      {
        ws := ws + [BandWeight(edges, i, sqrt)];
        i := i + 1;
      }
      numBands := n;
      binRanges := ranges;
      weights := ws;
      isRunning := false;
      hasCallback := false;
      currentSource := None;
      buffer := [];
      levels := DefaultLevels();
    }

    /** `_process_fft_chunk`, band by band. */
    method ProcessFftChunk(chunk: seq<real>, spectrum: seq<real>, log10: real -> real)
      requires Tables() && |chunk| == FFT_SIZE && |spectrum| == FFT_BINS
      modifies this`levels
      ensures levels == NextLevels(old(levels), chunk, spectrum, binRanges, weights, log10)
    {
      var meter := MeterLevel(chunk, log10);
      var bands: seq<real> := [];
      var i := 0;
      while i < |binRanges|
        invariant 0 <= i <= |binRanges|
        invariant bands == BandValues(spectrum, binRanges, weights, log10)[..i]
      {
        bands := bands + [BandValue(spectrum, binRanges[i], weights[i], log10)];
        i := i + 1;
      }
      assert bands == BandValues(spectrum, binRanges, weights, log10);
      var peak := Max(meter, levels.inputPeak * PEAK_DECAY);
      levels := AudioLevels(meter, meter, peak, peak,
                            if |bands| < PUBLISHED_BANDS then bands else bands[..PUBLISHED_BANDS]);
    }

    /** One pass of the buffering loop: process the first window, drop its first half. */
    method ConsumeWindow(rfftAbs: seq<real> -> seq<real>, log10: real -> real) returns (ghost chunk: seq<real>)
      requires Tables() && |buffer| >= FFT_SIZE && |rfftAbs(buffer[..FFT_SIZE])| == FFT_BINS
      modifies this`buffer, this`levels
      ensures chunk == old(buffer)[..FFT_SIZE] && buffer == old(buffer)[HOP..]
      ensures OverlapChunks(old(buffer)) == [chunk] + OverlapChunks(buffer)
      ensures OverlapRest(old(buffer)) == OverlapRest(buffer)
      ensures levels == NextLevels(old(levels), chunk, rfftAbs(chunk), binRanges, weights, log10)
    {
      var c := buffer[..FFT_SIZE];
      chunk := c;
      buffer := buffer[HOP..];
      ProcessFftChunk(c, rfftAbs(c), log10);
    }

    /** The buffering loop: process every full window, keeping the second half of each for the next one. */
    method DrainWindows(rfftAbs: seq<real> -> seq<real>, log10: real -> real)
      requires Tables()
      requires forall c :: |c| == FFT_SIZE ==> |rfftAbs(c)| == FFT_BINS
      modifies this`buffer, this`levels
      ensures buffer == OverlapRest(old(buffer)) && Windows(OverlapChunks(old(buffer)), rfftAbs)
      ensures levels == FoldLevels(old(levels), OverlapChunks(old(buffer)), rfftAbs, binRanges, weights, log10)
    {
      ghost var l0 := levels;
      ghost var all := buffer;
      ghost var done: seq<seq<real>> := [];
      while |buffer| >= FFT_SIZE
        invariant OverlapChunks(all) == done + OverlapChunks(buffer)
        invariant OverlapRest(all) == OverlapRest(buffer)
        invariant Windows(done, rfftAbs)
        invariant levels == FoldLevels(l0, done, rfftAbs, binRanges, weights, log10)
        decreases |buffer|
      {
        ghost var chunk := ConsumeWindow(rfftAbs, log10);
        FoldLevelsSnoc(l0, done, chunk, rfftAbs, binRanges, weights, log10);
        done := done + [chunk];
      }
      assert done + OverlapChunks(buffer) == done;
    }

    /** `_on_new_sample`: append the samples, then run the buffering loop. */
    method OnNewSample(data: seq<real>, rfftAbs: seq<real> -> seq<real>, log10: real -> real)
      requires Valid()
      requires forall c :: |c| == FFT_SIZE ==> |rfftAbs(c)| == FFT_BINS
      modifies this`buffer, this`levels
      ensures Valid()
      ensures buffer == OverlapRest(old(buffer) + data)
      ensures levels == FoldLevels(old(levels), OverlapChunks(old(buffer) + data), rfftAbs, binRanges, weights, log10)
    {
      buffer := buffer + data;
      DrainWindows(rfftAbs, log10);
    }

    /**
     * `start`: already running gives True with nothing changed. Otherwise
     * the buffer is reset and the source is the filtered one if found, else
     * the default one; the result is whether the pipeline started.
     */
    method Start(filtered: Option<string>, default: Option<string>, pipelineStarts: bool) returns (ok: bool)
      requires Valid()
      modifies this`isRunning, this`hasCallback, this`buffer, this`currentSource
      ensures Valid()
      ensures old(isRunning) ==>
                ok && isRunning && buffer == old(buffer) && currentSource == old(currentSource) &&
                hasCallback == old(hasCallback)
      ensures !old(isRunning) ==> ok == pipelineStarts && isRunning == pipelineStarts && buffer == [] && hasCallback
      ensures !old(isRunning) ==>
                currentSource == if filtered.Some? && filtered.value != "" then filtered else default
    {
      if isRunning {
        return true;
      }
      hasCallback := true;
      buffer := [];
      currentSource := if filtered.Some? && filtered.value != "" then filtered else default;
      if !pipelineStarts {
        return false;
      }
      isRunning := true;
      ok := true;
    }

    /** `stop`: nothing when stopped; otherwise not running, no callback and the levels back to their defaults. */
    method Stop()
      modifies this`isRunning, this`hasCallback, this`levels
      ensures !old(isRunning) ==> levels == old(levels) && hasCallback == old(hasCallback) && !isRunning
      ensures old(isRunning) ==> !isRunning && !hasCallback && levels == DefaultLevels()
    {
      if !isRunning {
        return;
      }
      isRunning := false;
      hasCallback := false;
      levels := DefaultLevels();
    }
  }
}

=== FILE: cli.dfy ===
/**
 * The command-line tool that starts and stops the filter-chain process
 * outside the desktop application: finding the running processes in `ps`
 * output, finding the filtered source in `pactl` output, building the
 * filter configuration from the saved settings, and the exit codes of the
 * `start`, `stop`, `status`, `generate` and `remove` commands. The output
 * of the external tools is a parameter (None when running the tool raised).
 */
module Cli {
  import opened Wrappers
  import opened Strings
  import opened Config
  import FC = FilterChain
  import Pw = PipeWireService

  // ---------------------------------------------------------------------------
  // Line scans
  // ---------------------------------------------------------------------------

  /** What `f` reads from each line, in line order, lines it reads nothing from skipped. */
  function Collect<T>(lines: seq<string>, f: string -> Option<T>): seq<T>
  {
    if |lines| == 0 then []
    else
      var last := f(lines[|lines| - 1]);
      Collect(lines[..|lines| - 1], f) + (if last.Some? then [last.value] else [])
  }

  /** A value is collected exactly when some line yields it. */
  lemma {:induction false} CollectMembers<T>(lines: seq<string>, f: string -> Option<T>, x: T)
    ensures x in Collect(lines, f) <==> exists k :: 0 <= k < |lines| && f(lines[k]) == Some(x)
  {
    if |lines| > 0 {
      var init := lines[..|lines| - 1];
      CollectMembers(init, f, x);
      if exists k :: 0 <= k < |init| && f(init[k]) == Some(x) {
        var k :| 0 <= k < |init| && f(init[k]) == Some(x);
        assert lines[k] == init[k];
      }
      if exists k :: 0 <= k < |lines| && f(lines[k]) == Some(x) {
        var k :| 0 <= k < |lines| && f(lines[k]) == Some(x);
        if k < |init| {
          assert init[k] == lines[k];
        }
      }
    }
  }

  /** Scanning two pieces of output one after the other collects the first piece's values, then the second's. */
  lemma {:induction false} CollectAppend<T>(a: seq<string>, b: seq<string>, f: string -> Option<T>)
    ensures Collect(a + b, f) == Collect(a, f) + Collect(b, f)
  {
    if |b| == 0 {
      assert a + b == a;
    } else {
      var b' := b[..|b| - 1];
      assert (a + b)[..|a + b| - 1] == a + b';
      assert (a + b)[|a + b| - 1] == b[|b| - 1];
      CollectAppend(a, b', f);
    }
  }

  /** Scanning one more line adds what `f` reads from it. */
  lemma CollectSnoc<T>(lines: seq<string>, i: nat, f: string -> Option<T>)
    requires i < |lines|
    ensures Collect(lines[..i + 1], f) ==
            Collect(lines[..i], f) + (if f(lines[i]).Some? then [f(lines[i]).value] else [])
  {
    assert lines[..i + 1][..i] == lines[..i];
  }

  /** What `f` reads from the first line it reads anything from. */
  function FirstOf<T(==)>(lines: seq<string>, f: string -> Option<T>): (r: Option<T>)
    ensures r.None? <==> forall k :: 0 <= k < |lines| ==> f(lines[k]).None?
    ensures r.Some? ==> exists k :: 0 <= k < |lines| && f(lines[k]) == r &&
                                    forall j :: 0 <= j < k ==> f(lines[j]).None?
  {
    if |lines| == 0 then None
    else if f(lines[0]).Some? then f(lines[0])
    else
      var r := FirstOf(lines[1..], f);
      assert forall k :: 1 <= k < |lines| ==> lines[1..][k - 1] == lines[k];
      if r.Some? then
        var k :| 0 <= k < |lines[1..]| && f(lines[1..][k]) == r &&
                 forall j :: 0 <= j < k ==> f(lines[1..][j]).None?;
        assert f(lines[k + 1]) == r;
        r
      else r
  }

  // ---------------------------------------------------------------------------
  // Filter-chain processes in `ps -aux`
  // ---------------------------------------------------------------------------

  const PS_MARKER := "/usr/bin/pipewire -c filter-chain.conf"

  /** The process id a `ps` line contributes: its second field, when the line names the filter process and that field is an integer. */
  function LinePid(line: string): Option<int>
  {
    if Contains(line, PS_MARKER) then
      var parts := Words(line);
      if |parts| > 1 then ParseInt(parts[1]) else None
    else None
  }

  /** The ids the lines contribute, in line order. */
  function PidsFromLines(lines: seq<string>): seq<int>
  {
    Collect(lines, LinePid)
  }

  /** An id is listed exactly when some line names the filter process with it as second field. */
  lemma PidsFromLinesMembers(lines: seq<string>, pid: int)
    ensures pid in PidsFromLines(lines) <==>
              exists k :: 0 <= k < |lines| && Contains(lines[k], PS_MARKER) && |Words(lines[k])| > 1 &&
                          ParseInt(Words(lines[k])[1]) == Some(pid)
  {
    CollectMembers(lines, LinePid, pid);
    forall k | 0 <= k < |lines|
      ensures LinePid(lines[k]) == Some(pid) <==>
              Contains(lines[k], PS_MARKER) && |Words(lines[k])| > 1 && ParseInt(Words(lines[k])[1]) == Some(pid)
    {
    }
  }

  /** One line of `find_filter_pids`'s loop. */
  method PidOfLine(line: string) returns (pid: Option<int>)
    ensures pid == LinePid(line)
  {
    pid := None;
    if Contains(line, PS_MARKER) {
      var parts := Words(line);
      if |parts| > 1 {
        pid := ParseInt(parts[1]);
      }
    }
  }

  /** `find_filter_pids`: every listed id in line order, or none when `ps` could not be run. */
  method FindFilterPids(psOutput: Option<string>) returns (pids: seq<int>)
    ensures pids == if psOutput.None? then [] else PidsFromLines(SplitLines(psOutput.value))
  {
    if psOutput.None? {
      return [];
    }
    var lines := SplitLines(psOutput.value);
    pids := [];
    var i := 0;
    while i < |lines|
      invariant 0 <= i <= |lines|
      invariant pids == Collect(lines[..i], LinePid)
    {
      CollectSnoc(lines, i, LinePid);
      var pid := PidOfLine(lines[i]);
      if pid.Some? {
        pids := pids + [pid.value];
      }
      i := i + 1;
    }
    assert lines[..|lines|] == lines;
  }

  // ---------------------------------------------------------------------------
  // The filtered source in `pactl list sources [short]`
  // ---------------------------------------------------------------------------

  /** The characters of the class `[\w.-]`, ASCII letters and digits standing for `\w`. */
  predicate IsNameChar(c: char)
  {
    ('a' <= c <= 'z') || ('A' <= c <= 'Z') || ('0' <= c <= '9') || c == '_' || c == '.' || c == '-'
  }

  /** The length of the longest run of name characters at the start of `s`. */
  function NameRun(s: string): (k: nat)
    ensures k <= |s| && (forall i :: 0 <= i < k ==> IsNameChar(s[i])) && (k < |s| ==> !IsNameChar(s[k]))
  {
    if |s| > 0 && IsNameChar(s[0]) then 1 + NameRun(s[1..]) else 0
  }

  /**
   * `re.search(literal + r"[\w.-]*", text).group(0)`: the leftmost
   * occurrence of the literal followed by every name character after it.
   */
  function SearchName(text: string, literal: string): (r: Option<string>)
    ensures r.Some? <==> Contains(text, literal)
    ensures r.Some? ==> exists i :: 0 <= i && i + |r.value| <= |text| && text[i..i + |r.value|] == r.value &&
                                    Find(text, literal) == Some(i)
    ensures r.Some? ==> IsPrefix(literal, r.value) &&
                        forall k :: |literal| <= k < |r.value| ==> IsNameChar(r.value[k])
  {
    match Find(text, literal)
    case None => None
    case Some(i) =>
      var rest := text[i + |literal|..];
      var k := NameRun(rest);
      var m := text[i..i + |literal| + k];
      NameMatch(text, literal, i, rest, k, m);
      assert text[i..i + |m|] == m;
      Some(m)
  }

  /** The literal found at `i` followed by `k` name characters is a match of the pattern. */
  lemma NameMatch(text: string, literal: string, i: nat, rest: string, k: nat, m: string)
    requires i + |literal| <= |text| && IsPrefix(literal, text[i..])
    requires rest == text[i + |literal|..] && k <= |rest| && forall j :: 0 <= j < k ==> IsNameChar(rest[j])
    requires m == text[i..i + |literal| + k]
    ensures IsPrefix(literal, m)
    ensures forall j :: |literal| <= j < |m| ==> IsNameChar(m[j])
  {
    assert m[..|literal|] == text[i..][..|literal|];
    forall j | |literal| <= j < |m|
      ensures IsNameChar(m[j])
    {
      assert m[j] == rest[j - |literal|];
    }
  }

  const PATTERN_OUTPUT := "output.filter-chain"
  const PATTERN_BIG := "big.filter-microphone"
  const CHAIN_MARKER := "filter-chain"
  const DESCRIPTION := "Noise Canceling Microphone"

  /** The name a short-listing line offers: its second field, when the line mentions the filter chain and has one. */
  function ChainLineName(line: string): Option<string>
  {
    if Contains(line, CHAIN_MARKER) && |Words(line)| > 1 then Some(Words(line)[1]) else None
  }

  /** The name offered by the first line that offers one. */
  function FirstChainLineName(lines: seq<string>): Option<string>
  {
    FirstOf(lines, ChainLineName)
  }

  /** A line containing "Name:" contains a colon. */
  lemma NameLineHasColon(line: string)
    requires Contains(line, "Name:")
    ensures ':' in line
  {
    var i :| 0 <= i <= |line| && IsPrefix("Name:", line[i..]);
    assert line[i + 4] == line[i..][4] == ':';
  }

  /** `line.split(":", 1)[1].strip()`: the text after the line's first colon, stripped. */
  function NameValue(line: string): string
    requires Contains(line, "Name:")
  {
    NameLineHasColon(line);
    Strip(AfterFirst(line, ':').value)
  }

  /** The name a line of the long listing gives, when it holds "Name:". */
  function NameLine(line: string): Option<string>
  {
    if Contains(line, "Name:") then Some(NameValue(line)) else None
  }

  /** The first line from `max(0, i - 5)` up to but not including line `i`. */
  function WindowStart(i: nat): nat
  {
    if i >= 5 then i - 5 else 0
  }

  /** The name found in the five lines above line `i`, the highest of them first. */
  function NameAbove(lines: seq<string>, i: nat): (r: Option<string>)
    requires i <= |lines|
    ensures r.Some? ==> exists j :: WindowStart(i) <= j < i && Contains(lines[j], "Name:") && r.value == NameValue(lines[j])
    ensures r.None? <==> forall j :: WindowStart(i) <= j < i ==> !Contains(lines[j], "Name:")
  {
    var lo := WindowStart(i);
    var window := lines[lo..i];
    var r := FirstOf(window, NameLine);
    assert forall j :: lo <= j < i ==> window[j - lo] == lines[j];
    if r.Some? then
      var k :| 0 <= k < |window| && NameLine(window[k]) == r;
      assert lines[lo + k] == window[k];
      r
    else
      forall j | lo <= j < i
        ensures !Contains(lines[j], "Name:")
      {
        assert NameLine(window[j - lo]).None?;
      }
      r
  }

  /** The name a description line at `i` yields. */
  function DescriptionAt(lines: seq<string>, i: nat): Option<string>
    requires i < |lines|
  {
    if Contains(lines[i], DESCRIPTION) then NameAbove(lines, i) else None
  }

  /** The first value present in `xs` from index `from` on. */
  function FirstSome<T(==)>(xs: seq<Option<T>>, from: nat): (r: Option<T>)
    ensures r.Some? ==> exists i :: from <= i < |xs| && xs[i] == r && forall j :: from <= j < i ==> xs[j].None?
    ensures r.None? <==> forall i :: from <= i < |xs| ==> xs[i].None?
    decreases |xs| - from
  {
    if from >= |xs| then None
    else if xs[from].Some? then xs[from]
    else
      var rest := FirstSome(xs, from + 1);
      if rest.Some? then
        var i :| from + 1 <= i < |xs| && xs[i] == rest && forall j :: from + 1 <= j < i ==> xs[j].None?;
        assert forall j :: from <= j < i ==> xs[j].None?;
        rest
      else rest
  }

  /** What each line of the long listing yields. */
  function DescriptionsAt(lines: seq<string>): (ds: seq<Option<string>>)
    ensures |ds| == |lines| && forall i :: 0 <= i < |lines| ==> ds[i] == DescriptionAt(lines, i)
  {
    seq(|lines|, i requires 0 <= i < |lines| => DescriptionAt(lines, i))
  }

  /**
   * The first description line, from line `from` on, with a name above it:
   * the name of the first line that yields one, none when no line does.
   */
  function DescriptionName(lines: seq<string>, from: nat): (r: Option<string>)
    ensures r.Some? ==> exists i :: from <= i < |lines| && DescriptionAt(lines, i) == r &&
                                    forall j :: from <= j < i ==> DescriptionAt(lines, j).None?
    ensures r.None? <==> forall i :: from <= i < |lines| ==> DescriptionAt(lines, i).None?
  {
    FirstSome(DescriptionsAt(lines), from)
  }

  /** A name found by the description scan sits on a description line, in the five lines above it. */
  lemma DescriptionNameFromAbove(lines: seq<string>, from: nat)
    requires DescriptionName(lines, from).Some?
    ensures exists i :: from <= i < |lines| && Contains(lines[i], DESCRIPTION) &&
                        exists j :: WindowStart(i) <= j < i && Contains(lines[j], "Name:") &&
                                    DescriptionName(lines, from).value == NameValue(lines[j])
  {
    var r := DescriptionName(lines, from);
    var i :| from <= i < |lines| && DescriptionAt(lines, i) == r &&
             forall j :: from <= j < i ==> DescriptionAt(lines, j).None?;
    assert Contains(lines[i], DESCRIPTION) && NameAbove(lines, i) == r;
  }

  /**
   * `get_filter_source`: the two name patterns over the short listing, then
   * its lines mentioning the filter chain, then the long listing's
   * descriptions; nothing when a listing could not be obtained.
   */
  function FilterSource(short: Option<string>, long: Option<string>): (r: Option<string>)
    ensures short.None? ==> r.None?
    ensures short.Some? && Contains(short.value, PATTERN_OUTPUT) ==> r.Some? && IsPrefix(PATTERN_OUTPUT, r.value)
    ensures short.Some? && !Contains(short.value, PATTERN_OUTPUT) && Contains(short.value, PATTERN_BIG) ==>
              r.Some? && IsPrefix(PATTERN_BIG, r.value)
    ensures short.Some? && !Contains(short.value, PATTERN_OUTPUT) && !Contains(short.value, PATTERN_BIG) ==>
              r == if FirstChainLineName(SplitLines(short.value)).Some? then FirstChainLineName(SplitLines(short.value))
                   else if long.None? then None else DescriptionName(SplitLines(long.value), 0)
  {
    match short
    case None => None
    case Some(text) =>
      var first := SearchName(text, PATTERN_OUTPUT);
      if first.Some? then first
      else
        var second := SearchName(text, PATTERN_BIG);
        if second.Some? then second
        else
          var byLine := FirstChainLineName(SplitLines(text));
          if byLine.Some? then byLine
          else if long.None? then None
          else DescriptionName(SplitLines(long.value), 0)
  }

  /** Scanning from line `i`: line `i` answers, or the scan goes on from the next line. */
  lemma FirstOfStep<T>(lines: seq<string>, i: nat, f: string -> Option<T>)
    requires i < |lines|
    ensures FirstOf(lines[i..], f) == if f(lines[i]).Some? then f(lines[i]) else FirstOf(lines[i + 1..], f)
  {
    assert lines[i..][0] == lines[i] && lines[i..][1..] == lines[i + 1..];
  }

  method ScanChainLines(lines: seq<string>) returns (r: Option<string>)
    ensures r == FirstChainLineName(lines)
  {
    var i := 0;
    assert lines[0..] == lines;
    while i < |lines|
      invariant 0 <= i <= |lines|
      invariant FirstOf(lines[i..], ChainLineName) == FirstOf(lines, ChainLineName)
    {
      var line := lines[i];
      FirstOfStep(lines, i, ChainLineName);
      if Contains(line, CHAIN_MARKER) {
        var parts := Words(line);
        if |parts| > 1 {
          assert ChainLineName(line) == Some(parts[1]);
          return Some(parts[1]);
        }
      }
      assert ChainLineName(line).None?;
      i := i + 1;
    }
    assert lines[i..] == [];
    return None;
  }

  method ScanNameAbove(lines: seq<string>, i: nat) returns (r: Option<string>)
    requires i <= |lines|
    ensures r == NameAbove(lines, i)
  {
    var j := WindowStart(i);
    while j < i
      invariant WindowStart(i) <= j <= i
      invariant FirstOf(lines[j..i], NameLine) == FirstOf(lines[WindowStart(i)..i], NameLine)
    {
      assert lines[j..i][0] == lines[j] && lines[j..i][1..] == lines[j + 1..i];
      if Contains(lines[j], "Name:") {
        NameLineHasColon(lines[j]);
        var rest := AfterFirst(lines[j], ':');
        return Some(Strip(rest.value));
      }
      j := j + 1;
    }
    return None;
  }

  method ScanDescriptions(lines: seq<string>) returns (r: Option<string>)
    ensures r == DescriptionName(lines, 0)
  {
    var i := 0;
    while i < |lines|
      invariant 0 <= i <= |lines|
      invariant DescriptionName(lines, i) == DescriptionName(lines, 0)
    {
      if Contains(lines[i], DESCRIPTION) {
        var name := ScanNameAbove(lines, i);
        if name.Some? {
          return name;
        }
      }
      i := i + 1;
    }
    return None;
  }

  /** `get_filter_source`, step by step. */
  method GetFilterSource(short: Option<string>, long: Option<string>) returns (r: Option<string>)
    ensures r == FilterSource(short, long)
  {
    if short.None? {
      return None;
    }
    var text := short.value;
    r := SearchName(text, PATTERN_OUTPUT);
    if r.Some? {
      return;
    }
    r := SearchName(text, PATTERN_BIG);
    if r.Some? {
      return;
    }
    r := ScanChainLines(SplitLines(text));
    if r.Some? {
      return;
    }
    if long.None? {
      return None;
    }
    r := ScanDescriptions(SplitLines(long.value));
  }

  // ---------------------------------------------------------------------------
  // Building the configuration from the settings
  // ---------------------------------------------------------------------------

  /**
   * `generate_config`'s mapping as written: noise reduction always on, the
   * transient settings passed on, crossfeed left at its defaults, and the
   * plain string "mono" as the mode when stereo is disabled.
   */
  function CliConfigAsWritten(s: AppSettings): (c: FC.FilterChainConfig)
    ensures c.noiseReductionEnabled
    ensures !s.stereo.enabled ==> c.stereoMode == FC.Raw("mono") && c.stereoMode != FC.Mode(Mono)
  {
    FC.FilterChainConfig(
      true, s.noiseReduction.model, s.noiseReduction.strength,
      s.gate.enabled, s.gate.thresholdDb, s.gate.rangeDb, s.gate.attackMs, s.gate.holdMs, s.gate.releaseMs,
      if s.stereo.enabled then FC.Mode(s.stereo.mode) else FC.Raw("mono"), s.stereo.width,
      FC.DefaultFilterChainConfig.crossfeedEnabled, FC.DefaultFilterChainConfig.crossfeedLevel,
      s.equalizer.enabled, s.equalizer.bands,
      s.transient.enabled, s.transient.attack)
  }

  /** The mapping as intended: the MONO member when stereo is disabled, everything else as written. */
  function CliConfig(s: AppSettings): (c: FC.FilterChainConfig)
    ensures c.noiseReductionEnabled
    ensures c.stereoMode == FC.Mode(Mono) <==> !s.stereo.enabled || s.stereo.mode == Mono
    ensures c.eqBands == s.equalizer.bands && c.eqEnabled == s.equalizer.enabled && c.gateEnabled == s.gate.enabled
    ensures c == CliConfigAsWritten(s).(stereoMode := FC.Mode(if s.stereo.enabled then s.stereo.mode else Mono))
  {
    CliConfigAsWritten(s).(stereoMode := FC.Mode(if s.stereo.enabled then s.stereo.mode else Mono))
  }

  /** Settings as saved, with stereo switched off. */
  const StereoOffSettings := DefaultSettings.(stereo := DefaultSettings.stereo.(enabled := false))

  /**
   * With stereo disabled, the configuration as written compiles to a
   * two-channel dual-mono graph, while the intended one is mono.
   */
  lemma CliMonoAsWrittenDiverges(pow4: real -> real)
    ensures var g := FC.Compile(CliConfigAsWritten(StereoOffSettings), pow4);
            g.playbackPosition == ["FL", "FR"] && g.outputs == ["copy_left:Out", "copy_right:Out"]
    ensures var g := FC.Compile(CliConfig(StereoOffSettings), pow4);
            g.playbackPosition == ["MONO"] && g.channels == Some(1)
  {
    var written := CliConfigAsWritten(StereoOffSettings);
    var intended := CliConfig(StereoOffSettings);
    assert FC.Ai in FC.ActiveStages(written);
    assert FC.Ai in FC.ActiveStages(intended);
    FC.StereoLayout(written, pow4);
    FC.StageChainShape(intended, pow4);
  }

  /**
   * The intended mapping compiles to the same graph as the desktop service's
   * own mapping once noise reduction is on: the transient and crossfeed
   * fields where the two differ do not reach the graph.
   */
  lemma CliConfigMatchesService(s: AppSettings, pow4: real -> real)
    ensures FC.Compile(CliConfig(s), pow4) ==
            FC.Compile(Pw.ConfigFromSettings(s.(noiseReduction := s.noiseReduction.(enabled := true))), pow4)
  {
    var svc := Pw.ConfigFromSettings(s.(noiseReduction := s.noiseReduction.(enabled := true)));
    FC.TransientAndCrossfeedIgnored(svc, s.transient.enabled, s.transient.attack,
                                    FC.DefaultFilterChainConfig.crossfeedEnabled,
                                    FC.DefaultFilterChainConfig.crossfeedLevel, pow4);
    assert CliConfig(s) == svc.(transientEnabled := s.transient.enabled, transientAttack := s.transient.attack,
                                crossfeedEnabled := FC.DefaultFilterChainConfig.crossfeedEnabled,
                                crossfeedLevel := FC.DefaultFilterChainConfig.crossfeedLevel);
  }

  /**
   * `generate_config`, with `saveOk` whether writing the file succeeded:
   * the configuration written (with the plain "mono" string when stereo is
   * disabled), or None when loading or saving raised.
   */
  function GenerateConfig(f: SettingsFile, saveOk: bool): (r: Option<FC.FilterChainConfig>)
    ensures r.Some? <==> LoadSettings(f).Ok? && saveOk
    ensures r.Some? ==> r.value == CliConfigAsWritten(LoadSettings(f).value)
  {
    match LoadSettings(f)
    case Ok(s) => if saveOk then Some(CliConfigAsWritten(s)) else None
    case Err(_) => None
  }

  // ---------------------------------------------------------------------------
  // Commands
  // ---------------------------------------------------------------------------

  /** What a command does outside itself, in order. */
  datatype Action = Kill(pid: int) | WriteConfig | SpawnFilter | ConfigureSource | RemoveFile(name: string)

  const CONFIG_FILE := "source-gtcrn-smart.conf"
  const LEGACY_FILES := ["source-rnnoise-config.conf", "source-rnnoise-smart.conf"]

  /** Which of the configuration files exist. */
  datatype Files = Files(config: bool, legacy: seq<bool>)

  datatype Outcome = Outcome(code: int, printed: string, files: Files, actions: seq<Action>)

  function KillActions(pids: seq<int>): (r: seq<Action>)
    ensures |r| == |pids| && forall i :: 0 <= i < |pids| ==> r[i] == Kill(pids[i])
  {
    if |pids| == 0 then [] else KillActions(pids[..|pids| - 1]) + [Kill(pids[|pids| - 1])]
  }

  /** `kill_filter_processes` */
  function KillFilterProcesses(psOutput: Option<string>): (r: seq<Action>)
    ensures forall a :: a in r ==> a.Kill?
  {
    KillActions(if psOutput.None? then [] else PidsFromLines(SplitLines(psOutput.value)))
  }

  function RemoveLegacy(legacy: seq<bool>, names: seq<string>): (r: seq<Action>)
    requires |legacy| == |names|
    ensures |r| <= |names| && forall a :: a in r ==> a.RemoveFile?
    ensures forall n :: RemoveFile(n) in r <==> exists i :: 0 <= i < |names| && legacy[i] && names[i] == n
  {
    if |legacy| == 0 then []
    else
      var rest := RemoveLegacy(legacy[1..], names[1..]);
      (if legacy[0] then [RemoveFile(names[0])] else []) + rest
  }

  /** The removals follow the list: removing from two lists in turn is removing from the joined list. */
  lemma {:induction false} RemoveLegacyAppend(a: seq<bool>, na: seq<string>, b: seq<bool>, nb: seq<string>)
    requires |a| == |na| && |b| == |nb|
    ensures RemoveLegacy(a + b, na + nb) == RemoveLegacy(a, na) + RemoveLegacy(b, nb)
    decreases |a|
  {
    if |a| == 0 {
      assert a + b == b && na + nb == nb;
    } else {
      assert (a + b)[1..] == a[1..] + b && (na + nb)[1..] == na[1..] + nb;
      RemoveLegacyAppend(a[1..], na[1..], b, nb);
    }
  }

  /** Two listed paths: the first is removed, if it exists, before the second. */
  lemma RemoveLegacyTwo(x: bool, y: bool, n: string, m: string)
    ensures RemoveLegacy([x, y], [n, m]) == (if x then [RemoveFile(n)] else []) + (if y then [RemoveFile(m)] else [])
  {
    RemoveLegacyAppend([x], [n], [y], [m]);
    assert [x] + [y] == [x, y] && [n] + [m] == [n, m];
  }

  /** The existence flags of the configuration file and then each legacy file, in the order they are removed. */
  function Present(f: Files): seq<bool>
  {
    [f.config] + f.legacy
  }

  /** Every file that exists can be unlinked (`removable` says which unlinks succeed). */
  predicate Unlinkable(files: Files, removable: Files)
    requires |files.legacy| == |removable.legacy|
  {
    (files.config ==> removable.config) && forall i :: 0 <= i < |files.legacy| ==> files.legacy[i] ==> removable.legacy[i]
  }

  /** The removals of a run in which every unlink succeeds. */
  function Removals(files: Files): seq<Action>
    requires |files.legacy| == |LEGACY_FILES|
  {
    (if files.config then [RemoveFile(CONFIG_FILE)] else []) +
    (if files.legacy[0] then [RemoveFile(LEGACY_FILES[0])] else []) +
    (if files.legacy[1] then [RemoveFile(LEGACY_FILES[1])] else [])
  }

  /** The first path that exists but cannot be unlinked, or the number of paths when there is none. */
  function FirstStuck(present: seq<bool>, removable: seq<bool>): (k: nat)
    requires |present| == |removable|
    ensures k <= |present|
    ensures forall i :: 0 <= i < k ==> !present[i] || removable[i]
    ensures k < |present| ==> present[k] && !removable[k]
  {
    if |present| == 0 then 0
    else if present[0] && !removable[0] then 0
    else 1 + FirstStuck(present[1..], removable[1..])
  }

  /**
   * The loop over the paths: each existing path is unlinked in turn, and the
   * first unlink that fails raises, so no later path is visited. The result
   * is which paths still exist, the removals done, and whether no unlink failed.
   */
  function RemoveEach(present: seq<bool>, removable: seq<bool>, names: seq<string>): (r: (seq<bool>, seq<Action>, bool))
    requires |present| == |removable| == |names|
    ensures var k := FirstStuck(present, removable);
            && r.2 == (k == |present|)
            && |r.0| == |present|
            && (forall i :: 0 <= i < |present| ==> r.0[i] == (k <= i && present[i]))
            && r.1 == RemoveLegacy(present[..k], names[..k])
    decreases |present|
  {
    if |present| == 0 then ([], [], true)
    else if present[0] && !removable[0] then (present, [], false)
    else
      var r := RemoveEach(present[1..], removable[1..], names[1..]);
      ghost var k := FirstStuck(present[1..], removable[1..]);
      assert present[..k + 1][1..] == present[1..][..k] && names[..k + 1][1..] == names[1..][..k];
      ([false] + r.0, (if present[0] then [RemoveFile(names[0])] else []) + r.1, r.2)
  }

  /** With every unlink succeeding, the removals are those of the whole path list. */
  lemma RemovalsInOrder(files: Files)
    requires |files.legacy| == |LEGACY_FILES|
    ensures RemoveLegacy(Present(files), [CONFIG_FILE] + LEGACY_FILES) == Removals(files)
  {
    RemoveLegacyAppend([files.config], [CONFIG_FILE], files.legacy, LEGACY_FILES);
    assert files.legacy == [files.legacy[0], files.legacy[1]];
    RemoveLegacyTwo(files.legacy[0], files.legacy[1], LEGACY_FILES[0], LEGACY_FILES[1]);
  }

  /** No path is stuck exactly when every existing file can be unlinked. */
  lemma StuckUnlinkable(files: Files, removable: Files)
    requires |files.legacy| == |removable.legacy|
    ensures FirstStuck(Present(files), Present(removable)) == |Present(files)| <==> Unlinkable(files, removable)
  {
    var k := FirstStuck(Present(files), Present(removable));
    if k == |Present(files)| {
      assert files.config ==> removable.config by { assert Present(files)[0] == files.config; }
      forall i | 0 <= i < |files.legacy| && files.legacy[i]
        ensures removable.legacy[i]
      {
        assert Present(files)[i + 1] == files.legacy[i] && Present(removable)[i + 1] == removable.legacy[i];
      }
    } else if k > 0 {
      assert Present(files)[k] == files.legacy[k - 1] && Present(removable)[k] == removable.legacy[k - 1];
    }
  }

  /** The removals done before the k-th path are a prefix of all of them, a strict one when the k-th path exists. */
  lemma RemovalsPrefix(present: seq<bool>, names: seq<string>, k: nat)
    requires |present| == |names| && k <= |present|
    ensures RemoveLegacy(present[..k], names[..k]) <= RemoveLegacy(present, names)
    ensures k < |present| && present[k] ==> RemoveLegacy(present[..k], names[..k]) < RemoveLegacy(present, names)
    ensures k == |present| ==> RemoveLegacy(present[..k], names[..k]) == RemoveLegacy(present, names)
  {
    RemoveLegacyAppend(present[..k], names[..k], present[k..], names[k..]);
    assert present[..k] + present[k..] == present && names[..k] + names[k..] == names;
    if k < |present| && present[k] {
      assert present[k..][0] && RemoveFile(names[k..][0]) in RemoveLegacy(present[k..], names[k..]);
    }
  }

  /**
   * `remove_config`: the configuration file, then each legacy file in list
   * order, each only when it exists. An unlink that fails raises out of the
   * function: the files before it are gone, it and the later ones remain.
   */
  function RemoveConfig(files: Files, removable: Files): (r: (Files, seq<Action>, bool))
    requires |files.legacy| == |LEGACY_FILES| && |removable.legacy| == |LEGACY_FILES|
    ensures r.2 == Unlinkable(files, removable)
    ensures |r.0.legacy| == |LEGACY_FILES|
    ensures var k := FirstStuck(Present(files), Present(removable));
            forall i :: 0 <= i < |Present(files)| ==> Present(r.0)[i] == (k <= i && Present(files)[i])
    ensures r.2 ==> !r.0.config && forall i :: 0 <= i < |r.0.legacy| ==> !r.0.legacy[i]
    ensures r.2 ==> r.1 == Removals(files)
    ensures !r.2 ==> r.1 < Removals(files)
    ensures files.config && !removable.config ==> r.0 == files && r.1 == []
  {
    var present := Present(files);
    var names := [CONFIG_FILE] + LEGACY_FILES;
    var e := RemoveEach(present, Present(removable), names);
    var after := Files(e.0[0], e.0[1..]);
    assert Present(after) == e.0;
    StuckUnlinkable(files, removable);
    RemovalsInOrder(files);
    RemovalsPrefix(present, names, FirstStuck(present, Present(removable)));
    (after, e.1, e.2)
  }

  /** `cmd_status`: 0 and "enabled" exactly when the configuration file exists. */
  function CmdStatus(files: Files): (o: Outcome)
    ensures o.code == 0 <==> files.config
    ensures o.code == 1 <==> !files.config
    ensures o.printed == (if files.config then "enabled" else "disabled") && o.files == files && o.actions == []
  {
    if files.config then Outcome(0, "enabled", files, []) else Outcome(1, "disabled", files, [])
  }

  /**
   * `cmd_stop`: remove every configuration file, then kill the processes; 0.
   * A failed unlink escapes `main`, so the exit code is 1 and nothing is killed.
   */
  function CmdStop(files: Files, removable: Files, psOutput: Option<string>): (o: Outcome)
    requires |files.legacy| == |LEGACY_FILES| && |removable.legacy| == |LEGACY_FILES|
    ensures o.code == 0 <==> Unlinkable(files, removable)
    ensures o.code == 1 <==> !Unlinkable(files, removable)
    ensures o.code == 0 ==> !o.files.config && o.actions == Removals(files) + KillFilterProcesses(psOutput)
    ensures o.code == 1 ==> o.actions < Removals(files)
    ensures o.files == RemoveConfig(files, removable).0
  {
    var (after, removed, ok) := RemoveConfig(files, removable);
    if ok then Outcome(0, "", after, removed + KillFilterProcesses(psOutput))
    else Outcome(1, "", after, removed)
  }

  /**
   * `cmd_start`: kill the running processes, write the configuration only
   * when it is missing, then spawn the filter and configure its source
   * twice. 1 when writing or spawning fails, else 0.
   */
  function CmdStart(files: Files, psOutput: Option<string>, settings: SettingsFile, saveOk: bool, spawnOk: bool): (o: Outcome)
    ensures var written := GenerateConfig(settings, saveOk).Some?;
            o.code == 1 <==> (!files.config && !written) || ((files.config || written) && !spawnOk)
    ensures o.code == 0 || o.code == 1
    ensures KillFilterProcesses(psOutput) <= o.actions
    ensures WriteConfig in o.actions <==> !files.config && GenerateConfig(settings, saveOk).Some?
    ensures SpawnFilter in o.actions <==> o.code == 0
    ensures o.code == 0 ==> o.files.config
  {
    var kills := KillFilterProcesses(psOutput);
    var written := GenerateConfig(settings, saveOk).Some?;
    if !files.config && !written then
      Outcome(1, "", files, kills)
    else
      var writes := if files.config then [] else [WriteConfig];
      var done := kills + writes;
      assert WriteConfig in done <==> !files.config;
      assert SpawnFilter !in done;
      var files' := files.(config := true);
      if !spawnOk then Outcome(1, "", files', done)
      else Outcome(0, "", files', done + [SpawnFilter, ConfigureSource, ConfigureSource])
  }

  /** `cmd_generate`: write the configuration whether or not it exists; 0 when that succeeded. */
  function CmdGenerate(files: Files, settings: SettingsFile, saveOk: bool): (o: Outcome)
    ensures o.code == 0 <==> GenerateConfig(settings, saveOk).Some?
    ensures o.code == 0 ==> o.files.config && o.actions == [WriteConfig]
    ensures o.code != 0 ==> o.files == files && o.actions == []
  {
    if GenerateConfig(settings, saveOk).Some? then Outcome(0, "", files.(config := true), [WriteConfig])
    else Outcome(1, "", files, [])
  }

  /** `cmd_remove`: remove every configuration file; 0, or 1 when an unlink fails and escapes `main`. */
  function CmdRemove(files: Files, removable: Files): (o: Outcome)
    requires |files.legacy| == |LEGACY_FILES| && |removable.legacy| == |LEGACY_FILES|
    ensures o.code == 0 <==> Unlinkable(files, removable)
    ensures o.code == 1 <==> !Unlinkable(files, removable)
    ensures o.code == 0 ==> !o.files.config && o.actions == Removals(files)
    ensures o.code == 1 ==> o.actions < Removals(files)
    ensures o.files == RemoveConfig(files, removable).0
  {
    var (after, removed, ok) := RemoveConfig(files, removable);
    Outcome(if ok then 0 else 1, "", after, removed)
  }

  /** After a `stop` (or `remove`) that exits 0, `status` reports disabled. */
  lemma StopThenStatus(files: Files, removable: Files, psOutput: Option<string>)
    requires |files.legacy| == |LEGACY_FILES| && |removable.legacy| == |LEGACY_FILES|
    ensures CmdStop(files, removable, psOutput).code == 0 ==> CmdStatus(CmdStop(files, removable, psOutput).files).code == 1
    ensures CmdRemove(files, removable).code == 0 ==> CmdStatus(CmdRemove(files, removable).files).code == 1
  {
  }

  /** When the configuration file itself cannot be unlinked, `stop` changes nothing and `status` still reports enabled. */
  lemma StopFailsStillEnabled(files: Files, removable: Files, psOutput: Option<string>)
    requires |files.legacy| == |LEGACY_FILES| && |removable.legacy| == |LEGACY_FILES|
    requires files.config && !removable.config
    ensures CmdStop(files, removable, psOutput).code == 1
    ensures CmdStop(files, removable, psOutput).actions == []
    ensures CmdStatus(CmdStop(files, removable, psOutput).files).code == 0
  {
  }

  /** After a successful `start` (or `generate`), `status` reports enabled. */
  lemma StartThenStatus(files: Files, psOutput: Option<string>, settings: SettingsFile, saveOk: bool, spawnOk: bool)
    ensures CmdStart(files, psOutput, settings, saveOk, spawnOk).code == 0 ==>
              CmdStatus(CmdStart(files, psOutput, settings, saveOk, spawnOk).files).code == 0
    ensures CmdGenerate(files, settings, saveOk).code == 0 ==> CmdStatus(CmdGenerate(files, settings, saveOk).files).code == 0
  {
  }
}

=== FILE: config.dfy ===
/**
 * Application settings of the microphone tool: enumerations, processing
 * limits, the settings records with their defaults, the dictionary form
 * written to `settings.json`, the model/plugin lookup and the equalizer
 * presets.
 */
module Config {
  import opened Wrappers

  // ---------------------------------------------------------------------------
  // Enumerations and their stored values
  // ---------------------------------------------------------------------------

  datatype AIPlugin = Gtcrn

  /** `NoiseModel` is an integer enumeration: LOW_LATENCY = 0, FULL_QUALITY = 1. */
  datatype NoiseModel = GtcrnLowLatency | GtcrnFullQuality

  datatype StereoMode = Mono | DualMono | Radio | VoiceChanger

  datatype VisualizerStyle = ModernWaves | RetroBars | Circular

  function NoiseModelValue(m: NoiseModel): int
  {
    match m
    case GtcrnLowLatency => 0
    case GtcrnFullQuality => 1
  }

  function StereoModeValue(m: StereoMode): string
  {
    match m
    case Mono => "mono"
    case DualMono => "dual_mono"
    case Radio => "radio"
    case VoiceChanger => "voice_changer"
  }

  function VisualizerStyleValue(s: VisualizerStyle): int
  {
    match s
    case ModernWaves => 0
    case RetroBars => 1
    case Circular => 2
  }

  /** `NoiseModel(i)`: the member with value `i`, or a ValueError. */
  function NoiseModelFromValue(i: int): (r: Option<NoiseModel>)
    ensures r.Some? <==> 0 <= i <= 1
    ensures r.Some? ==> NoiseModelValue(r.value) == i
  {
    if i == 0 then Some(GtcrnLowLatency)
    else if i == 1 then Some(GtcrnFullQuality)
    else None
  }

  /** `StereoMode(s)`: the member whose value is `s`, or a ValueError. */
  function StereoModeFromValue(s: string): (r: Option<StereoMode>)
    ensures r.Some? <==> s in {"mono", "dual_mono", "radio", "voice_changer"}
    ensures r.Some? ==> StereoModeValue(r.value) == s
  {
    if s == "mono" then Some(Mono)
    else if s == "dual_mono" then Some(DualMono)
    else if s == "radio" then Some(Radio)
    else if s == "voice_changer" then Some(VoiceChanger)
    else None
  }

  /** `VisualizerStyle(i)`: the member with value `i`, or a ValueError. */
  function VisualizerStyleFromValue(i: int): (r: Option<VisualizerStyle>)
    ensures r.Some? <==> 0 <= i <= 2
    ensures r.Some? ==> VisualizerStyleValue(r.value) == i
  {
    if i == 0 then Some(ModernWaves)
    else if i == 1 then Some(RetroBars)
    else if i == 2 then Some(Circular)
    else None
  }

  // ---------------------------------------------------------------------------
  // Processing limits
  // ---------------------------------------------------------------------------

  const STRENGTH_MIN: real := 0.0
  const STRENGTH_MAX: real := 1.0
  const STRENGTH_DEFAULT: real := 1.0

  const GATE_THRESHOLD_MIN: int := -60
  const GATE_THRESHOLD_MAX: int := 0
  const GATE_THRESHOLD_DEFAULT: int := -30

  const GATE_RANGE_MIN: int := -90
  const GATE_RANGE_MAX: int := 0
  const GATE_RANGE_DEFAULT: int := -60

  const GATE_ATTACK_MIN: real := 0.1
  const GATE_ATTACK_MAX: real := 500.0
  const GATE_ATTACK_DEFAULT: real := 20.0

  const GATE_HOLD_MIN: real := 0.0
  const GATE_HOLD_MAX: real := 1000.0
  const GATE_HOLD_DEFAULT: real := 300.0

  const GATE_RELEASE_MIN: real := 0.0
  const GATE_RELEASE_MAX: real := 1000.0
  const GATE_RELEASE_DEFAULT: real := 150.0

  const TRANSIENT_ATTACK_MIN: real := -1.0
  const TRANSIENT_ATTACK_MAX: real := 0.0
  const TRANSIENT_ATTACK_DEFAULT: real := -0.5

  const STEREO_WIDTH_MIN: real := 0.0
  const STEREO_WIDTH_MAX: real := 1.0
  const STEREO_WIDTH_DEFAULT: real := 0.75

  const CROSSFEED_DEFAULT: real := 0.45

  const EQ_BAND_MIN: real := -40.0
  const EQ_BAND_MAX: real := 40.0
  const EQ_BAND_DEFAULT: real := 0.0
  const EQ_BAND_COUNT: nat := 10

  const WINDOW_WIDTH_DEFAULT: int := 720
  const WINDOW_HEIGHT_DEFAULT: int := 700

  /** `[EQ_BAND_DEFAULT] * EQ_BAND_COUNT` */
  function FlatBands(): (r: seq<real>)
    ensures |r| == EQ_BAND_COUNT
    ensures forall i :: 0 <= i < |r| ==> r[i] == EQ_BAND_DEFAULT
  {
    seq(EQ_BAND_COUNT, _ => EQ_BAND_DEFAULT)
  }

  // ---------------------------------------------------------------------------
  // Settings records (the dataclasses) and their defaults
  // ---------------------------------------------------------------------------

  datatype NoiseReductionConfig = NoiseReductionConfig(enabled: bool, model: NoiseModel, strength: real)

  datatype GateConfig = GateConfig(
    enabled: bool, thresholdDb: int, rangeDb: int,
    attackMs: real, holdMs: real, releaseMs: real)

  datatype TransientConfig = TransientConfig(enabled: bool, attack: real)

  datatype StereoConfig = StereoConfig(
    enabled: bool, mode: StereoMode, width: real,
    crossfeedEnabled: bool, crossfeedLevel: real)

  datatype EqualizerConfig = EqualizerConfig(enabled: bool, bands: seq<real>, preset: string)

  datatype WindowConfig = WindowConfig(width: int, height: int, maximized: bool)

  datatype UIConfig = UIConfig(visualizerStyle: VisualizerStyle, showAdvanced: bool)

  datatype BluetoothConfig = BluetoothConfig(autoSwitchHeadset: bool)

  datatype MonitorConfig = MonitorConfig(enabled: bool, delayMs: int, volume: real)

  datatype AppSettings = AppSettings(
    noiseReduction: NoiseReductionConfig,
    gate: GateConfig,
    stereo: StereoConfig,
    equalizer: EqualizerConfig,
    transient: TransientConfig,
    window: WindowConfig,
    ui: UIConfig,
    bluetooth: BluetoothConfig,
    monitor: MonitorConfig)

  const DefaultNoiseReduction := NoiseReductionConfig(true, GtcrnFullQuality, STRENGTH_DEFAULT)
  const DefaultGate := GateConfig(true, GATE_THRESHOLD_DEFAULT, GATE_RANGE_DEFAULT,
                                  GATE_ATTACK_DEFAULT, GATE_HOLD_DEFAULT, GATE_RELEASE_DEFAULT)
  const DefaultTransient := TransientConfig(false, TRANSIENT_ATTACK_DEFAULT)
  const DefaultStereo := StereoConfig(true, DualMono, STEREO_WIDTH_DEFAULT, false, CROSSFEED_DEFAULT)
  const DefaultEqualizer := EqualizerConfig(false, FlatBands(), "flat")
  const DefaultWindow := WindowConfig(WINDOW_WIDTH_DEFAULT, WINDOW_HEIGHT_DEFAULT, false)
  const DefaultUI := UIConfig(ModernWaves, false)
  const DefaultBluetooth := BluetoothConfig(false)
  const DefaultMonitor := MonitorConfig(false, 0, 1.0)

  /** `AppSettings()` */
  const DefaultSettings := AppSettings(
    DefaultNoiseReduction, DefaultGate, DefaultStereo, DefaultEqualizer,
    DefaultTransient, DefaultWindow, DefaultUI, DefaultBluetooth, DefaultMonitor)

  // ---------------------------------------------------------------------------
  // Dictionary form (the JSON object of settings.json)
  // ---------------------------------------------------------------------------

  // Each section is a dictionary whose keys may be missing: a missing key is `None`.
  datatype NoiseReductionDict = NoiseReductionDict(
    enabled: Option<bool>, model: Option<int>, strength: Option<real>)

  datatype GateDict = GateDict(
    enabled: Option<bool>, thresholdDb: Option<int>, rangeDb: Option<int>,
    attackMs: Option<real>, holdMs: Option<real>, releaseMs: Option<real>)

  datatype StereoDict = StereoDict(
    enabled: Option<bool>, mode: Option<string>, width: Option<real>,
    crossfeedEnabled: Option<bool>, crossfeedLevel: Option<real>)

  datatype EqualizerDict = EqualizerDict(
    enabled: Option<bool>, bands: Option<seq<real>>, preset: Option<string>)

  datatype TransientDict = TransientDict(enabled: Option<bool>, attack: Option<real>)

  datatype WindowDict = WindowDict(width: Option<int>, height: Option<int>, maximized: Option<bool>)

  datatype UIDict = UIDict(visualizerStyle: Option<int>, showAdvanced: Option<bool>)

  datatype BluetoothDict = BluetoothDict(autoSwitchHeadset: Option<bool>)

  datatype MonitorDict = MonitorDict(enabled: Option<bool>, delayMs: Option<int>, volume: Option<real>)

  /** A missing top-level section is `None`. */
  datatype SettingsDict = SettingsDict(
    noiseReduction: Option<NoiseReductionDict>,
    gate: Option<GateDict>,
    stereo: Option<StereoDict>,
    equalizer: Option<EqualizerDict>,
    transient: Option<TransientDict>,
    window: Option<WindowDict>,
    ui: Option<UIDict>,
    bluetooth: Option<BluetoothDict>,
    monitor: Option<MonitorDict>)

  /** `AppSettings.to_dict`: every field present, enums stored as their values. */
  function ToDict(s: AppSettings): (d: SettingsDict)
    ensures d.noiseReduction.Some? && d.noiseReduction.value.model == Some(NoiseModelValue(s.noiseReduction.model))
    ensures d.stereo.Some? && d.stereo.value.mode == Some(StereoModeValue(s.stereo.mode))
    ensures d.ui.Some? && d.ui.value.visualizerStyle == Some(VisualizerStyleValue(s.ui.visualizerStyle))
  {
    SettingsDict(
      Some(NoiseReductionDict(Some(s.noiseReduction.enabled), Some(NoiseModelValue(s.noiseReduction.model)),
                              Some(s.noiseReduction.strength))),
      Some(GateDict(Some(s.gate.enabled), Some(s.gate.thresholdDb), Some(s.gate.rangeDb),
                    Some(s.gate.attackMs), Some(s.gate.holdMs), Some(s.gate.releaseMs))),
      Some(StereoDict(Some(s.stereo.enabled), Some(StereoModeValue(s.stereo.mode)), Some(s.stereo.width),
                      Some(s.stereo.crossfeedEnabled), Some(s.stereo.crossfeedLevel))),
      Some(EqualizerDict(Some(s.equalizer.enabled), Some(s.equalizer.bands), Some(s.equalizer.preset))),
      Some(TransientDict(Some(s.transient.enabled), Some(s.transient.attack))),
      Some(WindowDict(Some(s.window.width), Some(s.window.height), Some(s.window.maximized))),
      Some(UIDict(Some(VisualizerStyleValue(s.ui.visualizerStyle)), Some(s.ui.showAdvanced))),
      Some(BluetoothDict(Some(s.bluetooth.autoSwitchHeadset))),
      Some(MonitorDict(Some(s.monitor.enabled), Some(s.monitor.delayMs), Some(s.monitor.volume))))
  }

  const LegacyVoiceChangerNames: set<string> := {"squirrel", "hidden"}
  const LegacyDualMonoNames: set<string> := {"spatial", "extra_stereo"}
  const StereoModeNames: set<string> := {"mono", "dual_mono", "radio", "voice_changer"}

  /**
   * The stereo mode read from a stored "mode" key: legacy names are remapped,
   * a missing key means dual mono, anything else unknown is a ValueError.
   */
  function ParseStereoMode(mode: Option<string>): (r: Option<StereoMode>)
    ensures mode.None? ==> r == Some(DualMono)
    ensures mode.Some? && mode.value in LegacyVoiceChangerNames ==> r == Some(VoiceChanger)
    ensures mode.Some? && mode.value in LegacyDualMonoNames ==> r == Some(DualMono)
    ensures forall m :: mode == Some(StereoModeValue(m)) ==> r == Some(m)
    ensures r.None? <==>
      mode.Some? && mode.value !in StereoModeNames + LegacyVoiceChangerNames + LegacyDualMonoNames
  {
    var name :=
      if mode.Some? && mode.value in LegacyVoiceChangerNames then "voice_changer"
      else if mode.Some? && mode.value in LegacyDualMonoNames then "dual_mono"
      else mode.GetOr("dual_mono");
    StereoModeFromValue(name)
  }

  /**
   * `AppSettings.from_dict`: start from the defaults and rebuild each section
   * that is present, taking each missing key from that section's fallback.
   * An unknown model, mode or visualizer style raises a ValueError.
   */
  function FromDict(d: SettingsDict): (r: Result<AppSettings>)
  {
    var nrModel :=
      if d.noiseReduction.Some? then NoiseModelFromValue(d.noiseReduction.value.model.GetOr(0))
      else Some(DefaultNoiseReduction.model);
    var mode :=
      if d.stereo.Some? then ParseStereoMode(d.stereo.value.mode) else Some(DefaultStereo.mode);
    var style :=
      if d.ui.Some? then VisualizerStyleFromValue(d.ui.value.visualizerStyle.GetOr(0))
      else Some(DefaultUI.visualizerStyle);
    if nrModel.None? then Err("ValueError: invalid noise_reduction.model")
    else if mode.None? then Err("ValueError: invalid stereo.mode")
    else if style.None? then Err("ValueError: invalid ui.visualizer_style")
    else
      var nr := match d.noiseReduction
        case None => DefaultNoiseReduction
        case Some(n) => NoiseReductionConfig(n.enabled.GetOr(true), nrModel.value, n.strength.GetOr(STRENGTH_DEFAULT));
      var gate := match d.gate
        case None => DefaultGate
        case Some(g) => GateConfig(
          g.enabled.GetOr(true), g.thresholdDb.GetOr(GATE_THRESHOLD_DEFAULT), g.rangeDb.GetOr(GATE_RANGE_DEFAULT),
          g.attackMs.GetOr(GATE_ATTACK_DEFAULT), g.holdMs.GetOr(GATE_HOLD_DEFAULT),
          g.releaseMs.GetOr(GATE_RELEASE_DEFAULT));
      var stereo := match d.stereo
        case None => DefaultStereo
        case Some(s) => StereoConfig(
          s.enabled.GetOr(false), mode.value, s.width.GetOr(STEREO_WIDTH_DEFAULT),
          s.crossfeedEnabled.GetOr(false), s.crossfeedLevel.GetOr(CROSSFEED_DEFAULT));
      var eq := match d.equalizer
        case None => DefaultEqualizer
        case Some(e) => EqualizerConfig(e.enabled.GetOr(false), e.bands.GetOr(FlatBands()), e.preset.GetOr("flat"));
      var tr := match d.transient
        case None => DefaultTransient
        case Some(t) => TransientConfig(t.enabled.GetOr(false), t.attack.GetOr(TRANSIENT_ATTACK_DEFAULT));
      var win := match d.window
        case None => DefaultWindow
        case Some(w) => WindowConfig(w.width.GetOr(WINDOW_WIDTH_DEFAULT), w.height.GetOr(WINDOW_HEIGHT_DEFAULT),
                                     w.maximized.GetOr(false));
      var ui := match d.ui
        case None => DefaultUI
        case Some(u) => UIConfig(style.value, u.showAdvanced.GetOr(false));
      var bt := match d.bluetooth
        case None => DefaultBluetooth
        case Some(b) => BluetoothConfig(b.autoSwitchHeadset.GetOr(false));
      var mon := match d.monitor
        case None => DefaultMonitor
        case Some(m) => MonitorConfig(m.enabled.GetOr(false), m.delayMs.GetOr(0), m.volume.GetOr(1.0));
      Ok(AppSettings(nr, gate, stereo, eq, tr, win, ui, bt, mon))
  }

  /** Reading back what `to_dict` wrote gives the same settings. */
  lemma {:induction false} FromDictToDict(s: AppSettings)
    ensures FromDict(ToDict(s)) == Ok(s)
  {
    var d := ToDict(s);
    assert ParseStereoMode(d.stereo.value.mode) == Some(s.stereo.mode);
    assert NoiseModelFromValue(NoiseModelValue(s.noiseReduction.model)) == Some(s.noiseReduction.model);
    assert VisualizerStyleFromValue(VisualizerStyleValue(s.ui.visualizerStyle)) == Some(s.ui.visualizerStyle);
  }

  /** `from_dict` fails exactly when a stored enum value is not a member. */
  lemma FromDictFailsIffBadEnum(d: SettingsDict)
    ensures FromDict(d).Err? <==>
      (d.noiseReduction.Some? && d.noiseReduction.value.model.GetOr(0) !in {0, 1}) ||
      (d.stereo.Some? && d.stereo.value.mode.Some? &&
       d.stereo.value.mode.value !in StereoModeNames + LegacyVoiceChangerNames + LegacyDualMonoNames) ||
      (d.ui.Some? && d.ui.value.visualizerStyle.GetOr(0) !in {0, 1, 2})
  {
  }

  /**
   * The fallbacks of `from_dict` differ from the dataclass defaults: a stereo
   * section without "enabled" gives a disabled stereo stage (the dataclass
   * default is enabled), and a noise-reduction section without "model" gives
   * the low-latency model (the dataclass default is full quality).
   */
  lemma FromDictDefaultAsymmetry(d: SettingsDict)
    requires FromDict(d).Ok?
    ensures d.stereo.Some? && d.stereo.value.enabled.None? ==> !FromDict(d).value.stereo.enabled
    ensures d.stereo.None? ==> FromDict(d).value.stereo.enabled == DefaultSettings.stereo.enabled == true
    ensures d.noiseReduction.Some? && d.noiseReduction.value.model.None? ==>
      FromDict(d).value.noiseReduction.model == GtcrnLowLatency
    ensures d.noiseReduction.None? ==>
      FromDict(d).value.noiseReduction.model == DefaultSettings.noiseReduction.model == GtcrnFullQuality
  {
  }

  /** The equalizer bands are taken as stored: no length or range check. */
  lemma FromDictKeepsBands(d: SettingsDict, bands: seq<real>)
    requires FromDict(d).Ok?
    requires d.equalizer.Some? && d.equalizer.value.bands == Some(bands)
    ensures FromDict(d).value.equalizer.bands == bands
  {
  }

  // ---------------------------------------------------------------------------
  // AI plugin lookup
  // ---------------------------------------------------------------------------

  /** `PLUGIN_MODELS`, in dictionary order. */
  const PluginModels: seq<(AIPlugin, seq<NoiseModel>)> := [(Gtcrn, [GtcrnLowLatency, GtcrnFullQuality])]

  /** The first plugin of `table` whose model list holds `m`. */
  function PluginFor(table: seq<(AIPlugin, seq<NoiseModel>)>, m: NoiseModel): (r: Option<nat>)
    ensures r.Some? ==> r.value < |table| && m in table[r.value].1 &&
                        forall j :: 0 <= j < r.value ==> m !in table[j].1
    ensures r.None? ==> forall j :: 0 <= j < |table| ==> m !in table[j].1
  {
    if |table| == 0 then None
    else if m in table[0].1 then Some(0)
    else match PluginFor(table[1..], m)
      case None => None
      case Some(k) => Some(k + 1)
  }

  /** `get_plugin_for_model` */
  function GetPluginForModel(m: NoiseModel): (r: Option<AIPlugin>)
    ensures r.Some? <==> exists j :: 0 <= j < |PluginModels| && m in PluginModels[j].1
    ensures r.Some? ==> exists j :: 0 <= j < |PluginModels| && PluginModels[j].0 == r.value && m in PluginModels[j].1
  {
    match PluginFor(PluginModels, m)
    case None => None
    case Some(j) => Some(PluginModels[j].0)
  }

  /** `list.index`: the first position of `x` in `s`, or `|s|` when absent (the ValueError). */
  function IndexOf<T(==)>(s: seq<T>, x: T): (r: nat)
    ensures r <= |s|
    ensures r < |s| ==> s[r] == x
    ensures forall j :: 0 <= j < r ==> s[j] != x
  {
    if |s| == 0 then 0
    else if s[0] == x then 0
    else 1 + IndexOf(s[1..], x)
  }

  /** `get_model_control_value`: the model's position in its plugin's list, 0 when not found. */
  function GetModelControlValue(m: NoiseModel): (r: nat)
  {
    match PluginFor(PluginModels, m)
    case None => 0
    case Some(j) =>
      var models := PluginModels[j].1;
      var k := IndexOf(models, m);
      if k < |models| then k else 0
  }

  /** The control value is the model's index in the GTCRN list: low latency 0, full quality 1. */
  lemma ModelControlValueIsIndex(m: NoiseModel)
    ensures GetModelControlValue(m) < |PluginModels[0].1|
    ensures PluginModels[0].1[GetModelControlValue(m)] == m
    ensures GetModelControlValue(m) == NoiseModelValue(m)
  {
  }

  // ---------------------------------------------------------------------------
  // Equalizer presets
  // ---------------------------------------------------------------------------

  datatype EqPreset = EqPreset(name: string, description: string, bands: seq<real>)

  /** `EQ_PRESETS`, in dictionary order. */
  const EqPresets: seq<(string, EqPreset)> := [
    ("flat", EqPreset("Natural (No Effects)", "Original sound without changes.", FlatBands())),
    ("voice_boost", EqPreset("Crystal Voice", "Focuses on clarity and intelligibility.",
      [-10.0, -5.0, 0.0, 5.0, 15.0, 20.0, 15.0, 10.0, 5.0, 0.0])),
    ("podcast", EqPreset("Radio Host", "Full and deep voice (Broadcast).",
      [5.0, 5.0, 10.0, 5.0, 0.0, 5.0, 10.0, 5.0, 0.0, -5.0])),
    ("warm", EqPreset("Velvet Voice", "Warm and pleasant tone.",
      [10.0, 15.0, 10.0, 5.0, 0.0, -5.0, -10.0, -15.0, -15.0, -20.0])),
    ("bright", EqPreset("Extra Brightness", "Enhance treble and details.",
      [-10.0, -5.0, 0.0, 5.0, 10.0, 15.0, 20.0, 25.0, 20.0, 15.0])),
    ("de_esser", EqPreset("Soften 'S' (De-esser)", "Reduces sibilance and annoying high-pitched sounds.",
      [0.0, 0.0, 0.0, 0.0, 0.0, -5.0, -15.0, -25.0, -20.0, -10.0])),
    ("bass_cut", EqPreset("Remove Rumble", "Eliminates low-frequency noise (trucks, bumps).",
      [-40.0, -35.0, -25.0, -15.0, -5.0, 0.0, 0.0, 0.0, 0.0, 0.0])),
    ("presence", EqPreset("Present Voice", "Brings the voice to the 'front' of the mix.",
      [-5.0, 0.0, 5.0, 10.0, 15.0, 20.0, 15.0, 10.0, 5.0, 0.0])),
    ("custom", EqPreset("Custom", "Manual adjustment.", FlatBands()))
  ]

  predicate WellFormedBands(bands: seq<real>)
  {
    |bands| == EQ_BAND_COUNT && forall i :: 0 <= i < |bands| ==> EQ_BAND_MIN <= bands[i] <= EQ_BAND_MAX
  }

  /** Every preset has exactly ten bands, each within the equalizer limits, and the keys are distinct. */
  lemma PresetsWellFormed()
    ensures forall i :: 0 <= i < |EqPresets| ==> WellFormedBands(EqPresets[i].1.bands)
    ensures forall i, j :: 0 <= i < j < |EqPresets| ==> EqPresets[i].0 != EqPresets[j].0
  {
  }

  // ---------------------------------------------------------------------------
  // Loading the settings file
  // ---------------------------------------------------------------------------

  /** What `settings.json` holds: nothing, text that is not readable JSON, or a parsed dictionary. */
  datatype SettingsFile = NoSettingsFile | Unreadable | Parsed(dict: SettingsDict)

  /**
   * `load_settings`: the defaults when the file is missing or unreadable,
   * otherwise `from_dict`, whose ValueError is not caught here.
   */
  function LoadSettings(f: SettingsFile): Result<AppSettings>
  {
    match f
    case NoSettingsFile => Ok(DefaultSettings)
    case Unreadable => Ok(DefaultSettings)
    case Parsed(d) => FromDict(d)
  }

  /**
   * Loading a file that holds what `to_dict` wrote gives the saved settings
   * back; loading never fails on a missing or unreadable file.
   */
  lemma LoadSavedSettings(s: AppSettings, f: SettingsFile)
    ensures LoadSettings(Parsed(ToDict(s))) == Ok(s)
    ensures LoadSettings(f).Err? ==> f.Parsed?
  {
    FromDictToDict(s);
  }
}

=== FILE: config_persistence.dfy ===
/**
 * Persistence of the filter-chain configuration for autostart: the in-memory
 * `FilterChainState` record, its conversion to a `FilterChainConfig`, and the
 * `ConfigPersistence` object that writes or removes the configuration file.
 * The file system is the map `files` from path to contents.
 */
module ConfigPersistence {
  import opened Wrappers
  import opened Config
  import FC = FilterChain

  /**
   * `FilterChainState`. `eqBands` is None exactly when the caller passed
   * `eq_bands=None`; the constructor (`__post_init__`) replaces that by ten zeros.
   */
  datatype FilterChainState = FilterChainState(
    noiseReductionEnabled: bool,
    noiseReductionModel: NoiseModel,
    noiseReductionStrength: real,
    gateEnabled: bool,
    gateThresholdDb: int,
    gateRangeDb: int,
    stereoMode: StereoMode,
    stereoWidth: real,
    crossfeedEnabled: bool,
    eqEnabled: bool,
    eqBands: Option<seq<real>>)

  /** `__post_init__`: a missing band list becomes ten zeros; anything given is kept. */
  function PostInit(s: FilterChainState): (r: FilterChainState)
    ensures r.eqBands.Some?
    ensures s.eqBands.None? ==> |r.eqBands.value| == EQ_BAND_COUNT &&
                                forall i :: 0 <= i < EQ_BAND_COUNT ==> r.eqBands.value[i] == 0.0
    ensures s.eqBands.Some? ==> r == s
    ensures r.(eqBands := s.eqBands) == s
  {
    if s.eqBands.None? then s.(eqBands := Some(FlatBands())) else s
  }

  /** `FilterChainState()`: the dataclass defaults, after `__post_init__`. */
  function DefaultState(): FilterChainState
  {
    PostInit(FilterChainState(true, GtcrnLowLatency, 1.0, true, -36, -6, Mono, 0.7, false, false, None))
  }

  /**
   * `to_filter_config`: every carried field is copied; the band list is kept
   * unless it is None or empty, which gives ten zeros; the fields the state
   * does not carry (gate timings, crossfeed level, transient) keep the
   * `FilterChainConfig` defaults.
   */
  function ToFilterConfig(s: FilterChainState): (c: FC.FilterChainConfig)
    ensures c.noiseReductionEnabled == s.noiseReductionEnabled && c.noiseReductionModel == s.noiseReductionModel
    ensures c.noiseReductionStrength == s.noiseReductionStrength
    ensures c.gateEnabled == s.gateEnabled && c.gateThresholdDb == s.gateThresholdDb && c.gateRangeDb == s.gateRangeDb
    ensures c.stereoMode == FC.Mode(s.stereoMode) && c.stereoWidth == s.stereoWidth
    ensures c.crossfeedEnabled == s.crossfeedEnabled && c.eqEnabled == s.eqEnabled
    ensures s.eqBands.Some? && s.eqBands.value != [] ==> c.eqBands == s.eqBands.value
    ensures s.eqBands.None? || s.eqBands.value == [] ==> c.eqBands == FlatBands()
    ensures c.gateAttackMs == FC.DefaultFilterChainConfig.gateAttackMs
    ensures c.gateHoldMs == FC.DefaultFilterChainConfig.gateHoldMs
    ensures c.gateReleaseMs == FC.DefaultFilterChainConfig.gateReleaseMs
    ensures c.crossfeedLevel == FC.DefaultFilterChainConfig.crossfeedLevel
    ensures c.transientEnabled == FC.DefaultFilterChainConfig.transientEnabled
    ensures c.transientAttack == FC.DefaultFilterChainConfig.transientAttack
  {
    FC.DefaultFilterChainConfig.(
      noiseReductionEnabled := s.noiseReductionEnabled,
      noiseReductionModel := s.noiseReductionModel,
      noiseReductionStrength := s.noiseReductionStrength,
      gateEnabled := s.gateEnabled,
      gateThresholdDb := s.gateThresholdDb,
      gateRangeDb := s.gateRangeDb,
      stereoMode := FC.Mode(s.stereoMode),
      stereoWidth := s.stereoWidth,
      crossfeedEnabled := s.crossfeedEnabled,
      eqEnabled := s.eqEnabled,
      eqBands := if s.eqBands.Some? && s.eqBands.value != [] then s.eqBands.value else FlatBands())
  }

  /** A state built without bands compiles with ten flat bands, like one built with them. */
  lemma DefaultBandsAreFlat(s: FilterChainState)
    requires s.eqBands.None?
    ensures ToFilterConfig(PostInit(s)).eqBands == ToFilterConfig(s).eqBands
    ensures |ToFilterConfig(PostInit(s)).eqBands| == EQ_BAND_COUNT
    ensures ToFilterConfig(PostInit(s)) == ToFilterConfig(s)
  {
    var a := ToFilterConfig(PostInit(s));
    var b := ToFilterConfig(s);
    assert a.eqBands == FlatBands() == b.eqBands;
  }

  /** The state `save_from_service_state` builds: noise reduction always on, the bands copied. */
  function ServiceState(model: NoiseModel, strength: real, gateEnabled: bool, thresholdDb: int, rangeDb: int,
                        mode: StereoMode, width: real, crossfeedEnabled: bool, eqEnabled: bool,
                        bands: seq<real>): (s: FilterChainState)
    ensures s.noiseReductionEnabled && s.eqBands == Some(bands)
    ensures s.noiseReductionModel == model && s.stereoMode == mode && s.gateThresholdDb == thresholdDb
  {
    PostInit(FilterChainState(true, model, strength, gateEnabled, thresholdDb, rangeDb, mode, width,
                              crossfeedEnabled, eqEnabled, Some(bands)))
  }

  /**
   * Whatever the service state, the saved configuration runs the noise
   * reduction stage first: it is never the pass-through graph.
   */
  lemma SavedStateRunsNoiseReduction(model: NoiseModel, strength: real, gateEnabled: bool, thresholdDb: int,
                                     rangeDb: int, mode: StereoMode, width: real, crossfeedEnabled: bool,
                                     eqEnabled: bool, bands: seq<real>, pow4: real -> real)
    ensures var c := ToFilterConfig(ServiceState(model, strength, gateEnabled, thresholdDb, rangeDb, mode, width,
                                                 crossfeedEnabled, eqEnabled, bands));
            FC.ActiveStages(c) != [] && FC.ActiveStages(c)[0] == FC.Ai &&
            FC.Compile(c, pow4) != FC.PassthroughGraph
  {
    var c := ToFilterConfig(ServiceState(model, strength, gateEnabled, thresholdDb, rangeDb, mode, width,
                                         crossfeedEnabled, eqEnabled, bands));
    FC.PassthroughWhenNoStages(c, pow4);
  }

  /** `ConfigPersistence`: the configuration directory and file, over the file system `files`. */
  class ConfigPersistence {
    const configDir: string
    const configFile: string
    var files: FC.Files

    /** `__init__`: the given directory, else `CONFIG_DIR` under `home`. */
    constructor (dir: Option<string>, home: string, existing: FC.Files)
      ensures configDir == dir.GetOr(FC.ConfigDir(home))
      ensures configFile == configDir + "/" + FC.CONFIG_FILE
      ensures files == existing
    {
      configDir := dir.GetOr(FC.ConfigDir(home));
      configFile := dir.GetOr(FC.ConfigDir(home)) + "/" + FC.CONFIG_FILE;
      files := existing;
    }

    /** `config_path` */
    function ConfigPath(): (p: string)
      ensures p == configFile
    {
      configFile
    }

    /** `config_exists` */
    predicate ConfigExists()
      reads this
    {
      configFile in files
    }

    /**
     * `save`: the configuration file holds the rendered graph of the state; no
     * other file changes. A failed write (`writeOk` false) raises, modelled as
     * an error with the files left as they were.
     */
    method Save(state: FilterChainState, writeOk: bool, pow4: real -> real, fmt: (FC.NumberFormat, real) -> string)
      returns (path: Result<string>)
      modifies this`files
      ensures path.Ok? <==> writeOk
      ensures !writeOk ==> files == old(files)
      ensures writeOk ==> path.value == configFile && ConfigExists()
      ensures writeOk ==> files == FC.Save(old(files), ToFilterConfig(state), pow4, fmt, Some(configFile), "").0
      ensures writeOk ==> files[configFile] == FC.Render(FC.Compile(ToFilterConfig(state), pow4), fmt)
      ensures forall q :: q != configFile ==> (q in files <==> q in old(files))
    {
      if !writeOk {
        return Err("OSError");
      }
      var c := ToFilterConfig(state);
      var g := FC.Generate(c, pow4);
      files := files[configFile := FC.Render(g, fmt)];
      path := Ok(configFile);
    }

    /** `save_from_service_state` */
    method SaveFromServiceState(model: NoiseModel, strength: real, gateEnabled: bool, thresholdDb: int,
                                rangeDb: int, mode: StereoMode, width: real, crossfeedEnabled: bool,
                                eqEnabled: bool, bands: seq<real>, writeOk: bool,
                                pow4: real -> real, fmt: (FC.NumberFormat, real) -> string)
      returns (path: Result<string>)
      modifies this`files
      ensures path.Ok? <==> writeOk
      ensures !writeOk ==> files == old(files)
      ensures writeOk ==> path.value == configFile && ConfigExists()
      ensures writeOk ==> files == old(files)[configFile := FC.Render(FC.Compile(ToFilterConfig(
                ServiceState(model, strength, gateEnabled, thresholdDb, rangeDb, mode, width,
                             crossfeedEnabled, eqEnabled, bands)), pow4), fmt)]
    {
      var state := ServiceState(model, strength, gateEnabled, thresholdDb, rangeDb, mode, width,
                                crossfeedEnabled, eqEnabled, bands);
      path := Save(state, writeOk, pow4, fmt);
    }

    /**
     * `delete`: True exactly when the file existed; afterwards it does not
     * exist. `removeOk` says whether unlinking succeeds; the OSError of a
     * failed unlink escapes, and the file stays.
     */
    method Delete(removeOk: bool) returns (existed: Result<bool>)
      modifies this`files
      ensures existed.Err? <==> old(ConfigExists()) && !removeOk
      ensures existed.Err? ==> files == old(files)
      ensures existed.Ok? ==> existed.value == old(ConfigExists()) && !ConfigExists()
      ensures existed.Ok? ==> files == old(files) - {configFile}
    {
      if configFile in files {
        if !removeOk {
          return Err("OSError");
        }
        files := files - {configFile};
        return Ok(true);
      }
      existed := Ok(false);
    }
  }

  /**
   * Deleting right after a save reports that the file existed (always after a
   * successful write), and leaves the other files as they were. When the
   * unlink fails, the error is reported only if there was a file to unlink.
   */
  method SaveThenDelete(p: ConfigPersistence, state: FilterChainState, writeOk: bool, removeOk: bool,
                        pow4: real -> real, fmt: (FC.NumberFormat, real) -> string) returns (existed: Result<bool>)
    modifies p`files
    ensures existed.Err? <==> (writeOk || old(p.ConfigExists())) && !removeOk
    ensures existed.Ok? ==> existed.value == (writeOk || old(p.ConfigExists())) && !p.ConfigExists()
    ensures existed.Ok? ==> p.files == old(p.files) - {p.configFile}
    ensures existed.Err? ==> p.ConfigExists() && forall q :: q != p.configFile ==> (q in p.files <==> q in old(p.files))
  {
    var _ := p.Save(state, writeOk, pow4, fmt);
    existed := p.Delete(removeOk);
  }
}

=== FILE: filter_chain.dfy ===
/**
 * The PipeWire filter-chain generator: from a `FilterChainConfig` to the
 * filter graph (nodes, links, inputs, outputs, channel layout) written to
 * `source-gtcrn-smart.conf`.
 *
 * `Compile` is the specification of `FilterChainGenerator.generate` on
 * values; the methods `Generate`, `GenerateMonoConfig`, ... follow the
 * source's list-building code step by step and are proved equal to it.
 * `RenderLines` turns a graph into the lines of the configuration text.
 */
module FilterChain {
  import opened Wrappers
  import opened Strings
  import opened Config
  import Validators

  // ---------------------------------------------------------------------------
  // LADSPA plugins, names and tables
  // ---------------------------------------------------------------------------

  const GTCRN_LIBRARY := "/usr/lib/ladspa/libgtcrn_ladspa.so"
  const GTCRN_LABEL := "gtcrn_mono"
  const GATE_LIBRARY := "/usr/lib/ladspa/gate_1410.so"
  const GATE_LABEL := "gate"
  const AMP_LIBRARY := "/usr/lib/ladspa/amp_1181.so"
  const AMP_LABEL := "amp"
  const SC4_LIBRARY := "/usr/lib/ladspa/sc4m_1916.so"
  const SC4_LABEL := "sc4m"
  const TRANSIENT_LIBRARY := "/usr/lib/ladspa/transient_1206.so"
  const TRANSIENT_LABEL := "transient"
  const PITCH_SCALE_LIBRARY := "/usr/lib/ladspa/pitch_scale_1193.so"
  const PITCH_SCALE_LABEL := "pitchScale"
  const MBEQ_LIBRARY := "/usr/lib/ladspa/mbeq_1197.so"
  const MBEQ_LABEL := "mbeq"

  const DEVICE_NAME := "Noise Canceling Microphone"
  const FILTER_SMART_NAME := "big.filter-microphone"
  const CONFIG_FILE := "source-gtcrn-smart.conf"

  /** `CONFIG_DIR` below the user's home directory `home`. */
  function ConfigDir(home: string): string
  {
    home + "/.config/pipewire/filter-chain.conf.d"
  }

  /** The centre frequencies (Hz) of the 15 bands of the mbeq plugin. */
  const MbeqBands: seq<nat> := [50, 100, 156, 220, 311, 440, 622, 880, 1250, 1750, 2500, 3500, 5000, 10000, 20000]

  /** `EQ_BAND_TO_MBEQ_INDEX`: the mbeq band each of the 10 UI bands drives. */
  const EqBandToMbeqIndex: seq<nat> := [0, 1, 2, 4, 6, 8, 10, 12, 13, 14]

  /** `MBEQ_PARAM_NAMES`: the LADSPA port names of the 15 mbeq gains. */
  const MbeqParamNames: seq<string> := [
    "50Hz gain (low shelving)", "100Hz gain", "156Hz gain", "220Hz gain", "311Hz gain",
    "440Hz gain", "622Hz gain", "880Hz gain", "1250Hz gain", "1750Hz gain",
    "2500Hz gain", "3500Hz gain", "5000Hz gain", "10000Hz gain", "20000Hz gain"]

  // ---------------------------------------------------------------------------
  // Configuration
  // ---------------------------------------------------------------------------

  /**
   * The value held in `stereo_mode`: normally a `StereoMode`, but a caller
   * may store a plain string, which never equals any member.
   */
  datatype ModeSetting = Mode(mode: StereoMode) | Raw(text: string)

  datatype FilterChainConfig = FilterChainConfig(
    noiseReductionEnabled: bool,
    noiseReductionModel: NoiseModel,
    noiseReductionStrength: real,
    gateEnabled: bool,
    gateThresholdDb: int,
    gateRangeDb: int,
    gateAttackMs: real,
    gateHoldMs: real,
    gateReleaseMs: real,
    stereoMode: ModeSetting,
    stereoWidth: real,
    crossfeedEnabled: bool,
    crossfeedLevel: real,
    eqEnabled: bool,
    eqBands: seq<real>,
    transientEnabled: bool,
    transientAttack: real)

  /** `FilterChainConfig()` */
  const DefaultFilterChainConfig := FilterChainConfig(
    true, GtcrnFullQuality, 1.0,
    true, -40, -60, 10.0, 300.0, 150.0,
    Mode(Mono), 0.7, false, 0.3,
    false, FlatBands(),
    false, -0.5)

  // ---------------------------------------------------------------------------
  // The filter graph
  // ---------------------------------------------------------------------------

  /** How a control value is printed: `str(int)`, `str(float)` or `:.Nf`. */
  datatype NumberFormat = IntText | FloatText | Fixed(digits: nat)

  datatype Control = Control(port: string, value: real, format: NumberFormat)

  datatype NodeType = Ladspa | Builtin

  /** A builtin node has no plugin path and the label `copy`. */
  datatype Node = Node(nodeType: NodeType, name: string, plugin: string, pluginLabel: string, controls: seq<Control>)

  /** `{ output = "<node>:<port>" input = "<node>:<port>" }` */
  datatype Link = Link(output: string, input: string)

  /**
   * `channels` is `audio.channels` when present; a position list is the
   * `audio.position` of the capture or playback properties, empty when absent.
   */
  datatype Graph = Graph(
    title: string,
    nodes: seq<Node>,
    links: seq<Link>,
    inputs: seq<string>,
    outputs: seq<string>,
    channels: Option<nat>,
    capturePosition: seq<string>,
    playbackPosition: seq<string>)

  function CopyNode(name: string): Node
  {
    Node(Builtin, name, "", "copy", [])
  }

  // ---------------------------------------------------------------------------
  // Processing stages
  // ---------------------------------------------------------------------------

  datatype Stage = Ai | Gate | Eq

  function StageName(s: Stage): string
  {
    match s
    case Ai => "ai"
    case Gate => "gate"
    case Eq => "eq"
  }

  /** The position of a stage in the fixed processing order ai, gate, eq. */
  function StageRank(s: Stage): nat
  {
    match s
    case Ai => 0
    case Gate => 1
    case Eq => 2
  }

  predicate StageEnabled(c: FilterChainConfig, s: Stage)
  {
    match s
    case Ai => c.noiseReductionEnabled
    case Gate => c.gateEnabled
    case Eq => c.eqEnabled
  }

  /** The enabled stages, each once, in the order ai, gate, eq. */
  function ActiveStages(c: FilterChainConfig): (r: seq<Stage>)
    ensures forall s :: s in r <==> StageEnabled(c, s)
    ensures forall i, j :: 0 <= i < j < |r| ==> StageRank(r[i]) < StageRank(r[j])
    ensures |r| <= 3
  {
    (if c.noiseReductionEnabled then [Ai] else []) +
    (if c.gateEnabled then [Gate] else []) +
    (if c.eqEnabled then [Eq] else [])
  }

  function StageNames(stages: seq<Stage>): (r: seq<string>)
    ensures |r| == |stages|
  {
    seq(|stages|, i requires 0 <= i < |stages| => StageName(stages[i]))
  }

  /** `_generate_ai_node` */
  function AiNode(c: FilterChainConfig): Node
  {
    Node(Ladspa, "ai", GTCRN_LIBRARY, GTCRN_LABEL, [
      Control("Enable", 1.0, FloatText),
      Control("Strength", c.noiseReductionStrength, FloatText),
      Control("Model", GetModelControlValue(c.noiseReductionModel) as real, IntText)])
  }

  /** `_generate_gate_node`: the release time drives the plugin's "Decay" port. */
  function GateNode(c: FilterChainConfig): Node
  {
    Node(Ladspa, "gate", GATE_LIBRARY, GATE_LABEL, [
      Control("Threshold (dB)", c.gateThresholdDb as real, IntText),
      Control("Attack (ms)", c.gateAttackMs, FloatText),
      Control("Hold (ms)", c.gateHoldMs, FloatText),
      Control("Decay (ms)", c.gateReleaseMs, FloatText),
      Control("Range (dB)", c.gateRangeDb as real, IntText),
      Control("LF key filter (Hz)", 20.0, FloatText),
      Control("HF key filter (Hz)", 20000.0, FloatText),
      Control("Output select (-1 = key listen, 0 = gate, 1 = bypass)", 0.0, IntText)])
  }

  /** `_generate_transient_node`; `generate` never calls it. */
  function TransientNode(c: FilterChainConfig): Node
  {
    Node(Ladspa, "transient", TRANSIENT_LIBRARY, TRANSIENT_LABEL, [
      Control("Attack speed", c.transientAttack, FloatText),
      Control("Sustain time", 0.0, FloatText)])
  }

  // ---------------------------------------------------------------------------
  // The 10-band to 15-band equalizer remap
  // ---------------------------------------------------------------------------

  /**
   * The gain of mbeq band `k`: UI band `j` when the table sends `j` to `k`
   * and the settings hold a band `j`, otherwise 0.
   */
  function MbeqValueAt(bands: seq<real>, k: nat): real
  {
    var j := IndexOf(EqBandToMbeqIndex, k);
    if j < |EqBandToMbeqIndex| && j < |bands| then bands[j] else 0.0
  }

  /** The 15 mbeq gains written by `_generate_eq_node`. */
  function MbeqValues(bands: seq<real>): (r: seq<real>)
    ensures |r| == |MbeqBands|
  {
    seq(|MbeqBands|, k requires 0 <= k < |MbeqBands| => MbeqValueAt(bands, k))
  }

  function EqNodeFromValues(values: seq<real>): Node
    requires |values| == |MbeqParamNames|
  {
    Node(Ladspa, "eq", MBEQ_LIBRARY, MBEQ_LABEL,
         seq(|MbeqParamNames|, k requires 0 <= k < |MbeqParamNames| => Control(MbeqParamNames[k], values[k], FloatText)))
  }

  /** `_generate_eq_node` */
  function EqNode(c: FilterChainConfig): Node
  {
    EqNodeFromValues(MbeqValues(c.eqBands))
  }

  /** The index table is strictly increasing inside [0, 15), so no two UI bands share an mbeq band. */
  lemma EqIndexTableIncreasing()
    ensures |EqBandToMbeqIndex| == EQ_BAND_COUNT
    ensures forall i :: 0 <= i < |EqBandToMbeqIndex| ==> EqBandToMbeqIndex[i] < |MbeqBands|
    ensures forall i, j :: 0 <= i < j < |EqBandToMbeqIndex| ==> EqBandToMbeqIndex[i] < EqBandToMbeqIndex[j]
  {
  }

  lemma {:induction false} IndexOfIncreasing(s: seq<nat>, i: nat)
    requires i < |s|
    requires forall a, b :: 0 <= a < b < |s| ==> s[a] < s[b]
    ensures IndexOf(s, s[i]) == i
  {
    if i > 0 {
      assert s[0] != s[i];
      assert s[1..][i - 1] == s[i];
      IndexOfIncreasing(s[1..], i - 1);
    }
  }

  /** UI band `i` (of the first ten) lands at mbeq index `EQ_BAND_TO_MBEQ_INDEX[i]`. */
  lemma MbeqValuesPlaceBand(bands: seq<real>, i: nat)
    requires i < |bands| && i < |EqBandToMbeqIndex|
    ensures MbeqValues(bands)[EqBandToMbeqIndex[i]] == bands[i]
  {
    EqIndexTableIncreasing();
    IndexOfIncreasing(EqBandToMbeqIndex, i);
  }

  /** An mbeq band that no UI band drives keeps its initial 0. */
  lemma MbeqValuesUnmapped(bands: seq<real>, k: nat)
    requires k < |MbeqBands| && k !in EqBandToMbeqIndex
    ensures MbeqValues(bands)[k] == 0.0
  {
    assert MbeqValues(bands)[k] == MbeqValueAt(bands, k);
  }

  /** The mbeq bands no UI band drives are exactly 3, 5, 7, 9 and 11 (220, 440, 880, 1750 and 3500 Hz). */
  lemma UnmappedMbeqBands()
    ensures forall k: nat :: k < |MbeqBands| ==> (k !in EqBandToMbeqIndex <==> k in [3, 5, 7, 9, 11])
    ensures [MbeqBands[3], MbeqBands[5], MbeqBands[7], MbeqBands[9], MbeqBands[11]] == [220, 440, 880, 1750, 3500]
  {
  }

  /** The mbeq band of a UI band the settings do not hold stays at 0. */
  lemma MbeqValuesMissingBandZero(bands: seq<real>, i: nat)
    requires |bands| <= i < |EqBandToMbeqIndex|
    ensures MbeqValues(bands)[EqBandToMbeqIndex[i]] == 0.0
  {
    EqIndexTableIncreasing();
    IndexOfIncreasing(EqBandToMbeqIndex, i);
  }

  /** Bands after the tenth are ignored. */
  lemma MbeqValuesIgnoreExtraBands(bands: seq<real>)
    requires |bands| > |EqBandToMbeqIndex|
    ensures MbeqValues(bands) == MbeqValues(bands[..|EqBandToMbeqIndex|])
  {
    assert forall k :: 0 <= k < |MbeqBands| ==>
      MbeqValueAt(bands, k) == MbeqValueAt(bands[..|EqBandToMbeqIndex|], k);
  }

  /** Taking one more UI band changes only the mbeq band that band drives. */
  lemma MbeqValueAtStep(bands: seq<real>, i: nat, k: nat)
    requires i < |bands|
    ensures MbeqValueAt(bands[..i + 1], k) ==
            if i < |EqBandToMbeqIndex| && k == EqBandToMbeqIndex[i] then bands[i] else MbeqValueAt(bands[..i], k)
  {
    var j := IndexOf(EqBandToMbeqIndex, k);
    if i < |EqBandToMbeqIndex| && k == EqBandToMbeqIndex[i] {
      EqIndexTableIncreasing();
      IndexOfIncreasing(EqBandToMbeqIndex, i);
    } else if j < |EqBandToMbeqIndex| && j < i + 1 {
      assert j != i;
      assert bands[..i + 1][j] == bands[..i][j];
    }
  }

  /** `_generate_eq_node`: fills a 15-slot list with zeros, then writes each of the first ten UI bands. */
  method GenerateEqNode(c: FilterChainConfig) returns (node: Node)
    ensures node == EqNode(c)
  {
    var mbeq := new real[|MbeqBands|](_ => 0.0);
    EqIndexTableIncreasing();
    var i := 0;
    while i < |c.eqBands|
      invariant 0 <= i <= |c.eqBands|
      invariant forall k :: 0 <= k < mbeq.Length ==> mbeq[k] == MbeqValueAt(c.eqBands[..i], k)
    {
      if i < |EqBandToMbeqIndex| {
        mbeq[EqBandToMbeqIndex[i]] := c.eqBands[i];
      }
      forall k | 0 <= k < mbeq.Length
        ensures mbeq[k] == MbeqValueAt(c.eqBands[..i + 1], k)
      {
        MbeqValueAtStep(c.eqBands, i, k);
      }
      i := i + 1;
    }
    assert c.eqBands[..i] == c.eqBands;
    assert mbeq[..] == MbeqValues(c.eqBands);
    node := EqNodeFromValues(mbeq[..]);
  }

  // ---------------------------------------------------------------------------
  // The four topologies
  // ---------------------------------------------------------------------------

  function StageNode(c: FilterChainConfig, s: Stage): Node
  {
    match s
    case Ai => AiNode(c)
    case Gate => GateNode(c)
    case Eq => EqNode(c)
  }

  function StageNodes(c: FilterChainConfig, stages: seq<Stage>): (r: seq<Node>)
    ensures |r| == |stages|
  {
    seq(|stages|, i requires 0 <= i < |stages| => StageNode(c, stages[i]))
  }

  /** The links joining consecutive stages: `stage[i]:Output` to `stage[i+1]:Input`. */
  function ChainLinks(names: seq<string>): (r: seq<Link>)
  {
    if |names| == 0 then []
    else seq(|names| - 1, i requires 0 <= i < |names| - 1 => Link(names[i] + ":Output", names[i + 1] + ":Input"))
  }

  /** `_generate_passthrough_config`: one builtin copy node and nothing else. */
  const PassthroughGraph := Graph(
    "Passthrough (no filters)",
    [CopyNode("passthrough")],
    [],
    ["passthrough:In"],
    ["passthrough:Out"],
    Some(1),
    [],
    [])

  const TeeNodes := [CopyNode("copy_tee"), CopyNode("copy_left"), CopyNode("copy_right")]
  const TeeLinks := [Link("copy_tee:Out", "copy_left:In"), Link("copy_tee:Out", "copy_right:In")]
  const StereoOutputs := ["copy_left:Out", "copy_right:Out"]

  /** The mono graph around the stage chain. */
  function MonoGraph(nodes: seq<Node>, links: seq<Link>, first: string, last: string): Graph
  {
    Graph("Mono output", nodes, links, [first + ":Input"], [last + ":Output"], Some(1), [], ["MONO"])
  }

  /** `_generate_dual_mono_stereo`: the last stage feeds a tee that copies to both channels. */
  function DualMonoGraph(nodes: seq<Node>, links: seq<Link>, first: string, last: string): Graph
  {
    Graph("Stereo output with Dual Mono",
          nodes + TeeNodes,
          links + [Link(last + ":Output", "copy_tee:In")] + TeeLinks,
          [first + ":Input"], StereoOutputs, None, ["MONO"], ["FL", "FR"])
  }

  /** The SC4 compressor settings of the radio voice. */
  datatype RadioParams = RadioParams(ratio: real, threshold: real, attack: real, release: real, makeupGain: real, knee: real)

  /** The compressor settings for stereo width `w`: stronger compression as `w` grows. */
  function RadioCompressorParams(w: real): RadioParams
  {
    RadioParams(4.0 + w * 6.0, -15.0 - w * 10.0, 10.0, 100.0 + w * 100.0, 2.0 + w * 4.0, 3.0)
  }

  function CompressorNode(p: RadioParams): Node
  {
    Node(Ladspa, "compressor", SC4_LIBRARY, SC4_LABEL, [
      Control("RMS/peak", 0.5, FloatText),
      Control("Attack time (ms)", p.attack, Fixed(1)),
      Control("Release time (ms)", p.release, Fixed(1)),
      Control("Threshold level (dB)", p.threshold, Fixed(1)),
      Control("Ratio (1:n)", p.ratio, Fixed(1)),
      Control("Knee radius (dB)", p.knee, Fixed(1)),
      Control("Makeup gain (dB)", p.makeupGain, Fixed(1))])
  }

  /** `_generate_radio_mode`: last stage, then the compressor, then the tee. */
  function RadioGraph(width: real, nodes: seq<Node>, links: seq<Link>, first: string, last: string): Graph
  {
    Graph("Radio Voice Mode",
          nodes + [CompressorNode(RadioCompressorParams(width))] + TeeNodes,
          links + [Link(last + ":Output", "compressor:Input"), Link("compressor:Output", "copy_tee:In")] + TeeLinks,
          [first + ":Input"], StereoOutputs, None, ["MONO"], ["FL", "FR"])
  }

  /**
   * `4.0 ** w` is not computed by the model: `pow4` stands for it, and
   * `Pow4Known` states the three values the source's comments rely on.
   */
  predicate Pow4Known(pow4: real -> real)
  {
    pow4(0.0) == 1.0 && pow4(0.5) == 2.0 && pow4(1.0) == 4.0
  }

  /** `max(0.5, min(2.0, 0.5 * 4 ** w))` */
  function PitchCoefficient(w: real, pow4: real -> real): real
  {
    Validators.Clamp(0.5 * pow4(w), 0.5, 2.0)
  }

  /** 5 dB, plus up to 10 dB more as the pitch drops below 1. */
  function GainCompensation(pitch: real): real
  {
    if pitch < 1.0 then 5.0 + (1.0 - pitch) * 20.0 else 5.0
  }

  /** Whatever `4 ** w` is, the pitch lies in [0.5, 2] and the gain in [5, 15]. */
  lemma PitchAndGainBounds(w: real, pow4: real -> real)
    ensures 0.5 <= PitchCoefficient(w, pow4) <= 2.0
    ensures 5.0 <= GainCompensation(PitchCoefficient(w, pow4)) <= 15.0
    ensures PitchCoefficient(w, pow4) >= 1.0 ==> GainCompensation(PitchCoefficient(w, pow4)) == 5.0
  {
  }

  /** Width 0, 0.5 and 1 give pitch 0.5, 1 and 2 with gain 15, 5 and 5 dB. */
  lemma PitchKnownPoints(pow4: real -> real)
    requires Pow4Known(pow4)
    ensures PitchCoefficient(0.0, pow4) == 0.5 && GainCompensation(0.5) == 15.0
    ensures PitchCoefficient(0.5, pow4) == 1.0 && GainCompensation(1.0) == 5.0
    ensures PitchCoefficient(1.0, pow4) == 2.0 && GainCompensation(2.0) == 5.0
  {
  }

  /** `_generate_pitch_mode`: last stage, then pitch shift, then gain compensation, then the tee. */
  function PitchGraph(width: real, pow4: real -> real, nodes: seq<Node>, links: seq<Link>,
                      first: string, last: string): Graph
  {
    var pitch := PitchCoefficient(width, pow4);
    Graph("Voice Changer",
          nodes + [Node(Ladspa, "pitch", PITCH_SCALE_LIBRARY, PITCH_SCALE_LABEL,
                        [Control("Pitch co-efficient", pitch, Fixed(2))]),
                   Node(Ladspa, "pitch_gain", AMP_LIBRARY, AMP_LABEL,
                        [Control("Amps gain (dB)", GainCompensation(pitch), Fixed(2))])] + TeeNodes,
          links + [Link(last + ":Output", "pitch:Input"), Link("pitch:Output", "pitch_gain:Input"),
                   Link("pitch_gain:Output", "copy_tee:In")] + TeeLinks,
          [first + ":Input"], StereoOutputs, None, ["MONO"], ["FL", "FR"])
  }

  /** `_generate_mono_config` */
  function MonoConfig(c: FilterChainConfig): Graph
  {
    var stages := ActiveStages(c);
    if stages == [] then PassthroughGraph
    else
      var names := StageNames(stages);
      MonoGraph(StageNodes(c, stages), ChainLinks(names), names[0], names[|names| - 1])
  }

  /** `_generate_stereo_config`: radio and voice changer by name, every other mode value dual mono. */
  function StereoConfig(c: FilterChainConfig, pow4: real -> real): Graph
  {
    var stages := ActiveStages(c);
    if stages == [] then PassthroughGraph
    else
      var names := StageNames(stages);
      var nodes := StageNodes(c, stages);
      var links := ChainLinks(names);
      var first := names[0];
      var last := names[|names| - 1];
      if c.stereoMode == Mode(Radio) then RadioGraph(c.stereoWidth, nodes, links, first, last)
      else if c.stereoMode == Mode(VoiceChanger) then PitchGraph(c.stereoWidth, pow4, nodes, links, first, last)
      else DualMonoGraph(nodes, links, first, last)
  }

  /** `FilterChainGenerator.generate` on values. */
  function Compile(c: FilterChainConfig, pow4: real -> real): Graph
  {
    if c.stereoMode != Mode(Mono) then StereoConfig(c, pow4) else MonoConfig(c)
  }

  // ---------------------------------------------------------------------------
  // Properties of the compiled graph
  // ---------------------------------------------------------------------------

  /** With no stage enabled every stereo mode yields the single-copy pass-through graph. */
  lemma PassthroughWhenNoStages(c: FilterChainConfig, pow4: real -> real)
    ensures Compile(c, pow4) == PassthroughGraph <==>
      !c.noiseReductionEnabled && !c.gateEnabled && !c.eqEnabled
    ensures PassthroughGraph.nodes == [Node(Builtin, "passthrough", "", "copy", [])]
    ensures PassthroughGraph.links == [] && PassthroughGraph.channels == Some(1)
    ensures PassthroughGraph.inputs == ["passthrough:In"] && PassthroughGraph.outputs == ["passthrough:Out"]
  {
    if c.noiseReductionEnabled || c.gateEnabled || c.eqEnabled {
      var s := if c.noiseReductionEnabled then Ai else if c.gateEnabled then Gate else Eq;
      assert s in ActiveStages(c);
      assert Compile(c, pow4).title != PassthroughGraph.title;
    }
  }

  /** `g` begins with the stage chain: its nodes, its links, and the first stage as input. */
  predicate StartsWithChain(g: Graph, nodes: seq<Node>, links: seq<Link>, first: string)
  {
    |nodes| <= |g.nodes| && g.nodes[..|nodes|] == nodes &&
    |links| <= |g.links| && g.links[..|links|] == links &&
    g.inputs == [first + ":Input"]
  }

  lemma PrefixOfAppend<T>(a: seq<T>, b: seq<T>)
    ensures |a| <= |a + b| && (a + b)[..|a|] == a
  {
  }

  lemma TopologiesStartWithChain(width: real, pow4: real -> real, nodes: seq<Node>, links: seq<Link>,
                                 first: string, last: string)
    ensures StartsWithChain(MonoGraph(nodes, links, first, last), nodes, links, first)
    ensures StartsWithChain(DualMonoGraph(nodes, links, first, last), nodes, links, first)
    ensures StartsWithChain(RadioGraph(width, nodes, links, first, last), nodes, links, first)
    ensures StartsWithChain(PitchGraph(width, pow4, nodes, links, first, last), nodes, links, first)
  {
    PrefixOfAppend(nodes, TeeNodes);
    PrefixOfAppend(links, [Link(last + ":Output", "copy_tee:In")] + TeeLinks);
    assert links + [Link(last + ":Output", "copy_tee:In")] + TeeLinks ==
           links + ([Link(last + ":Output", "copy_tee:In")] + TeeLinks);
    var g := RadioGraph(width, nodes, links, first, last);
    assert g.nodes == nodes + ([CompressorNode(RadioCompressorParams(width))] + TeeNodes);
    PrefixOfAppend(nodes, [CompressorNode(RadioCompressorParams(width))] + TeeNodes);
    assert g.links == links + ([Link(last + ":Output", "compressor:Input"), Link("compressor:Output", "copy_tee:In")] + TeeLinks);
    PrefixOfAppend(links, [Link(last + ":Output", "compressor:Input"), Link("compressor:Output", "copy_tee:In")] + TeeLinks);
    var h := PitchGraph(width, pow4, nodes, links, first, last);
    assert h.nodes == nodes + h.nodes[|nodes|..];
    PrefixOfAppend(nodes, h.nodes[|nodes|..]);
    assert h.links == links + h.links[|links|..];
    PrefixOfAppend(links, h.links[|links|..]);
  }

  lemma CompileStartsWithChain(c: FilterChainConfig, pow4: real -> real)
    requires ActiveStages(c) != []
    ensures var names := StageNames(ActiveStages(c));
            StartsWithChain(Compile(c, pow4), StageNodes(c, ActiveStages(c)), ChainLinks(names), names[0])
  {
    var stages := ActiveStages(c);
    var names := StageNames(stages);
    TopologiesStartWithChain(c.stereoWidth, pow4, StageNodes(c, stages), ChainLinks(names), names[0], names[|names| - 1]);
  }

  /**
   * With n >= 1 stages the graph starts with the stage nodes in order, the
   * first n-1 links join consecutive stages and the graph input is the first
   * stage's input; in mono those are all the nodes and links, and the output
   * is the last stage's output, on one channel.
   */
  lemma StageChainShape(c: FilterChainConfig, pow4: real -> real)
    requires ActiveStages(c) != []
    ensures var g := Compile(c, pow4);
            var names := StageNames(ActiveStages(c));
            var n := |names|;
            n <= |g.nodes| && g.nodes[..n] == StageNodes(c, ActiveStages(c)) &&
            n - 1 <= |g.links| &&
            (forall i :: 0 <= i < n - 1 ==> g.links[i] == Link(names[i] + ":Output", names[i + 1] + ":Input")) &&
            g.inputs == [names[0] + ":Input"]
    ensures var g := Compile(c, pow4);
            var names := StageNames(ActiveStages(c));
            var n := |names|;
            c.stereoMode == Mode(Mono) ==>
              |g.nodes| == n && |g.links| == n - 1 && g.outputs == [names[n - 1] + ":Output"] &&
              g.channels == Some(1) && g.playbackPosition == ["MONO"]
  {
    var names := StageNames(ActiveStages(c));
    CompileStartsWithChain(c, pow4);
    var g := Compile(c, pow4);
    var links := ChainLinks(names);
    assert |links| == |names| - 1;
    forall i | 0 <= i < |names| - 1
      ensures g.links[i] == Link(names[i] + ":Output", names[i + 1] + ":Input")
    {
      assert g.links[i] == g.links[..|links|][i] == links[i];
    }
  }

  /**
   * Every mode other than mono outputs the two tee copies, captures mono and
   * plays back FL/FR; a mode value that is neither radio nor voice changer
   * (including a plain string) gives the dual-mono graph.
   */
  lemma StereoLayout(c: FilterChainConfig, pow4: real -> real)
    requires ActiveStages(c) != [] && c.stereoMode != Mode(Mono)
    ensures var g := Compile(c, pow4);
            g.outputs == ["copy_left:Out", "copy_right:Out"] && g.capturePosition == ["MONO"] &&
            g.playbackPosition == ["FL", "FR"] && g.channels.None? &&
            g.nodes[|g.nodes| - 3..] == TeeNodes && g.links[|g.links| - 2..] == TeeLinks
    ensures c.stereoMode != Mode(Radio) && c.stereoMode != Mode(VoiceChanger) ==>
            var names := StageNames(ActiveStages(c));
            Compile(c, pow4) == DualMonoGraph(StageNodes(c, ActiveStages(c)), ChainLinks(names), names[0], names[|names| - 1])
  {
  }

  /**
   * In radio mode the compressor follows the last stage with ratio 4+6w,
   * threshold -15-10w, attack 10, release 100+100w, makeup 2+4w and knee 3,
   * then feeds the tee.
   */
  lemma RadioCompressorChain(c: FilterChainConfig, pow4: real -> real)
    requires ActiveStages(c) != [] && c.stereoMode == Mode(Radio)
    ensures var g := Compile(c, pow4);
            var n := |ActiveStages(c)|;
            var names := StageNames(ActiveStages(c));
            var w := c.stereoWidth;
            |g.nodes| == n + 4 && g.nodes[n].name == "compressor" && g.nodes[n].plugin == SC4_LIBRARY &&
            [g.nodes[n].controls[4].value, g.nodes[n].controls[3].value, g.nodes[n].controls[1].value,
             g.nodes[n].controls[2].value, g.nodes[n].controls[6].value, g.nodes[n].controls[5].value] ==
            [4.0 + 6.0 * w, -15.0 - 10.0 * w, 10.0, 100.0 + 100.0 * w, 2.0 + 4.0 * w, 3.0] &&
            g.links[n - 1..] == [Link(names[n - 1] + ":Output", "compressor:Input"),
                                 Link("compressor:Output", "copy_tee:In")] + TeeLinks
  {
    var names := StageNames(ActiveStages(c));
    assert |ChainLinks(names)| == |names| - 1;
  }

  /**
   * In voice-changer mode the pitch shifter follows the last stage, then the
   * gain stage, then the tee; the pitch is in [0.5, 2] and the gain in [5, 15].
   */
  lemma VoiceChangerChain(c: FilterChainConfig, pow4: real -> real)
    requires ActiveStages(c) != [] && c.stereoMode == Mode(VoiceChanger)
    ensures var g := Compile(c, pow4);
            var n := |ActiveStages(c)|;
            var names := StageNames(ActiveStages(c));
            |g.nodes| == n + 5 && g.nodes[n].name == "pitch" && g.nodes[n + 1].name == "pitch_gain" &&
            0.5 <= g.nodes[n].controls[0].value <= 2.0 &&
            5.0 <= g.nodes[n + 1].controls[0].value <= 15.0 &&
            g.links[n - 1..] == [Link(names[n - 1] + ":Output", "pitch:Input"),
                                 Link("pitch:Output", "pitch_gain:Input"),
                                 Link("pitch_gain:Output", "copy_tee:In")] + TeeLinks
  {
    var names := StageNames(ActiveStages(c));
    assert |ChainLinks(names)| == |names| - 1;
    PitchAndGainBounds(c.stereoWidth, pow4);
  }

  /** The transient and crossfeed settings never reach the graph. */
  lemma TransientAndCrossfeedIgnored(c: FilterChainConfig, transientEnabled: bool, transientAttack: real,
                                     crossfeedEnabled: bool, crossfeedLevel: real, pow4: real -> real)
    ensures Compile(c.(transientEnabled := transientEnabled, transientAttack := transientAttack,
                       crossfeedEnabled := crossfeedEnabled, crossfeedLevel := crossfeedLevel), pow4)
            == Compile(c, pow4)
  {
    var c' := c.(transientEnabled := transientEnabled, transientAttack := transientAttack,
                 crossfeedEnabled := crossfeedEnabled, crossfeedLevel := crossfeedLevel);
    SameStageInputsSameGraph(c', c, pow4);
  }

  /** Two configs that agree on every field a stage or a stereo topology reads compile alike. */
  lemma SameStageInputsSameGraph(c: FilterChainConfig, d: FilterChainConfig, pow4: real -> real)
    requires c.noiseReductionEnabled == d.noiseReductionEnabled && c.gateEnabled == d.gateEnabled
    requires c.eqEnabled == d.eqEnabled && c.stereoMode == d.stereoMode && c.stereoWidth == d.stereoWidth
    requires AiNode(c) == AiNode(d) && GateNode(c) == GateNode(d) && c.eqBands == d.eqBands
    ensures Compile(c, pow4) == Compile(d, pow4)
  {
    var stages := ActiveStages(c);
    assert ActiveStages(d) == stages;
    SameStageInputsSameNodes(c, d, stages);
  }

  lemma SameStageInputsSameNodes(c: FilterChainConfig, d: FilterChainConfig, stages: seq<Stage>)
    requires AiNode(c) == AiNode(d) && GateNode(c) == GateNode(d) && c.eqBands == d.eqBands
    ensures StageNodes(c, stages) == StageNodes(d, stages)
  {
    assert forall s :: StageNode(c, s) == StageNode(d, s);
  }

  // ---------------------------------------------------------------------------
  // The generator, step by step
  // ---------------------------------------------------------------------------

  /** The two lists both config builders fill: stage names and their nodes, in order. */
  method CollectStages(c: FilterChainConfig) returns (active: seq<string>, nodes: seq<Node>)
    ensures active == StageNames(ActiveStages(c))
    ensures nodes == StageNodes(c, ActiveStages(c))
  {
    active, nodes := [], [];
    if c.noiseReductionEnabled {
      active := active + ["ai"];
      nodes := nodes + [AiNode(c)];
    }
    if c.gateEnabled {
      active := active + ["gate"];
      nodes := nodes + [GateNode(c)];
    }
    if c.eqEnabled {
      active := active + ["eq"];
      var eq := GenerateEqNode(c);
      nodes := nodes + [eq];
    }
  }

  /** The loop that links consecutive active filters. */
  method LinkStages(active: seq<string>) returns (links: seq<Link>)
    ensures links == ChainLinks(active)
  {
    links := [];
    if |active| == 0 {
      return;
    }
    var i := 0;
    while i < |active| - 1
      invariant 0 <= i <= |active| - 1
      invariant |links| == i
      invariant forall j :: 0 <= j < i ==> links[j] == Link(active[j] + ":Output", active[j + 1] + ":Input")
    {
      links := links + [Link(active[i] + ":Output", active[i + 1] + ":Input")];
      i := i + 1;
    }
  }

  /** `_generate_mono_config` */
  method GenerateMonoConfig(c: FilterChainConfig) returns (g: Graph)
    ensures g == MonoConfig(c)
  {
    var active, nodes := CollectStages(c);
    if |active| == 0 {
      return PassthroughGraph;
    }
    var links := LinkStages(active);
    g := MonoGraph(nodes, links, active[0], active[|active| - 1]);
  }

  /** `_generate_dual_mono_stereo` */
  method GenerateDualMonoStereo(nodes: seq<Node>, links: seq<Link>, first: string, last: string) returns (g: Graph)
    ensures g == DualMonoGraph(nodes, links, first, last)
  {
    var ns := nodes + [CopyNode("copy_tee")];
    ns := ns + [CopyNode("copy_left")];
    ns := ns + [CopyNode("copy_right")];
    var ls := links + [Link(last + ":Output", "copy_tee:In")];
    ls := ls + [Link("copy_tee:Out", "copy_left:In")];
    ls := ls + [Link("copy_tee:Out", "copy_right:In")];
    g := Graph("Stereo output with Dual Mono", ns, ls, [first + ":Input"],
               ["copy_left:Out", "copy_right:Out"], None, ["MONO"], ["FL", "FR"]);
  }

  /** `_generate_radio_mode` */
  method GenerateRadioMode(c: FilterChainConfig, nodes: seq<Node>, links: seq<Link>, first: string, last: string)
    returns (g: Graph)
    ensures g == RadioGraph(c.stereoWidth, nodes, links, first, last)
  {
    var ratio := 4.0 + c.stereoWidth * 6.0;
    var threshold := -15.0 - c.stereoWidth * 10.0;
    var attack := 10.0;
    var release := 100.0 + c.stereoWidth * 100.0;
    var makeupGain := 2.0 + c.stereoWidth * 4.0;
    var knee := 3.0;
    var ns := nodes + [CompressorNode(RadioParams(ratio, threshold, attack, release, makeupGain, knee))];
    ns := ns + [CopyNode("copy_tee")] + [CopyNode("copy_left")] + [CopyNode("copy_right")];
    var ls := links + [Link(last + ":Output", "compressor:Input")];
    ls := ls + [Link("compressor:Output", "copy_tee:In")];
    ls := ls + [Link("copy_tee:Out", "copy_left:In")] + [Link("copy_tee:Out", "copy_right:In")];
    g := Graph("Radio Voice Mode", ns, ls, [first + ":Input"], ["copy_left:Out", "copy_right:Out"],
               None, ["MONO"], ["FL", "FR"]);
  }

  /** `_generate_pitch_mode` */
  method GeneratePitchMode(c: FilterChainConfig, pow4: real -> real, nodes: seq<Node>, links: seq<Link>,
                           first: string, last: string) returns (g: Graph)
    ensures g == PitchGraph(c.stereoWidth, pow4, nodes, links, first, last)
  {
    var pitch := 0.5 * pow4(c.stereoWidth);
    pitch := if 0.5 < (if 2.0 < pitch then 2.0 else pitch) then (if 2.0 < pitch then 2.0 else pitch) else 0.5;
    var ns := nodes + [Node(Ladspa, "pitch", PITCH_SCALE_LIBRARY, PITCH_SCALE_LABEL,
                            [Control("Pitch co-efficient", pitch, Fixed(2))])];
    var gainDb := 5.0;
    if pitch < 1.0 {
      gainDb := gainDb + (1.0 - pitch) * 20.0;
    }
    ns := ns + [Node(Ladspa, "pitch_gain", AMP_LIBRARY, AMP_LABEL, [Control("Amps gain (dB)", gainDb, Fixed(2))])];
    ns := ns + [CopyNode("copy_tee")] + [CopyNode("copy_left")] + [CopyNode("copy_right")];
    var ls := links + [Link(last + ":Output", "pitch:Input")];
    ls := ls + [Link("pitch:Output", "pitch_gain:Input")];
    ls := ls + [Link("pitch_gain:Output", "copy_tee:In")];
    ls := ls + [Link("copy_tee:Out", "copy_left:In")] + [Link("copy_tee:Out", "copy_right:In")];
    g := Graph("Voice Changer", ns, ls, [first + ":Input"], ["copy_left:Out", "copy_right:Out"],
               None, ["MONO"], ["FL", "FR"]);
  }

  /** `_generate_stereo_config` */
  method GenerateStereoConfig(c: FilterChainConfig, pow4: real -> real) returns (g: Graph)
    ensures g == StereoConfig(c, pow4)
  {
    var active, nodes := CollectStages(c);
    if |active| == 0 {
      return PassthroughGraph;
    }
    var links := LinkStages(active);
    var first, last := active[0], active[|active| - 1];
    if c.stereoMode == Mode(Radio) {
      g := GenerateRadioMode(c, nodes, links, first, last);
    } else if c.stereoMode == Mode(VoiceChanger) {
      g := GeneratePitchMode(c, pow4, nodes, links, first, last);
    } else {
      g := GenerateDualMonoStereo(nodes, links, first, last);
    }
  }

  /** `FilterChainGenerator.generate` */
  method Generate(c: FilterChainConfig, pow4: real -> real) returns (g: Graph)
    ensures g == Compile(c, pow4)
  {
    var isStereo := c.stereoMode != Mode(Mono);
    if isStereo {
      g := GenerateStereoConfig(c, pow4);
    } else {
      g := GenerateMonoConfig(c);
    }
  }

  // ---------------------------------------------------------------------------
  // Configuration text
  // ---------------------------------------------------------------------------

  function Quote(s: string): string
  {
    "\"" + s + "\""
  }

  function JoinQuoted(items: seq<string>): string
  {
    if |items| == 0 then "" else Quote(items[0]) + (if |items| == 1 then "" else " " + JoinQuoted(items[1..]))
  }

  function JoinSpaced(items: seq<string>): string
  {
    if |items| == 0 then "" else items[0] + (if |items| == 1 then "" else " " + JoinSpaced(items[1..]))
  }

  function ControlLines(controls: seq<Control>, fmt: (NumberFormat, real) -> string): seq<string>
  {
    seq(|controls|, i requires 0 <= i < |controls| =>
      Quote(controls[i].port) + " = " + fmt(controls[i].format, controls[i].value))
  }

  function NodeLines(n: Node, fmt: (NumberFormat, real) -> string): seq<string>
  {
    match n.nodeType
    case Builtin => ["{", "type = builtin", "name = " + Quote(n.name), "label = " + n.pluginLabel, "}"]
    case Ladspa =>
      ["{", "type = ladspa", "name = " + Quote(n.name), "plugin = " + Quote(n.plugin), "label = " + Quote(n.pluginLabel),
       "control = {"] + ControlLines(n.controls, fmt) + ["}", "}"]
  }

  function NodesLines(nodes: seq<Node>, fmt: (NumberFormat, real) -> string): seq<string>
  {
    if |nodes| == 0 then [] else NodeLines(nodes[0], fmt) + NodesLines(nodes[1..], fmt)
  }

  function LinkLine(l: Link): string
  {
    "{ output = " + Quote(l.output) + " input = " + Quote(l.input) + " }"
  }

  function PositionLine(positions: seq<string>): string
  {
    "audio.position = [ " + JoinSpaced(positions) + " ]"
  }

  function PositionLines(positions: seq<string>): seq<string>
  {
    if positions == [] then [] else [PositionLine(positions)]
  }

  /** The `capture.props` and `playback.props` blocks, with the channel count before them. */
  function StreamPropsLines(g: Graph): seq<string>
  {
    (if g.channels.Some? then ["audio.channels = " + NatToString(g.channels.value)] else [])
    + ["capture.props = {"] + PositionLines(g.capturePosition) + ["node.passive = true", "}",
       "playback.props = {", "node.pause-on-idle = false", "audio.rate = 48000"]
    + PositionLines(g.playbackPosition)
    + ["filter.smart = true", "media.class = \"Audio/Source\"", "filter.smart.name = " + Quote(FILTER_SMART_NAME), "}"]
  }

  /** The `filter.graph` block: nodes, links, inputs and outputs. */
  function FilterGraphLines(g: Graph, fmt: (NumberFormat, real) -> string): seq<string>
  {
    ["filter.graph = {", "nodes = ["]
    + NodesLines(g.nodes, fmt)
    + ["]", "links = ["]
    + seq(|g.links|, i requires 0 <= i < |g.links| => LinkLine(g.links[i]))
    + ["]", "inputs = [ " + JoinQuoted(g.inputs) + " ]", "outputs = [ " + JoinQuoted(g.outputs) + " ]", "}"]
  }

  /**
   * The lines of the configuration file for `g`, without indentation or
   * comments; `fmt` prints a number the way the template does.
   */
  function RenderLines(g: Graph, fmt: (NumberFormat, real) -> string): seq<string>
  {
    ["# BigLinux Microphone Enhanced Filter Chain",
     "# Auto-generated configuration - " + g.title,
     "context.modules = [", "{", "name = libpipewire-module-filter-chain", "args = {",
     "node.description = " + Quote(DEVICE_NAME), "media.name = " + Quote(DEVICE_NAME)]
    + FilterGraphLines(g, fmt) + StreamPropsLines(g) + ["}", "}", "]"]
  }

  function JoinLines(lines: seq<string>): string
  {
    if |lines| == 0 then "" else lines[0] + "\n" + JoinLines(lines[1..])
  }

  function Render(g: Graph, fmt: (NumberFormat, real) -> string): string
  {
    JoinLines(RenderLines(g, fmt))
  }

  /** The channel count and both position lists reach the rendered lines. */
  lemma RenderedStreamProps(g: Graph, fmt: (NumberFormat, real) -> string)
    ensures g.capturePosition != [] ==> PositionLine(g.capturePosition) in RenderLines(g, fmt)
    ensures g.playbackPosition != [] ==> PositionLine(g.playbackPosition) in RenderLines(g, fmt)
    ensures g.channels.Some? ==> "audio.channels = " + NatToString(g.channels.value) in RenderLines(g, fmt)
  {
    var pre := ["# BigLinux Microphone Enhanced Filter Chain",
     "# Auto-generated configuration - " + g.title,
     "context.modules = [", "{", "name = libpipewire-module-filter-chain", "args = {",
     "node.description = " + Quote(DEVICE_NAME), "media.name = " + Quote(DEVICE_NAME)]
     + FilterGraphLines(g, fmt);
    assert RenderLines(g, fmt) == pre + StreamPropsLines(g) + ["}", "}", "]"];
  }

  lemma PositionLiterals()
    ensures PositionLine(["FL", "FR"]) == "audio.position = [ FL FR ]"
    ensures PositionLine(["MONO"]) == "audio.position = [ MONO ]"
    ensures "audio.channels = " + NatToString(1) == "audio.channels = 1"
  {
  }

  /** The rendered file of a stereo topology plays back "[ FL FR ]" and captures "[ MONO ]". */
  lemma RenderedStereoPositions(c: FilterChainConfig, pow4: real -> real, fmt: (NumberFormat, real) -> string)
    requires ActiveStages(c) != [] && c.stereoMode != Mode(Mono)
    ensures "audio.position = [ FL FR ]" in RenderLines(Compile(c, pow4), fmt)
    ensures "audio.position = [ MONO ]" in RenderLines(Compile(c, pow4), fmt)
  {
    RenderedStreamProps(Compile(c, pow4), fmt);
    StereoLayout(c, pow4);
    PositionLiterals();
  }

  /** The rendered file of a mono chain plays back "[ MONO ]" on one channel. */
  lemma RenderedMonoPositions(c: FilterChainConfig, pow4: real -> real, fmt: (NumberFormat, real) -> string)
    requires ActiveStages(c) != [] && c.stereoMode == Mode(Mono)
    ensures "audio.position = [ MONO ]" in RenderLines(Compile(c, pow4), fmt)
    ensures "audio.channels = 1" in RenderLines(Compile(c, pow4), fmt)
  {
    RenderedStreamProps(Compile(c, pow4), fmt);
    StageChainShape(c, pow4);
    PositionLiterals();
  }

  // ---------------------------------------------------------------------------
  // Saving and deleting the configuration file
  // ---------------------------------------------------------------------------

  /**
   * `generate_config_for_settings`: the seven given fields over the
   * `FilterChainConfig` defaults, so the equalizer is always off. It falls
   * back to pass-through exactly when both the AI stage and the gate are off,
   * and a mono request otherwise gives a one-channel chain starting at the
   * first enabled of the two.
   */
  function GenerateConfigForSettings(nrEnabled: bool, model: NoiseModel, strength: real, gateEnabled: bool,
                                     thresholdDb: int, rangeDb: int, mode: StereoMode, pow4: real -> real): (g: Graph)
    ensures g == PassthroughGraph <==> !nrEnabled && !gateEnabled
    ensures mode == Mono && (nrEnabled || gateEnabled) ==>
              g.channels == Some(1) && g.playbackPosition == ["MONO"] &&
              g.inputs == [if nrEnabled then "ai:Input" else "gate:Input"]
  {
    var c := DefaultFilterChainConfig.(noiseReductionEnabled := nrEnabled, noiseReductionModel := model,
                                       noiseReductionStrength := strength, gateEnabled := gateEnabled,
                                       gateThresholdDb := thresholdDb, gateRangeDb := rangeDb,
                                       stereoMode := Mode(mode));
    PassthroughWhenNoStages(c, pow4);
    if nrEnabled || gateEnabled then
      StageChainShape(c, pow4);
      assert StageNames(ActiveStages(c))[0] == if nrEnabled then "ai" else "gate";
      assert "ai" + ":Input" == "ai:Input" && "gate" + ":Input" == "gate:Input";
      Compile(c, pow4)
    else
      Compile(c, pow4)
  }

  /** Files on disk by path; only their text is modelled. */
  type Files = map<string, string>

  /** `save`: write the rendered graph to `path`, by default `CONFIG_DIR/CONFIG_FILE`. */
  function Save(files: Files, c: FilterChainConfig, pow4: real -> real, fmt: (NumberFormat, real) -> string,
                path: Option<string>, home: string): (r: (Files, string))
    ensures path.Some? ==> r.1 == path.value
    ensures path.None? ==> r.1 == ConfigDir(home) + "/" + CONFIG_FILE
    ensures r.1 in r.0 && r.0[r.1] == Render(Compile(c, pow4), fmt)
    ensures forall q :: q != r.1 ==> (q in r.0 <==> q in files) && (q in files ==> r.0[q] == files[q])
  {
    var p := path.GetOr(ConfigDir(home) + "/" + CONFIG_FILE);
    (files[p := Render(Compile(c, pow4), fmt)], p)
  }

  /**
   * `delete`: True exactly when the file existed; afterwards it does not.
   * `removeOk` says whether unlinking succeeds; the OSError of a failed
   * unlink escapes, and the file stays.
   */
  function Delete(files: Files, path: Option<string>, home: string, removeOk: bool): (r: (Files, Result<bool>))
    ensures var p := path.GetOr(ConfigDir(home) + "/" + CONFIG_FILE);
            && (r.1.Err? <==> p in files && !removeOk)
            && (r.1.Err? ==> r.0 == files)
            && (r.1.Ok? ==> r.1.value == (p in files) && p !in r.0 && (forall q :: q != p ==> (q in r.0 <==> q in files)))
  {
    var p := path.GetOr(ConfigDir(home) + "/" + CONFIG_FILE);
    if p in files then
      if removeOk then (files - {p}, Ok(true)) else (files, Err("OSError"))
    else (files, Ok(false))
  }

  /**
   * Deleting what `save` wrote succeeds and leaves every other file as it was
   * before the save; when the unlink fails, the saved file stays.
   */
  lemma SaveThenDelete(files: Files, c: FilterChainConfig, pow4: real -> real, fmt: (NumberFormat, real) -> string,
                       path: Option<string>, home: string, removeOk: bool)
    ensures var (saved, p) := Save(files, c, pow4, fmt, path, home);
            Delete(saved, path, home, removeOk) == if removeOk then (files - {p}, Ok(true)) else (saved, Err("OSError"))
  {
    var (saved, p) := Save(files, c, pow4, fmt, path, home);
    assert saved - {p} == files - {p};
  }
}

=== FILE: main_view.dfy ===
/**
 * The decisions the main window makes: which stereo mode the combo box
 * stands for, how many channels the monitor uses, whether to apply, start
 * or stop the service, how the gate sliders map to dB, how equalizer edits
 * and preset choices change the settings, and how an external change of
 * the service state is picked up. Widgets are left out; what the window
 * asks of the PipeWire service is recorded as a list of calls.
 */
module MainView {
  import opened Wrappers
  import opened PyNum
  import opened Config

  /** The requests the window makes of the PipeWire service, in the order it makes them. */
  datatype ServiceCall =
    | ApplyConfig
    | StartNoiseReduction
    | StopNoiseReduction
    | SetGateEnabled(on: bool)
    | SetGateThreshold(thresholdDb: int)
    | SetGateRange(rangeDb: int)
    | SetGateAttack(attackMs: real)
    | SetGateHold(holdMs: real)
    | SetGateRelease(releaseMs: real)
    | SetEqEnabled(enabled: bool)
    | SetEqBands(bands: seq<real>)
    | SetStereoEnabled(on: bool)
    | SetStereoMode(mode: StereoMode)
    | SetStereoWidth(width: real)

  // ---------------------------------------------------------------------------
  // Stereo mode combo box
  // ---------------------------------------------------------------------------

  /** The modes the combo box offers, in order; MONO is not among them. */
  const ComboModes: seq<StereoMode> := [DualMono, Radio, VoiceChanger]

  /** `_get_selected_stereo_mode`: the mode at the selected index, DUAL_MONO when out of range. */
  function SelectedStereoMode(index: int): (m: StereoMode)
    ensures m != Mono
    ensures 0 <= index < |ComboModes| ==> m == ComboModes[index]
    ensures !(0 <= index < |ComboModes|) ==> m == DualMono
  {
    if 0 <= index < |ComboModes| then ComboModes[index] else DualMono
  }

  /** The combo index the window selects for a stored mode: its position, or 0 for MONO. */
  function ComboIndex(mode: StereoMode): (i: nat)
    ensures i < |ComboModes|
    ensures mode != Mono ==> ComboModes[i] == mode
    ensures mode == Mono ==> i == 0
  {
    match mode
    case Mono => 0
    case DualMono => 0
    case Radio => 1
    case VoiceChanger => 2
  }

  /**
   * Selecting an index and reading it back agree: every combo index is the
   * index of the mode it selects, and a stored mode reads back as itself,
   * except MONO, which reads back as DUAL_MONO.
   */
  lemma ComboRoundTrip(index: int, mode: StereoMode)
    ensures 0 <= index < |ComboModes| ==> ComboIndex(SelectedStereoMode(index)) == index
    ensures SelectedStereoMode(ComboIndex(mode)) == if mode == Mono then DualMono else mode
  {
  }

  /** What loading the stereo settings does: the combo index, the mode shown, and the calls to the service. */
  datatype LoadedStereo = LoadedStereo(comboIndex: nat, shownMode: StereoMode, calls: seq<ServiceCall>)

  /**
   * Loading the stereo section: a stored MONO shows as DUAL_MONO at index 0;
   * the service is told whether stereo is on, then the mode (MONO whenever
   * stereo is off, else the shown mode), then the width.
   */
  function LoadStereo(st: StereoConfig): (l: LoadedStereo)
    ensures l.comboIndex == ComboIndex(st.mode) && l.shownMode == SelectedStereoMode(l.comboIndex)
    ensures l.shownMode != Mono
    ensures |l.calls| == 3 && l.calls[0] == SetStereoEnabled(st.enabled) && l.calls[2] == SetStereoWidth(st.width)
    ensures l.calls[1].SetStereoMode? && (l.calls[1].mode == Mono <==> !st.enabled)
    ensures st.enabled && st.mode != Mono ==> l.calls[1] == SetStereoMode(st.mode)
  {
    var shown := if st.mode in ComboModes then st.mode else DualMono;
    var index := ComboIndex(st.mode);
    LoadedStereo(index, shown,
                 [SetStereoEnabled(st.enabled), SetStereoMode(if st.enabled then shown else Mono), SetStereoWidth(st.width)])
  }

  // ---------------------------------------------------------------------------
  // Monitor channels and the service decision
  // ---------------------------------------------------------------------------

  /**
   * `_get_monitor_channels`: the filtered source is monitored in stereo; the
   * raw source is downmixed to one channel exactly when stereo is off or
   * its mode is MONO or DUAL_MONO.
   */
  function MonitorChannels(s: AppSettings): (c: nat)
    ensures c == 1 || c == 2
    ensures c == 1 <==> !s.noiseReduction.enabled && (!s.stereo.enabled || s.stereo.mode == Mono || s.stereo.mode == DualMono)
  {
    if s.noiseReduction.enabled then 2
    else if !s.stereo.enabled || s.stereo.mode in {Mono, DualMono} then 1
    else 2
  }

  /**
   * `_update_service_state`: with noise reduction on, a running service gets
   * the new configuration and a stopped one is started; with it off the
   * service is stopped.
   */
  function ServiceStateCall(noiseReductionEnabled: bool, running: bool): (c: ServiceCall)
    ensures c == ApplyConfig <==> noiseReductionEnabled && running
    ensures c == StartNoiseReduction <==> noiseReductionEnabled && !running
    ensures c == StopNoiseReduction <==> !noiseReductionEnabled
  {
    if noiseReductionEnabled then (if running then ApplyConfig else StartNoiseReduction)
    else StopNoiseReduction
  }

  // ---------------------------------------------------------------------------
  // Gate sliders
  // ---------------------------------------------------------------------------

  /** The threshold slider: 0-100 % onto -60..0 dB, truncated toward zero. */
  function ThresholdDb(v: real): (db: int)
    ensures 0.0 <= v <= 100.0 ==> GATE_THRESHOLD_MIN <= db <= GATE_THRESHOLD_MAX
    ensures v == 0.0 ==> db == -60
    ensures v == 100.0 ==> db == 0
  {
    Trunc(-60.0 + v / 100.0 * 60.0)
  }

  /** The range slider: 0-100 % onto 0..-80 dB, truncated toward zero. */
  function RangeDb(v: real): (db: int)
    ensures 0.0 <= v <= 100.0 ==> -80 <= db <= 0
    ensures v == 0.0 ==> db == 0
    ensures v == 100.0 ==> db == -80
  {
    Trunc(v / 100.0 * -80.0)
  }

  /** Truncation never reverses an order. */
  lemma TruncMonotone(x: real, y: real)
    requires x <= y
    ensures Trunc(x) <= Trunc(y)
  {
  }

  /** Moving the threshold slider up never lowers the threshold; moving the range slider up never lessens the reduction. */
  lemma SlidersMonotone(v: real, w: real)
    requires v <= w
    ensures ThresholdDb(v) <= ThresholdDb(w)
    ensures RangeDb(w) <= RangeDb(v)
  {
    TruncMonotone(-60.0 + v / 100.0 * 60.0, -60.0 + w / 100.0 * 60.0);
    TruncMonotone(w / 100.0 * -80.0, v / 100.0 * -80.0);
  }

  // ---------------------------------------------------------------------------
  // Equalizer
  // ---------------------------------------------------------------------------

  /** The position of "custom" among the presets. */
  const CUSTOM_INDEX: nat := 8

  lemma CustomIndexIsCustom()
    ensures CUSTOM_INDEX < |EqPresets| && EqPresets[CUSTOM_INDEX].0 == "custom"
    ensures forall i :: 0 <= i < |EqPresets| && EqPresets[i].0 == "custom" ==> i == CUSTOM_INDEX
  {
    PresetsWellFormed();
  }

  /**
   * `list(EQ_PRESETS.keys()).index(name)` searched from `i` on: the position
   * of the preset called `name`, or None when there is none.
   */
  function PresetIndexFrom(name: string, i: nat): (r: Option<nat>)
    requires i <= |EqPresets|
    ensures r.Some? ==> i <= r.value < |EqPresets| && EqPresets[r.value].0 == name
    ensures r.None? <==> forall j :: i <= j < |EqPresets| ==> EqPresets[j].0 != name
    decreases |EqPresets| - i
  {
    if i == |EqPresets| then None
    else if EqPresets[i].0 == name then Some(i)
    else PresetIndexFrom(name, i + 1)
  }

  /** The preset names are distinct, so the position found is the only one holding the name. */
  lemma PresetIndexUnique(name: string, j: nat)
    requires j < |EqPresets| && EqPresets[j].0 == name
    ensures PresetIndexFrom(name, 0) == Some(j)
  {
    PresetsWellFormed();
  }

  /** The gate calls of `_load_state`: the switch, then each stored gate value, in order. */
  function GateLoadCalls(g: GateConfig): seq<ServiceCall>
  {
    [SetGateEnabled(g.enabled), SetGateThreshold(g.thresholdDb), SetGateRange(g.rangeDb),
     SetGateAttack(g.attackMs), SetGateHold(g.holdMs), SetGateRelease(g.releaseMs)]
  }

  /**
   * `_on_eq_band_changed`: the band at `index` takes the value when it
   * exists; either way the preset becomes "custom".
   */
  function BandChanged(eq: EqualizerConfig, index: nat, value: real): (r: EqualizerConfig)
    ensures r.preset == "custom" && r.enabled == eq.enabled && |r.bands| == |eq.bands|
    ensures index < |eq.bands| ==> r.bands[index] == value
    ensures forall i :: 0 <= i < |eq.bands| && i != index ==> r.bands[i] == eq.bands[i]
  {
    var bands := if index < |eq.bands| then eq.bands[index := value] else eq.bands;
    eq.(bands := bands, preset := "custom")
  }

  /**
   * `_on_eq_preset_selected`: an index out of range changes nothing;
   * "custom" only renames the preset; any other preset also replaces the
   * bands by its own.
   */
  function PresetSelected(eq: EqualizerConfig, index: int): (r: EqualizerConfig)
    ensures !(0 <= index < |EqPresets|) ==> r == eq
    ensures 0 <= index < |EqPresets| ==> r.preset == EqPresets[index].0 && r.enabled == eq.enabled
    ensures 0 <= index < |EqPresets| && EqPresets[index].0 == "custom" ==> r.bands == eq.bands
    ensures 0 <= index < |EqPresets| && EqPresets[index].0 != "custom" ==> r.bands == EqPresets[index].1.bands
  {
    if 0 <= index < |EqPresets| then
      var name := EqPresets[index].0;
      if name == "custom" then eq.(preset := name) else eq.(preset := name, bands := EqPresets[index].1.bands)
    else eq
  }

  /** After a band edit, choosing "custom" in the combo keeps the edited bands: it changes nothing. */
  lemma CustomKeepsEdits(eq: EqualizerConfig, index: nat, value: real)
    ensures PresetSelected(BandChanged(eq, index, value), CUSTOM_INDEX) == BandChanged(eq, index, value)
  {
    CustomIndexIsCustom();
  }

  /** Any preset but "custom" leaves ten bands within the equalizer limits, whatever was there before. */
  lemma PresetGivesWellFormedBands(eq: EqualizerConfig, index: int)
    requires 0 <= index < |EqPresets| && index != CUSTOM_INDEX
    ensures WellFormedBands(PresetSelected(eq, index).bands)
  {
    PresetsWellFormed();
    CustomIndexIsCustom();
  }

  /** An in-range edit of well-formed bands keeps them well formed. */
  lemma BandChangeKeepsWellFormed(eq: EqualizerConfig, index: nat, value: real)
    requires WellFormedBands(eq.bands) && EQ_BAND_MIN <= value <= EQ_BAND_MAX
    ensures WellFormedBands(BandChanged(eq, index, value).bands)
  {
  }

  // ---------------------------------------------------------------------------
  // The window's state
  // ---------------------------------------------------------------------------

  class MainWindow {
    var settings: AppSettings
    /** True while the window itself sets widgets, so that their handlers do nothing. */
    var loading: bool
    var mainSwitch: bool
    var lastKnownEnabled: Option<bool>
    var presetIndex: int
    var eqTimerPending: bool
    var saveScheduled: bool
    var calls: seq<ServiceCall>

    /**
     * `__init__`, then `_load_state` and `_start_state_polling`: `enabled` is
     * what `is_enabled` answers while loading and `polled` what it answers
     * when polling starts. Loading shows the service state on the main
     * switch, tells the service the gate settings, the stereo settings and the
     * equalizer settings in that order, and selects the stored preset when
     * there is one; the widgets' own handlers do nothing while loading.
     */
    constructor (s: AppSettings, enabled: bool, polled: bool)
      ensures settings == s && !loading && mainSwitch == enabled && lastKnownEnabled == Some(polled)
      ensures calls == GateLoadCalls(s.gate) + LoadStereo(s.stereo).calls +
                       [SetEqEnabled(s.equalizer.enabled), SetEqBands(s.equalizer.bands)]
      ensures presetIndex == match PresetIndexFrom(s.equalizer.preset, 0) case Some(i) => i case None => 0
      ensures !eqTimerPending && !saveScheduled
    {
      settings := s;
      loading := false;
      mainSwitch := false;
      lastKnownEnabled := None;
      presetIndex := 0;
      eqTimerPending := false;
      saveScheduled := false;
      calls := [];
      new;
      LoadState(enabled);
      lastKnownEnabled := Some(polled);
    }

    /** `_load_state`, with `enabled` what `is_enabled` answers. */
    method LoadState(enabled: bool)
      modifies this`loading, this`mainSwitch, this`calls, this`presetIndex
      ensures !loading && mainSwitch == enabled
      ensures calls == old(calls) + GateLoadCalls(settings.gate) + LoadStereo(settings.stereo).calls +
                       [SetEqEnabled(settings.equalizer.enabled), SetEqBands(settings.equalizer.bands)]
      ensures presetIndex == match PresetIndexFrom(settings.equalizer.preset, 0) case Some(i) => i case None => old(presetIndex)
    {
      loading := true;
      mainSwitch := enabled;
      calls := calls + GateLoadCalls(settings.gate);
      calls := calls + LoadStereo(settings.stereo).calls;
      var found := PresetIndexFrom(settings.equalizer.preset, 0);
      if found.Some? {
        presetIndex := found.value;
      }
      calls := calls + [SetEqEnabled(settings.equalizer.enabled), SetEqBands(settings.equalizer.bands)];
      loading := false;
    }

    /**
     * `_check_external_state`, with `current` the service's state or None
     * when asking failed. A known previous state that differs is copied to
     * the switch and the settings; the state seen is always recorded.
     */
    method CheckExternalState(current: Option<bool>) returns (keepPolling: bool)
      modifies this`loading, this`mainSwitch, this`settings, this`lastKnownEnabled
      ensures keepPolling
      ensures current.None? ==> lastKnownEnabled == old(lastKnownEnabled) && settings == old(settings) &&
                                mainSwitch == old(mainSwitch) && loading == old(loading)
      ensures current.Some? ==> lastKnownEnabled == current
      ensures current.Some? && old(lastKnownEnabled).Some? && old(lastKnownEnabled) != current ==>
                mainSwitch == current.value && !loading &&
                settings == old(settings).(noiseReduction := old(settings).noiseReduction.(enabled := current.value))
      ensures current.Some? && (old(lastKnownEnabled).None? || old(lastKnownEnabled) == current) ==>
                settings == old(settings) && mainSwitch == old(mainSwitch) && loading == old(loading)
    {
      if current.None? {
        return true;
      }
      var state := current.value;
      if lastKnownEnabled.Some? && state != lastKnownEnabled.value {
        loading := true;
        mainSwitch := state;
        settings := settings.(noiseReduction := settings.noiseReduction.(enabled := state));
        loading := false;
      }
      lastKnownEnabled := Some(state);
      keepPolling := true;
    }

    /** `_update_service_state`, with `running` the service's answer to `is_enabled`. */
    method UpdateServiceState(running: bool)
      modifies this`calls
      ensures calls == old(calls) + [ServiceStateCall(settings.noiseReduction.enabled, running)]
    {
      if settings.noiseReduction.enabled {
        if running {
          calls := calls + [ApplyConfig];
        } else {
          calls := calls + [StartNoiseReduction];
        }
      } else {
        calls := calls + [StopNoiseReduction];
      }
    }

    /** `_on_threshold_scale_changed` */
    method OnThresholdScaleChanged(v: real)
      modifies this`settings, this`saveScheduled, this`calls
      ensures loading ==> settings == old(settings) && calls == old(calls) && saveScheduled == old(saveScheduled)
      ensures !loading ==> settings == old(settings).(gate := old(settings).gate.(thresholdDb := ThresholdDb(v))) &&
                           saveScheduled && calls == old(calls) + [SetGateThreshold(ThresholdDb(v))]
    {
      if loading {
        return;
      }
      var thresholdDb := Trunc(-60.0 + v / 100.0 * 60.0);
      settings := settings.(gate := settings.gate.(thresholdDb := thresholdDb));
      saveScheduled := true;
      calls := calls + [SetGateThreshold(thresholdDb)];
    }

    /** `_on_range_scale_changed` */
    method OnRangeScaleChanged(v: real)
      modifies this`settings, this`saveScheduled, this`calls
      ensures loading ==> settings == old(settings) && calls == old(calls) && saveScheduled == old(saveScheduled)
      ensures !loading ==> settings == old(settings).(gate := old(settings).gate.(rangeDb := RangeDb(v))) &&
                           saveScheduled && calls == old(calls) + [SetGateRange(RangeDb(v))]
    {
      if loading {
        return;
      }
      var rangeDb := Trunc(v / 100.0 * -80.0);
      settings := settings.(gate := settings.gate.(rangeDb := rangeDb));
      saveScheduled := true;
      calls := calls + [SetGateRange(rangeDb)];
    }

    /**
     * `_on_eq_band_changed`: the settings take the edit at once; the call to
     * the service waits for the debounce timer (`ApplyEqConfig`).
     */
    method OnEqBandChanged(index: nat, value: real)
      modifies this`settings, this`presetIndex, this`eqTimerPending, this`saveScheduled
      ensures loading ==> settings == old(settings) && presetIndex == old(presetIndex) &&
                          eqTimerPending == old(eqTimerPending)
      ensures !loading ==> settings == old(settings).(equalizer := BandChanged(old(settings).equalizer, index, value)) &&
                           eqTimerPending && saveScheduled
      ensures !loading && old(settings).equalizer.preset != "custom" ==> presetIndex == CUSTOM_INDEX
      ensures !loading && old(settings).equalizer.preset == "custom" ==> presetIndex == old(presetIndex)
    {
      if loading {
        return;
      }
      var eq := settings.equalizer;
      if index < |eq.bands| {
        eq := eq.(bands := eq.bands[index := value]);
      }
      if eq.preset != "custom" {
        eq := eq.(preset := "custom");
        presetIndex := CUSTOM_INDEX;
      }
      settings := settings.(equalizer := eq);
      eqTimerPending := true;
      saveScheduled := true;
    }

    /** `_apply_eq_config`, when the debounce timer fires: the service gets the current bands. */
    method ApplyEqConfig()
      modifies this`calls, this`eqTimerPending
      ensures calls == old(calls) + [SetEqBands(settings.equalizer.bands)] && !eqTimerPending
    {
      calls := calls + [SetEqBands(settings.equalizer.bands)];
      eqTimerPending := false;
    }

    /** `_on_eq_preset_selected`: "custom" only renames; another preset also sends its bands to the service. */
    method OnEqPresetSelected(index: int)
      modifies this`settings, this`saveScheduled, this`calls
      ensures loading || !(0 <= index < |EqPresets|) ==> settings == old(settings) && calls == old(calls)
      ensures !loading ==> settings == old(settings).(equalizer := PresetSelected(old(settings).equalizer, index))
      ensures !loading && 0 <= index < |EqPresets| && EqPresets[index].0 != "custom" ==>
                calls == old(calls) + [SetEqBands(EqPresets[index].1.bands)]
      ensures !loading && 0 <= index < |EqPresets| && EqPresets[index].0 == "custom" ==> calls == old(calls)
    {
      if loading || !(0 <= index < |EqPresets|) {
        return;
      }
      var name := EqPresets[index].0;
      if name == "custom" {
        settings := settings.(equalizer := settings.equalizer.(preset := name));
        saveScheduled := true;
        return;
      }
      var bands := EqPresets[index].1.bands;
      settings := settings.(equalizer := settings.equalizer.(preset := name, bands := bands));
      saveScheduled := true;
      calls := calls + [SetEqBands(bands)];
    }
  }
}

=== FILE: pipewire_service.dfy ===
/**
 * `PipeWireService`: the runtime controller that mirrors the audio settings,
 * writes the filter-chain configuration, starts and stops the separate
 * filter-chain process and sends live parameter updates through a FIFO
 * queue drained by one worker.
 *
 * Every subprocess answer (`pgrep`, `pactl`, `pw-dump`, `pw-cli`, `Popen`)
 * is a parameter; the configuration file is the field `configText`.
 */
module PipeWireService {
  import opened Wrappers
  import opened Strings
  import opened Config
  import FC = FilterChain
  import Validators

  // ---------------------------------------------------------------------------
  // Subprocess answers
  // ---------------------------------------------------------------------------

  /**
   * The two probes of `is_enabled`: the return code of `pgrep`, and the return
   * code and output of `pactl list sources short` (None when the call raised).
   */
  datatype Probe = Probe(pgrepReturnCode: Option<int>, pactlSources: Option<CommandOutput>)

  datatype CommandOutput = CommandOutput(returnCode: int, stdout: string)

  /** A filter-chain process or filter source was seen. */
  predicate ProcessSeen(p: Probe)
  {
    p.pgrepReturnCode == Some(0) ||
    (p.pactlSources.Some? && p.pactlSources.value.returnCode == 0 &&
     (Contains(Lower(p.pactlSources.value.stdout), FC.FILTER_SMART_NAME) ||
      Contains(Lower(p.pactlSources.value.stdout), "filter-chain")))
  }

  /** One object of the `pw-dump` array; `objectId` is `str` of its `object.id`. */
  datatype PwObject = PwObject(objType: Option<string>, nodeName: Option<string>, objectId: Option<string>)

  /** `pw-dump`'s answer; `DumpFailed` when it raised, timed out or printed invalid JSON. */
  datatype DumpResult = DumpFailed | Dumped(returnCode: int, objects: seq<PwObject>)

  const NODE_TYPE := "PipeWire:Interface:Node"

  /** A node whose name (empty when missing) names the filter chain. */
  predicate IsFilterNode(o: PwObject)
  {
    o.objType == Some(NODE_TYPE) &&
    (Contains(o.nodeName.GetOr(""), FC.FILTER_SMART_NAME) || Contains(o.nodeName.GetOr(""), "filter-chain"))
  }

  /** The index of the first filter node, if any. */
  function FirstFilterNode(objs: seq<PwObject>): (r: Option<nat>)
    ensures r.Some? ==> r.value < |objs| && IsFilterNode(objs[r.value])
    ensures r.Some? ==> forall j :: 0 <= j < r.value ==> !IsFilterNode(objs[j])
    ensures r.None? <==> forall j :: 0 <= j < |objs| ==> !IsFilterNode(objs[j])
  {
    if |objs| == 0 then None
    else if IsFilterNode(objs[0]) then Some(0)
    else
      var rest := FirstFilterNode(objs[1..]);
      if rest.None? then None else Some(rest.value + 1)
  }

  /** Python truthiness of the cached id: present and not the empty string. */
  predicate Truthy(id: Option<string>)
  {
    id.Some? && id.value != ""
  }

  // ---------------------------------------------------------------------------
  // Live updates
  // ---------------------------------------------------------------------------

  /** `(param_name, value)` as put on the queue. */
  datatype Update = Update(param: string, value: real)

  /** One `pw-cli set-param <node> Props { params = [ "<param>" <value> ] }` call. */
  datatype PwCliCall = PwCliCall(nodeId: string, param: string, value: real)

  /**
   * The id `_get_filter_chain_node_id` answers: a truthy cached id as it is,
   * otherwise the `object.id` (empty when missing) of the first filter node
   * of a successful `pw-dump`, and None when the dump failed or has none.
   */
  function LiveNodeId(cached: Option<string>, dump: DumpResult): Option<string>
  {
    if Truthy(cached) then cached
    else if dump.DumpFailed? || dump.returnCode != 0 then None
    else match FirstFilterNode(dump.objects)
         case None => None
         case Some(k) => Some(dump.objects[k].objectId.GetOr(""))
  }

  /** The cached id after the lookup: the answer when there was one, else unchanged. */
  function CacheAfterLookup(cached: Option<string>, dump: DumpResult): Option<string>
  {
    var id := LiveNodeId(cached, dump);
    if id.Some? then id else cached
  }

  /** What one `_perform_live_update` does: the call it issues, if any, the cache it leaves and its answer. */
  datatype LiveStep = LiveStep(call: Option<PwCliCall>, cache: Option<string>, ok: bool)

  /**
   * `_perform_live_update` for a cached id, a `pw-dump` answer and a `pw-cli`
   * return code (None when the call raised): no call without a truthy id;
   * a non-zero return code drops the cached id.
   */
  function LiveUpdateStep(cached: Option<string>, u: Update, dump: DumpResult, code: Option<int>): LiveStep
  {
    var id := LiveNodeId(cached, dump);
    var cache := CacheAfterLookup(cached, dump);
    if !Truthy(id) then LiveStep(None, cache, false)
    else
      var call := Some(PwCliCall(id.value, u.param, u.value));
      if code == Some(0) then LiveStep(call, cache, true)
      else if code.None? then LiveStep(call, cache, false)
      else LiveStep(call, None, false)
  }

  /** The calls issued and the cache left when the worker performs `updates` in order. */
  datatype DrainResult = DrainResult(calls: seq<PwCliCall>, cache: Option<string>)

  /** `dumps[k]` and `codes[k]` answer the k-th update's `pw-dump` and `pw-cli`. */
  function DrainCalls(updates: seq<Update>, dumps: seq<DumpResult>, codes: seq<Option<int>>,
                      cached: Option<string>): DrainResult
    requires |dumps| == |updates| && |codes| == |updates|
    decreases |updates|
  {
    if updates == [] then DrainResult([], cached)
    else
      var s := LiveUpdateStep(cached, updates[0], dumps[0], codes[0]);
      var rest := DrainCalls(updates[1..], dumps[1..], codes[1..], s.cache);
      DrainResult((if s.call.Some? then [s.call.value] else []) + rest.calls, rest.cache)
  }

  /** `DrainCalls` unfolded once: the first update's step, then the rest from the cache it leaves. */
  lemma DrainCallsFirst(updates: seq<Update>, dumps: seq<DumpResult>, codes: seq<Option<int>>,
                        cached: Option<string>, s: LiveStep)
    requires |dumps| == |updates| && |codes| == |updates| && updates != []
    requires s == LiveUpdateStep(cached, updates[0], dumps[0], codes[0])
    ensures DrainCalls(updates, dumps, codes, cached).calls ==
              (if s.call.Some? then [s.call.value] else []) + DrainCalls(updates[1..], dumps[1..], codes[1..], s.cache).calls
    ensures DrainCalls(updates, dumps, codes, cached).cache == DrainCalls(updates[1..], dumps[1..], codes[1..], s.cache).cache
  {
  }

  /**
   * With a truthy cached id and every `pw-cli` call answering 0, the worker
   * sends exactly the queued updates, in queue order, to that node, whatever
   * `pw-dump` would have said, and keeps the cache.
   */
  lemma {:induction false} DrainWithCachedNode(updates: seq<Update>, dumps: seq<DumpResult>,
                                                codes: seq<Option<int>>, cached: Option<string>)
    requires |dumps| == |updates| && |codes| == |updates| && Truthy(cached)
    requires forall k :: 0 <= k < |codes| ==> codes[k] == Some(0)
    ensures var r := DrainCalls(updates, dumps, codes, cached);
            r.cache == cached &&
            |r.calls| == |updates| &&
            forall k :: 0 <= k < |updates| ==>
              r.calls[k] == PwCliCall(cached.value, updates[k].param, updates[k].value)
    decreases |updates|
  {
    if updates != [] {
      DrainWithCachedNode(updates[1..], dumps[1..], codes[1..], cached);
      var rest := DrainCalls(updates[1..], dumps[1..], codes[1..], cached);
      var r := DrainCalls(updates, dumps, codes, cached);
      assert LiveUpdateStep(cached, updates[0], dumps[0], codes[0]).cache == cached;
      assert r.calls == [PwCliCall(cached.value, updates[0].param, updates[0].value)] + rest.calls;
      forall k | 0 <= k < |updates|
        ensures r.calls[k] == PwCliCall(cached.value, updates[k].param, updates[k].value)
      {
        if k > 0 {
          assert r.calls[k] == rest.calls[k - 1];
          assert updates[k] == updates[1..][k - 1];
        }
      }
    }
  }

  /**
   * A failed `pw-cli` call drops the cache, so the next update looks the
   * node up again in `pw-dump`; a successful one keeps a found id for the next.
   */
  lemma LiveStepCacheForNext(cached: Option<string>, u: Update, dump: DumpResult, code: Option<int>, next: DumpResult)
    ensures var s := LiveUpdateStep(cached, u, dump, code);
            (s.call.Some? && code.Some? && code.value != 0 ==> LiveNodeId(s.cache, next) == LiveNodeId(None, next)) &&
            (s.ok ==> LiveNodeId(s.cache, next) == Some(s.call.value.nodeId) && s.call.value.nodeId != "")
  {
  }

  /** The compressor updates `set_stereo_width` sends in radio mode, as written: makeup gain 6+6w. */
  function RadioLiveUpdatesAsWritten(w: real): seq<Update>
  {
    [Update("compressor:Ratio (1:n)", 4.0 + w * 6.0),
     Update("compressor:Threshold level (dB)", -15.0 - w * 10.0),
     Update("compressor:Release time (ms)", 100.0 + w * 100.0),
     Update("compressor:Makeup gain (dB)", 6.0 + w * 6.0)]
  }

  /** The compressor updates with the values the generated configuration uses for the same width. */
  function RadioLiveUpdates(w: real): seq<Update>
  {
    var p := FC.RadioCompressorParams(w);
    [Update("compressor:Ratio (1:n)", p.ratio),
     Update("compressor:Threshold level (dB)", p.threshold),
     Update("compressor:Release time (ms)", p.release),
     Update("compressor:Makeup gain (dB)", p.makeupGain)]
  }

  /** The pitch and gain-compensation updates of voice-changer mode. */
  function PitchLiveUpdates(w: real, pow4: real -> real): seq<Update>
  {
    var pitch := FC.PitchCoefficient(w, pow4);
    [Update("pitch:Pitch co-efficient", pitch), Update("pitch_gain:Amps gain (dB)", FC.GainCompensation(pitch))]
  }

  /** What `set_stereo_width` queues for each mode once running and not mono (radio values as written). */
  function WidthLiveUpdates(mode: StereoMode, w: real, pow4: real -> real): seq<Update>
  {
    match mode
    case Radio => RadioLiveUpdatesAsWritten(w)
    case VoiceChanger => PitchLiveUpdates(w, pow4)
    case _ => []
  }

  /**
   * Each radio update carries the port name and value of the matching control
   * of the compressor node in the generated graph.
   */
  lemma RadioLiveUpdatesMatchCompressor(w: real)
    ensures var node := FC.CompressorNode(FC.RadioCompressorParams(w));
            RadioLiveUpdates(w) ==
              [Update("compressor:" + node.controls[4].port, node.controls[4].value),
               Update("compressor:" + node.controls[3].port, node.controls[3].value),
               Update("compressor:" + node.controls[2].port, node.controls[2].value),
               Update("compressor:" + node.controls[6].port, node.controls[6].value)]
  {
    assert "compressor:" + "Ratio (1:n)" == "compressor:Ratio (1:n)";
    assert "compressor:" + "Threshold level (dB)" == "compressor:Threshold level (dB)";
    assert "compressor:" + "Release time (ms)" == "compressor:Release time (ms)";
    assert "compressor:" + "Makeup gain (dB)" == "compressor:Makeup gain (dB)";
  }

  /** The makeup gain sent live exceeds the configured one by 4+2w dB: 6 against 2 at width 0. */
  lemma RadioMakeupAsWrittenDiverges(w: real)
    ensures RadioLiveUpdatesAsWritten(w)[..3] == RadioLiveUpdates(w)[..3]
    ensures RadioLiveUpdatesAsWritten(w)[3].value - RadioLiveUpdates(w)[3].value == 4.0 + 2.0 * w
    ensures RadioLiveUpdatesAsWritten(0.0)[3].value == 6.0 && RadioLiveUpdates(0.0)[3].value == 2.0
  {
  }

  /** The pitch updates carry the ports and values of the generated pitch and gain nodes. */
  lemma PitchLiveUpdatesMatchGraph(c: FC.FilterChainConfig, pow4: real -> real, nodes: seq<FC.Node>,
                                   links: seq<FC.Link>, first: string, last: string)
    ensures var g := FC.PitchGraph(c.stereoWidth, pow4, nodes, links, first, last);
            var n := |nodes|;
            n + 1 < |g.nodes| &&
            PitchLiveUpdates(c.stereoWidth, pow4) ==
              [Update(g.nodes[n].name + ":" + g.nodes[n].controls[0].port, g.nodes[n].controls[0].value),
               Update(g.nodes[n + 1].name + ":" + g.nodes[n + 1].controls[0].port, g.nodes[n + 1].controls[0].value)]
  {
    var g := FC.PitchGraph(c.stereoWidth, pow4, nodes, links, first, last);
    var n := |nodes|;
    assert g.nodes[n].name == "pitch" && g.nodes[n].controls[0].port == "Pitch co-efficient";
    assert g.nodes[n + 1].name == "pitch_gain" && g.nodes[n + 1].controls[0].port == "Amps gain (dB)";
    assert "pitch" + ":" + "Pitch co-efficient" == "pitch:Pitch co-efficient";
    assert "pitch_gain" + ":" + "Amps gain (dB)" == "pitch_gain:Amps gain (dB)";
  }

  /** The port an equalizer UI band is sent to. */
  function EqParamName(i: nat): string
    requires i < |FC.EqBandToMbeqIndex|
  {
    FC.EqIndexTableIncreasing();
    "eq:" + FC.MbeqParamNames[FC.EqBandToMbeqIndex[i]]
  }

  /** `[max(-12.0, min(12.0, b)) for b in bands]` */
  function ClampBands(bands: seq<real>): (r: seq<real>)
    ensures |r| == |bands|
    ensures forall i :: 0 <= i < |r| ==> -12.0 <= r[i] <= 12.0
    ensures forall i :: 0 <= i < |r| && -12.0 <= bands[i] <= 12.0 ==> r[i] == bands[i]
  {
    seq(|bands|, i requires 0 <= i < |bands| => Validators.Clamp(bands[i], -12.0, 12.0))
  }

  /** The updates `set_eq_bands` queues: one per band, in band order. */
  function EqLiveUpdates(bands: seq<real>): (r: seq<Update>)
    requires |bands| <= |FC.EqBandToMbeqIndex|
  {
    seq(|bands|, i requires 0 <= i < |bands| => Update(EqParamName(i), bands[i]))
  }

  /**
   * For ten bands within +-12 dB, band i is sent to the port and with the
   * value that the generated equalizer node gives mbeq band EQ_BAND_TO_MBEQ_INDEX[i].
   */
  lemma EqLiveUpdatesMatchEqNode(bands: seq<real>, i: nat)
    requires |bands| == EQ_BAND_COUNT && i < |bands|
    requires forall j :: 0 <= j < |bands| ==> -12.0 <= bands[j] <= 12.0
    ensures var node := FC.EqNode(FC.DefaultFilterChainConfig.(eqBands := bands));
            var k := FC.EqBandToMbeqIndex[i];
            k < |node.controls| &&
            EqLiveUpdates(ClampBands(bands))[i] == Update("eq:" + node.controls[k].port, node.controls[k].value)
  {
    FC.EqIndexTableIncreasing();
    FC.MbeqValuesPlaceBand(bands, i);
  }

  /** A band beyond +-12 dB is written to the configuration as is but sent live clamped. */
  lemma EqLiveClampDiverges(bands: seq<real>)
    requires |bands| == EQ_BAND_COUNT && bands[0] == 20.0
    ensures FC.MbeqValues(bands)[0] == 20.0
    ensures EqLiveUpdates(ClampBands(bands))[0].value == 12.0
  {
    FC.MbeqValuesPlaceBand(bands, 0);
  }

  // ---------------------------------------------------------------------------
  // Settings mirrored by the service
  // ---------------------------------------------------------------------------

  datatype AudioState = AudioState(
    nrEnabled: bool, model: NoiseModel, strength: real,
    gateEnabled: bool, thresholdDb: int, rangeDb: int, attackMs: real, holdMs: real, releaseMs: real,
    stereoMode: StereoMode, stereoWidth: real, crossfeedEnabled: bool,
    eqEnabled: bool, eqBands: seq<real>)

  /** The state `__init__` sets. */
  const InitialAudio := AudioState(true, GtcrnLowLatency, 1.0, true, -36, -60, 10.0, 300.0, 150.0,
                                   Mono, 0.7, false, false, FlatBands())

  /** `sync_from_settings`: the stored mode is copied whether or not stereo is enabled. */
  function SyncedAudio(s: AppSettings): AudioState
  {
    AudioState(s.noiseReduction.enabled, s.noiseReduction.model, s.noiseReduction.strength,
               s.gate.enabled, s.gate.thresholdDb, s.gate.rangeDb, s.gate.attackMs, s.gate.holdMs, s.gate.releaseMs,
               s.stereo.mode, s.stereo.width, s.stereo.crossfeedEnabled,
               s.equalizer.enabled, s.equalizer.bands)
  }

  /** `_generate_config`'s field mapping: mono whenever stereo is disabled; transient and crossfeed level keep their defaults. */
  function ConfigFromSettings(s: AppSettings): (c: FC.FilterChainConfig)
    ensures c.stereoMode == FC.Mode(if s.stereo.enabled then s.stereo.mode else Mono)
    ensures c.eqBands == s.equalizer.bands && c.eqEnabled == s.equalizer.enabled
    ensures c.noiseReductionEnabled == s.noiseReduction.enabled && c.gateEnabled == s.gate.enabled
    ensures c.transientEnabled == FC.DefaultFilterChainConfig.transientEnabled
    ensures c.crossfeedLevel == FC.DefaultFilterChainConfig.crossfeedLevel
  {
    FC.FilterChainConfig(
      s.noiseReduction.enabled, s.noiseReduction.model, s.noiseReduction.strength,
      s.gate.enabled, s.gate.thresholdDb, s.gate.rangeDb, s.gate.attackMs, s.gate.holdMs, s.gate.releaseMs,
      FC.Mode(if s.stereo.enabled then s.stereo.mode else Mono), s.stereo.width, s.stereo.crossfeedEnabled,
      FC.DefaultFilterChainConfig.crossfeedLevel,
      s.equalizer.enabled, s.equalizer.bands,
      FC.DefaultFilterChainConfig.transientEnabled, FC.DefaultFilterChainConfig.transientAttack)
  }

  /** With stereo disabled in the settings, the service's configuration is a mono graph (or the pass-through one). */
  lemma StereoDisabledGivesMono(s: AppSettings, pow4: real -> real)
    requires !s.stereo.enabled
    ensures var g := FC.Compile(ConfigFromSettings(s), pow4);
            g == FC.PassthroughGraph || (g.title == "Mono output" && g.playbackPosition == ["MONO"] && g.channels == Some(1))
  {
  }

  /** The configuration text written for settings `s`. */
  function ConfigText(s: AppSettings, pow4: real -> real, fmt: (FC.NumberFormat, real) -> string): string
  {
    FC.Render(FC.Compile(ConfigFromSettings(s), pow4), fmt)
  }

  /**
   * The configuration file `start` leaves once the old one is gone: the one
   * written from the settings file when that loads and the write succeeds.
   */
  function StartedFile(stored: SettingsFile, writeOk: bool, pow4: real -> real,
                       fmt: (FC.NumberFormat, real) -> string): Option<string>
  {
    if LoadSettings(stored).Ok? && writeOk then Some(ConfigText(LoadSettings(stored).value, pow4, fmt)) else None
  }

  /** The mode `set_stereo_enabled` leaves: enabling turns mono into dual mono, disabling gives mono. */
  function ModeAfterStereoEnabled(mode: StereoMode, enabled: bool): StereoMode
  {
    if !enabled then Mono else if mode == Mono then DualMono else mode
  }

  /** `get_stereo_enabled` reads back what `set_stereo_enabled` set, and enabling keeps a non-mono mode. */
  lemma StereoEnabledRoundTrip(mode: StereoMode, enabled: bool)
    ensures (ModeAfterStereoEnabled(mode, enabled) != Mono) == enabled
    ensures enabled && mode != Mono ==> ModeAfterStereoEnabled(mode, enabled) == mode
  {
  }

  const BLUETOOTH_POLICY_FIRST_LINE := "wireplumber.settings = {\n"
  const BLUETOOTH_POLICY_KEY := "    bluetooth.autoswitch-to-headset-profile = "

  /** The policy file `set_bluetooth_autoswitch` writes, line by line. */
  function BluetoothPolicyText(enabled: bool): string
  {
    BLUETOOTH_POLICY_FIRST_LINE + (BLUETOOTH_POLICY_KEY + (if enabled then "true" else "false") + "\n}\n")
  }

  /** `get_bluetooth_autoswitch` on the policy file's text (None when the file is missing). */
  function BluetoothAutoswitch(policy: Option<string>): bool
  {
    policy.Some? && !Contains(policy.value, "false")
  }

  // ---------------------------------------------------------------------------
  // The service
  // ---------------------------------------------------------------------------

  /** The service's state besides the audio settings and the queue. */
  datatype IoState = IoState(updating: bool, cachedNodeId: Option<string>, configText: Option<string>,
                             issued: seq<PwCliCall>, bluetoothPolicy: Option<string>)

  class Service {
    var updating: bool
    var queue: seq<Update>
    var cachedNodeId: Option<string>

    /** The fourteen audio attributes `__init__` sets, from `_noise_reduction_enabled` to `_eq_bands`. */
    var audio: AudioState

    /** The filter-chain configuration file, None when it does not exist. */
    var configText: Option<string>
    /** The WirePlumber Bluetooth policy file, None when it does not exist. */
    var bluetoothPolicy: Option<string>
    /** The `pw-cli set-param` calls the worker has made, oldest first. */
    var issued: seq<PwCliCall>

    /** Every update ever queued, and those the worker has taken, in order. */
    ghost var enqueued: seq<Update>
    ghost var dequeued: seq<Update>

    /** The queue holds exactly the updates queued and not yet taken, in FIFO order. */
    ghost predicate Valid()
      reads this
    {
      enqueued == dequeued + queue
    }

    function Io(): IoState
      reads this
    {
      IoState(updating, cachedNodeId, configText, issued, bluetoothPolicy)
    }

    /** `is_enabled`: a process or source was seen, or else the configuration file exists. */
    predicate IsEnabled(p: Probe)
      reads this
    {
      ProcessSeen(p) || configText.Some?
    }

    /** `get_status` */
    function Status(p: Probe): (r: string)
      reads this
      ensures r == "enabled" <==> IsEnabled(p)
    {
      if IsEnabled(p) then "enabled" else "disabled"
    }

    /** `get_stereo_enabled` */
    predicate StereoEnabled()
      reads this
    {
      audio.stereoMode != Mono
    }

    /** `__init__`; `existingConfig` is the configuration file already on disk. */
    constructor (existingConfig: Option<string>, existingPolicy: Option<string>)
      ensures Valid() && queue == [] && enqueued == []
      ensures audio == InitialAudio
      ensures Io() == IoState(false, None, existingConfig, [], existingPolicy)
    {
      updating := false;
      queue := [];
      cachedNodeId := None;
      audio := InitialAudio;
      configText := existingConfig;
      bluetoothPolicy := existingPolicy;
      issued := [];
      enqueued, dequeued := [], [];
    }

    /** `sync_from_settings` */
    method SyncFromSettings(s: AppSettings)
      modifies this`audio
      ensures audio == SyncedAudio(s)
    {
      audio := SyncedAudio(s);
    }

    /** `_update_param_live`: put the update on the queue; always True. */
    method UpdateParamLive(param: string, value: real) returns (ok: bool)
      requires Valid()
      modifies this
      ensures Valid() && ok
      ensures queue == old(queue) + [Update(param, value)]
      ensures enqueued == old(enqueued) + [Update(param, value)] && dequeued == old(dequeued)
      ensures audio == old(audio) && Io() == old(Io())
    {
      queue := queue + [Update(param, value)];
      enqueued := enqueued + [Update(param, value)];
      ok := true;
    }

    /** `_get_filter_chain_node_id`: a truthy cached id, else the id of the first filter node, cached. */
    method GetFilterChainNodeId(dump: DumpResult) returns (id: Option<string>)
      modifies this`cachedNodeId
      ensures Truthy(old(cachedNodeId)) ==> id == old(cachedNodeId) && cachedNodeId == old(cachedNodeId)
      ensures !Truthy(old(cachedNodeId)) && (dump.DumpFailed? || dump.returnCode != 0) ==>
                id.None? && cachedNodeId == old(cachedNodeId)
      ensures !Truthy(old(cachedNodeId)) && dump.Dumped? && dump.returnCode == 0 ==>
                match FirstFilterNode(dump.objects)
                case None => id.None? && cachedNodeId == old(cachedNodeId)
                case Some(k) => id == Some(dump.objects[k].objectId.GetOr("")) && cachedNodeId == id
    {
      if Truthy(cachedNodeId) {
        return cachedNodeId;
      }
      if dump.DumpFailed? || dump.returnCode != 0 {
        return None;
      }
      var objs := dump.objects;
      var i := 0;
      while i < |objs|
        invariant 0 <= i <= |objs|
        invariant forall j :: 0 <= j < i ==> !IsFilterNode(objs[j])
        invariant cachedNodeId == old(cachedNodeId)
      {
        if IsFilterNode(objs[i]) {
          cachedNodeId := Some(objs[i].objectId.GetOr(""));
          return cachedNodeId;
        }
        i := i + 1;
      }
      id := None;
    }

    /**
     * `_perform_live_update`: without a (truthy) node id it fails; otherwise it
     * calls `pw-cli` (return code None when the call raised), and a non-zero
     * return code drops the cached id.
     */
    method PerformLiveUpdate(u: Update, dump: DumpResult, cliReturnCode: Option<int>) returns (ok: bool)
      modifies this`cachedNodeId, this`issued
      ensures var s := LiveUpdateStep(old(cachedNodeId), u, dump, cliReturnCode);
              issued == old(issued) + (if s.call.Some? then [s.call.value] else []) &&
              cachedNodeId == s.cache && ok == s.ok
    {
      var nodeId := GetFilterChainNodeId(dump);
      if !Truthy(nodeId) {
        return false;
      }
      issued := issued + [PwCliCall(nodeId.value, u.param, u.value)];
      if cliReturnCode.None? {
        return false;
      }
      if cliReturnCode.value == 0 {
        return true;
      }
      cachedNodeId := None;
      ok := false;
    }

    /** One turn of `_worker_loop`: take the oldest queued update and perform it. */
    method DrainOne(dump: DumpResult, cliReturnCode: Option<int>) returns (ok: bool)
      requires Valid() && queue != []
      modifies this
      ensures Valid()
      ensures queue == old(queue)[1..] && dequeued == old(dequeued) + [old(queue)[0]] && enqueued == old(enqueued)
      ensures audio == old(audio) && updating == old(updating) && configText == old(configText)
      ensures bluetoothPolicy == old(bluetoothPolicy)
      ensures var s := LiveUpdateStep(old(cachedNodeId), old(queue)[0], dump, cliReturnCode);
              issued == old(issued) + (if s.call.Some? then [s.call.value] else []) &&
              cachedNodeId == s.cache && ok == s.ok
    {
      var u := queue[0];
      queue := queue[1..];
      dequeued := dequeued + [u];
      ok := PerformLiveUpdate(u, dump, cliReturnCode);
    }

    /**
     * The worker running until the queue is empty: every pending update is
     * taken in the order it was queued; `dumps[k]` and `codes[k]` answer the k-th turn,
     * and the calls and the cache are those of `DrainCalls`.
     */
    method DrainAll(dumps: seq<DumpResult>, codes: seq<Option<int>>)
      requires Valid() && |dumps| == |queue| && |codes| == |queue|
      modifies this
      ensures Valid() && queue == []
      ensures dequeued == old(dequeued) + old(queue) && enqueued == old(enqueued)
      ensures audio == old(audio) && configText == old(configText)
      ensures var r := DrainCalls(old(queue), dumps, codes, old(cachedNodeId));
              issued == old(issued) + r.calls && cachedNodeId == r.cache
    {
      ghost var total := DrainCalls(queue, dumps, codes, cachedNodeId);
      var ds, cs := dumps, codes;
      while queue != []
        invariant Valid() && enqueued == old(enqueued) && |ds| == |queue| && |cs| == |queue|
        invariant audio == old(audio) && configText == old(configText)
        invariant old(issued) + total.calls == issued + DrainCalls(queue, ds, cs, cachedNodeId).calls
        invariant total.cache == DrainCalls(queue, ds, cs, cachedNodeId).cache
        decreases |queue|
      {
        ghost var before := issued;
        ghost var rest := queue;
        ghost var cache := cachedNodeId;
        ghost var s := LiveUpdateStep(cache, queue[0], ds[0], cs[0]);
        DrainCallsFirst(rest, ds, cs, cache, s);
        var _ := DrainOne(ds[0], cs[0]);
        ghost var step := if s.call.Some? then [s.call.value] else [];
        ghost var later := DrainCalls(queue, ds[1..], cs[1..], cachedNodeId);
        assert queue == rest[1..] && cachedNodeId == s.cache && issued == before + step;
        assert DrainCalls(rest, ds, cs, cache).calls == step + later.calls;
        assert issued + later.calls == before + (step + later.calls);
        ds, cs := ds[1..], cs[1..];
      }
    }

    // -------------------------------------------------------------------------
    // Setters
    // -------------------------------------------------------------------------

    /** `set_model`: queue the model's value when the chain is running. */
    method SetModel(m: NoiseModel, p: Probe) returns (ok: bool)
      requires Valid()
      modifies this
      ensures Valid() && ok && Io() == old(Io()) && dequeued == old(dequeued)
      ensures audio == old(audio).(model := m)
      ensures queue == old(queue) + (if IsEnabled(p) then [Update("ai:Model", NoiseModelValue(m) as real)] else [])
    {
      audio := audio.(model := m);
      ok := true;
      if IsEnabled(p) {
        ok := UpdateParamLive("ai:Model", NoiseModelValue(m) as real);
      }
    }

    /** `set_strength`: clamp to [0, 1]. */
    method SetStrength(x: real, p: Probe) returns (ok: bool)
      requires Valid()
      modifies this
      ensures Valid() && ok && Io() == old(Io()) && dequeued == old(dequeued)
      ensures audio == old(audio).(strength := Validators.Clamp(x, 0.0, 1.0))
      ensures queue == old(queue) + (if IsEnabled(p) then [Update("ai:Strength", audio.strength)] else [])
    {
      audio := audio.(strength := Validators.Clamp(x, 0.0, 1.0));
      ok := true;
      if IsEnabled(p) {
        ok := UpdateParamLive("ai:Strength", audio.strength);
      }
    }

    /** `set_gate_threshold`: clamp to [-60, 0] dB. */
    method SetGateThreshold(t: int, p: Probe) returns (ok: bool)
      requires Valid()
      modifies this
      ensures Valid() && ok && Io() == old(Io()) && dequeued == old(dequeued)
      ensures audio == old(audio).(thresholdDb := Validators.ClampInt(t, -60, 0))
      ensures queue == old(queue) + (if IsEnabled(p) then [Update("gate:Threshold (dB)", audio.thresholdDb as real)] else [])
    {
      audio := audio.(thresholdDb := Validators.ClampInt(t, -60, 0));
      ok := true;
      if IsEnabled(p) {
        ok := UpdateParamLive("gate:Threshold (dB)", audio.thresholdDb as real);
      }
    }

    /** `set_gate_range`: clamp to [-90, 0] dB. */
    method SetGateRange(r: int, p: Probe) returns (ok: bool)
      requires Valid()
      modifies this
      ensures Valid() && ok && Io() == old(Io()) && dequeued == old(dequeued)
      ensures audio == old(audio).(rangeDb := Validators.ClampInt(r, -90, 0))
      ensures queue == old(queue) + (if IsEnabled(p) then [Update("gate:Range (dB)", audio.rangeDb as real)] else [])
    {
      audio := audio.(rangeDb := Validators.ClampInt(r, -90, 0));
      ok := true;
      if IsEnabled(p) {
        ok := UpdateParamLive("gate:Range (dB)", audio.rangeDb as real);
      }
    }

    /** `set_gate_attack`: clamp to [0.1, 500] ms. */
    method SetGateAttack(ms: real, p: Probe) returns (ok: bool)
      requires Valid()
      modifies this
      ensures Valid() && ok && Io() == old(Io()) && dequeued == old(dequeued)
      ensures audio == old(audio).(attackMs := Validators.Clamp(ms, 0.1, 500.0))
      ensures queue == old(queue) + (if IsEnabled(p) then [Update("gate:Attack (ms)", audio.attackMs)] else [])
    {
      audio := audio.(attackMs := Validators.Clamp(ms, 0.1, 500.0));
      ok := true;
      if IsEnabled(p) {
        ok := UpdateParamLive("gate:Attack (ms)", audio.attackMs);
      }
    }

    /** `set_gate_hold`: clamp to [0, 1000] ms. */
    method SetGateHold(ms: real, p: Probe) returns (ok: bool)
      requires Valid()
      modifies this
      ensures Valid() && ok && Io() == old(Io()) && dequeued == old(dequeued)
      ensures audio == old(audio).(holdMs := Validators.Clamp(ms, 0.0, 1000.0))
      ensures queue == old(queue) + (if IsEnabled(p) then [Update("gate:Hold (ms)", audio.holdMs)] else [])
    {
      audio := audio.(holdMs := Validators.Clamp(ms, 0.0, 1000.0));
      ok := true;
      if IsEnabled(p) {
        ok := UpdateParamLive("gate:Hold (ms)", audio.holdMs);
      }
    }

    /** `set_gate_release`: clamp to [0, 1000] ms; the plugin calls it "Decay". */
    method SetGateRelease(ms: real, p: Probe) returns (ok: bool)
      requires Valid()
      modifies this
      ensures Valid() && ok && Io() == old(Io()) && dequeued == old(dequeued)
      ensures audio == old(audio).(releaseMs := Validators.Clamp(ms, 0.0, 1000.0))
      ensures queue == old(queue) + (if IsEnabled(p) then [Update("gate:Decay (ms)", audio.releaseMs)] else [])
    {
      audio := audio.(releaseMs := Validators.Clamp(ms, 0.0, 1000.0));
      ok := true;
      if IsEnabled(p) {
        ok := UpdateParamLive("gate:Decay (ms)", audio.releaseMs);
      }
    }

    /** `set_gate_enabled`: stored; the change needs a restart, so always True. */
    method SetGateEnabled(enabled: bool) returns (ok: bool)
      modifies this
      ensures ok && Io() == old(Io()) && queue == old(queue)
      ensures audio == old(audio).(gateEnabled := enabled)
      ensures enqueued == old(enqueued) && dequeued == old(dequeued)
    {
      audio := audio.(gateEnabled := enabled);
      ok := true;
    }

    /** `set_stereo_enabled` */
    method SetStereoEnabled(enabled: bool) returns (ok: bool)
      modifies this
      ensures ok && Io() == old(Io()) && queue == old(queue)
      ensures audio == old(audio).(stereoMode := ModeAfterStereoEnabled(old(audio.stereoMode), enabled))
      ensures StereoEnabled() == enabled
      ensures enqueued == old(enqueued) && dequeued == old(dequeued)
    {
      if enabled {
        if audio.stereoMode == Mono {
          audio := audio.(stereoMode := DualMono);
        }
      } else {
        audio := audio.(stereoMode := Mono);
      }
      ok := true;
    }

    /** `set_stereo_mode` */
    method SetStereoMode(mode: StereoMode) returns (ok: bool)
      modifies this
      ensures ok && Io() == old(Io()) && queue == old(queue)
      ensures audio == old(audio).(stereoMode := mode)
      ensures enqueued == old(enqueued) && dequeued == old(dequeued)
    {
      audio := audio.(stereoMode := mode);
      ok := true;
    }

    /** `set_crossfeed_enabled` */
    method SetCrossfeedEnabled(enabled: bool) returns (ok: bool)
      modifies this
      ensures ok && Io() == old(Io()) && queue == old(queue)
      ensures audio == old(audio).(crossfeedEnabled := enabled)
      ensures enqueued == old(enqueued) && dequeued == old(dequeued)
    {
      audio := audio.(crossfeedEnabled := enabled);
      ok := true;
    }

    /** `set_eq_enabled` */
    method SetEqEnabled(enabled: bool) returns (ok: bool)
      modifies this
      ensures ok && Io() == old(Io()) && queue == old(queue)
      ensures audio == old(audio).(eqEnabled := enabled)
      ensures enqueued == old(enqueued) && dequeued == old(dequeued)
    {
      audio := audio.(eqEnabled := enabled);
      ok := true;
    }

    /** Queue `updates` in order, as the `for param, val in updates.items()` loops do. */
    method QueueAll(updates: seq<Update>) returns (ok: bool)
      requires Valid()
      modifies this
      ensures Valid() && ok
      ensures queue == old(queue) + updates && dequeued == old(dequeued)
      ensures audio == old(audio) && Io() == old(Io())
    {
      var i := 0;
      while i < |updates|
        invariant Valid() && 0 <= i <= |updates|
        invariant queue == old(queue) + updates[..i] && dequeued == old(dequeued)
        invariant audio == old(audio) && Io() == old(Io())
      {
        var _ := UpdateParamLive(updates[i].param, updates[i].value);
        assert updates[..i + 1] == updates[..i] + [updates[i]];
        i := i + 1;
      }
      assert updates[..i] == updates;
      ok := true;
    }

    /**
     * `set_stereo_width`: clamp to [0, 1]; when running and not mono, queue the
     * mode's dependent parameters (the radio makeup gain as written, 6 + 6w dB).
     */
    method SetStereoWidth(w: real, p: Probe, pow4: real -> real) returns (ok: bool)
      requires Valid()
      modifies this
      ensures Valid() && ok && Io() == old(Io()) && dequeued == old(dequeued)
      ensures audio == old(audio).(stereoWidth := Validators.Clamp(w, 0.0, 1.0))
      ensures queue == old(queue) +
                (if IsEnabled(p) && StereoEnabled() then WidthLiveUpdates(audio.stereoMode, audio.stereoWidth, pow4) else [])
    {
      audio := audio.(stereoWidth := Validators.Clamp(w, 0.0, 1.0));
      if !IsEnabled(p) || !StereoEnabled() {
        return true;
      }
      ok := QueueAll(WidthLiveUpdates(audio.stereoMode, audio.stereoWidth, pow4));
    }

    /**
     * `set_eq_bands`: anything but ten bands is refused and changes nothing;
     * otherwise the bands are stored clamped to +-12 dB and, when running with
     * the equalizer on, queued band by band.
     */
    method SetEqBands(bands: seq<real>, p: Probe) returns (ok: bool)
      requires Valid()
      modifies this
      ensures Valid() && Io() == old(Io()) && dequeued == old(dequeued)
      ensures ok <==> |bands| == EQ_BAND_COUNT
      ensures !ok ==> audio == old(audio) && queue == old(queue)
      ensures ok ==> audio == old(audio).(eqBands := ClampBands(bands))
      ensures ok ==> queue == old(queue) + (if IsEnabled(p) && audio.eqEnabled then EqLiveUpdates(ClampBands(bands)) else [])
    {
      if |bands| != 10 {
        return false;
      }
      audio := audio.(eqBands := ClampBands(bands));
      if IsEnabled(p) && audio.eqEnabled {
        var i := 0;
        while i < |audio.eqBands|
          invariant Valid() && 0 <= i <= |audio.eqBands| && audio.eqBands == ClampBands(bands) && |audio.eqBands| == 10
          invariant queue == old(queue) + EqLiveUpdates(audio.eqBands)[..i] && dequeued == old(dequeued)
          invariant audio == old(audio).(eqBands := ClampBands(bands)) && Io() == old(Io())
        {
          var _ := UpdateParamLive(EqParamName(i), audio.eqBands[i]);
          assert EqLiveUpdates(audio.eqBands)[..i + 1] == EqLiveUpdates(audio.eqBands)[..i] + [Update(EqParamName(i), audio.eqBands[i])];
          i := i + 1;
        }
        assert EqLiveUpdates(audio.eqBands)[..i] == EqLiveUpdates(audio.eqBands);
      }
      ok := true;
    }

    /**
     * `set_eq_band`: an index outside 0..9 is refused; an index the stored list
     * does not reach raises IndexError; otherwise only that band changes.
     */
    method SetEqBand(index: int, v: real, p: Probe) returns (r: Result<bool>)
      requires Valid()
      modifies this
      ensures Valid() && Io() == old(Io()) && dequeued == old(dequeued)
      ensures r == Ok(false) <==> !(0 <= index < EQ_BAND_COUNT)
      ensures r.Err? <==> 0 <= index < EQ_BAND_COUNT && index >= |old(audio.eqBands)|
      ensures !r.Ok? || !r.value ==> audio == old(audio) && queue == old(queue)
      ensures r == Ok(true) ==>
                audio == old(audio).(eqBands := old(audio.eqBands)[index := Validators.Clamp(v, -12.0, 12.0)]) &&
                queue == old(queue) + (if IsEnabled(p) && audio.eqEnabled
                                       then [Update(EqParamName(index), Validators.Clamp(v, -12.0, 12.0))] else [])
    {
      if !(0 <= index < 10) {
        return Ok(false);
      }
      var value := Validators.Clamp(v, -12.0, 12.0);
      if index >= |audio.eqBands| {
        return Err("IndexError: list assignment index out of range");
      }
      audio := audio.(eqBands := audio.eqBands[index := value]);
      if IsEnabled(p) && audio.eqEnabled {
        var ok := UpdateParamLive(EqParamName(index), value);
        return Ok(ok);
      }
      r := Ok(true);
    }

    /** `set_bluetooth_autoswitch`: write the policy file; False when it cannot be written. */
    method SetBluetoothAutoswitch(enabled: bool, writable: bool) returns (ok: bool)
      modifies this`bluetoothPolicy
      ensures ok == writable
      ensures bluetoothPolicy == if writable then Some(BluetoothPolicyText(enabled)) else old(bluetoothPolicy)
    {
      if !writable {
        return false;
      }
      bluetoothPolicy := Some(BluetoothPolicyText(enabled));
      ok := true;
    }

    // -------------------------------------------------------------------------
    // Start, stop, restart, apply
    // -------------------------------------------------------------------------

    /**
     * `_stop_filter_chain`: kill the process, remove the configuration file,
     * drop the cached id. `removeOk` says whether unlinking the file succeeds;
     * a failed unlink raises before the cached id is dropped.
     */
    method StopFilterChain(removeOk: bool) returns (removed: bool)
      modifies this`configText, this`cachedNodeId
      ensures removed == (old(configText).None? || removeOk)
      ensures removed ==> configText.None? && cachedNodeId.None?
      ensures !removed ==> configText == old(configText) && cachedNodeId == old(cachedNodeId)
    {
      if configText.Some? && !removeOk {
        return false;
      }
      configText := None;
      cachedNodeId := None;
      removed := true;
    }

    /**
     * `_generate_config`: the given settings, or those loaded from the
     * settings file. A ValueError from loading, or a failed write of the file
     * (`writeOk` false, an OSError), leaves the file as it was.
     */
    method GenerateConfig(settings: Option<AppSettings>, stored: SettingsFile, writeOk: bool,
                          pow4: real -> real, fmt: (FC.NumberFormat, real) -> string) returns (r: Result<AppSettings>)
      modifies this`configText
      ensures r == (if settings.Some? then Ok(settings.value) else LoadSettings(stored))
      ensures r.Ok? && writeOk ==> configText == Some(ConfigText(r.value, pow4, fmt))
      ensures r.Err? || !writeOk ==> configText == old(configText)
    {
      r := if settings.Some? then Ok(settings.value) else LoadSettings(stored);
      if r.Err? || !writeOk {
        return;
      }
      var c := ConfigFromSettings(r.value);
      var g := FC.Generate(c, pow4);
      configText := Some(FC.Render(g, fmt));
    }

    /**
     * `start`: refused while busy. Otherwise it stops any running chain, syncs
     * the given settings, writes the configuration from the settings FILE,
     * spawns the process and polls `is_enabled` up to six times. Because
     * `is_enabled` falls back to the configuration file just written, the
     * first poll always succeeds: the result is whether the settings loaded,
     * the file was written (`writeOk`; an OSError is caught and gives False)
     * and the process spawned. A failed unlink of the old file (`removeOk`)
     * is caught as well: False, before anything else changed.
     */
    method Start(settings: Option<AppSettings>, stored: SettingsFile, removeOk: bool, writeOk: bool, spawned: bool,
                 poll: nat -> Probe,
                 pow4: real -> real, fmt: (FC.NumberFormat, real) -> string) returns (ok: bool)
      modifies this`updating, this`cachedNodeId, this`configText
      modifies this`audio
      ensures old(updating) ==> !ok && audio == old(audio) && Io() == old(Io())
      ensures !old(updating) ==> !updating
      ensures !old(updating) && old(configText).Some? && !removeOk ==>
                !ok && audio == old(audio) && configText == old(configText) && cachedNodeId == old(cachedNodeId)
      ensures !old(updating) && (old(configText).None? || removeOk) && settings.Some? ==> audio == SyncedAudio(settings.value)
      ensures settings.None? ==> audio == old(audio)
      ensures !old(updating) && (old(configText).None? || removeOk) ==>
                cachedNodeId.None? &&
                configText == StartedFile(stored, writeOk, pow4, fmt)
      ensures !old(updating) ==> ok == ((old(configText).None? || removeOk) && LoadSettings(stored).Ok? && writeOk && spawned)
    {
      if updating {
        return false;
      }
      updating := true;
      var removed := StopFilterChain(removeOk);
      if !removed {
        updating := false;
        return false;
      }
      ok := Launch(settings, stored, writeOk, spawned, poll, pow4, fmt);
      updating := false;
    }

    /** The rest of `start` once the old file is gone: sync the given settings, write the file, spawn and poll. */
    method Launch(settings: Option<AppSettings>, stored: SettingsFile, writeOk: bool, spawned: bool,
                  poll: nat -> Probe, pow4: real -> real, fmt: (FC.NumberFormat, real) -> string) returns (ok: bool)
      requires configText.None? && cachedNodeId.None?
      modifies this`audio, this`cachedNodeId, this`configText
      ensures audio == if settings.Some? then SyncedAudio(settings.value) else old(audio)
      ensures cachedNodeId.None? && configText == StartedFile(stored, writeOk, pow4, fmt)
      ensures ok == (LoadSettings(stored).Ok? && writeOk && spawned)
    {
      if settings.Some? {
        SyncFromSettings(settings.value);
      }
      var written := WriteFromSettingsFile(stored, writeOk, pow4, fmt);
      if written && spawned {
        ok := PollUntilEnabled(poll);
      } else {
        ok := false;
      }
    }

    /** The write in `start`, after the old file was removed: the configuration from the settings file, if any. */
    method WriteFromSettingsFile(stored: SettingsFile, writeOk: bool,
                                 pow4: real -> real, fmt: (FC.NumberFormat, real) -> string) returns (written: bool)
      requires configText.None?
      modifies this`configText
      ensures written == (LoadSettings(stored).Ok? && writeOk)
      ensures configText == StartedFile(stored, writeOk, pow4, fmt)
    {
      var loaded := GenerateConfig(None, stored, writeOk, pow4, fmt);
      written := loaded.Ok? && writeOk;
    }

    /**
     * The six polls of `start`: stop at the first one that finds the chain
     * enabled and drop the cached id. With the configuration file present the
     * first poll already succeeds.
     */
    method PollUntilEnabled(poll: nat -> Probe) returns (ok: bool)
      requires configText.Some?
      modifies this`cachedNodeId
      ensures ok && cachedNodeId.None?
    {
      ok := false;
      var i := 0;
      while i < 6 && !ok
        invariant 0 <= i <= 6
        invariant i > 0 ==> ok
        invariant ok ==> cachedNodeId.None?
      {
        ok := IsEnabled(poll(i));
        if ok {
          cachedNodeId := None;
        }
        i := i + 1;
      }
    }

    /**
     * `stop`: refused while busy; otherwise success is that nothing is seen
     * running any more. A failed unlink (`removeOk`) is caught: False, with
     * the file and the cached id kept.
     */
    method Stop(p: Probe, removeOk: bool) returns (ok: bool)
      requires Valid()
      modifies this
      ensures Valid() && queue == old(queue) && dequeued == old(dequeued) && issued == old(issued)
      ensures audio == old(audio) && bluetoothPolicy == old(bluetoothPolicy)
      ensures old(updating) ==> !ok && Io() == old(Io())
      ensures !old(updating) ==> !updating
      ensures !old(updating) && (old(configText).None? || removeOk) ==>
                configText.None? && cachedNodeId.None? && ok == !ProcessSeen(p)
      ensures !old(updating) && old(configText).Some? && !removeOk ==>
                !ok && configText == old(configText) && cachedNodeId == old(cachedNodeId)
    {
      if updating {
        return false;
      }
      updating := true;
      var removed := StopFilterChain(removeOk);
      ok := removed && !IsEnabled(p);
      updating := false;
    }

    /**
     * `_restart`: stop, then start from the settings file. When the old file
     * cannot be unlinked (`removeOk`), both steps fail and keep it.
     */
    method Restart(stopProbe: Probe, stored: SettingsFile, removeOk: bool, writeOk: bool, spawned: bool,
                   poll: nat -> Probe, pow4: real -> real, fmt: (FC.NumberFormat, real) -> string)
      requires Valid()
      modifies this
      ensures Valid() && queue == old(queue) && audio == old(audio)
      ensures !old(updating) ==> !updating
      ensures !old(updating) && (old(configText).None? || removeOk) ==>
                cachedNodeId.None? &&
                configText == StartedFile(stored, writeOk, pow4, fmt)
      ensures !old(updating) && old(configText).Some? && !removeOk ==>
                configText == old(configText) && cachedNodeId == old(cachedNodeId)
    {
      var _ := Stop(stopProbe, removeOk);
      var _ := Start(None, stored, removeOk, writeOk, spawned, poll, pow4, fmt);
    }

    /**
     * `apply_config`: sync and regenerate from the given settings (else the
     * settings file); restart only when the chain is running. The result tells
     * whether a restart was made; a ValueError while loading or an OSError
     * while writing (`writeOk` false) escapes and stops it early. Since
     * `is_enabled` falls back to the file just written, every successful
     * regeneration restarts, and the restart removes the file just written
     * (`removeOk`; when that fails, the file and the cached id stay) and
     * writes it from the settings file (`restartWriteOk`).
     */
    method ApplyConfig(settings: Option<AppSettings>, stored: SettingsFile, writeOk: bool, p: Probe,
                       stopProbe: Probe, removeOk: bool, restartWriteOk: bool, spawned: bool, poll: nat -> Probe,
                       pow4: real -> real, fmt: (FC.NumberFormat, real) -> string) returns (restarted: Result<bool>)
      requires Valid()
      modifies this
      ensures Valid() && queue == old(queue)
      ensures audio == if settings.Some? then SyncedAudio(settings.value) else old(audio)
      ensures restarted.Err? <==> (settings.None? && LoadSettings(stored).Err?) || !writeOk
      ensures restarted.Err? ==> configText == old(configText) && updating == old(updating) && cachedNodeId == old(cachedNodeId)
      ensures restarted.Ok? ==> restarted.value
      ensures restarted.Ok? && !old(updating) ==> !updating
      ensures restarted.Ok? && !old(updating) && removeOk ==>
                cachedNodeId.None? &&
                configText == StartedFile(stored, restartWriteOk, pow4, fmt)
      ensures restarted.Ok? && !old(updating) && !removeOk ==> configText.Some? && cachedNodeId == old(cachedNodeId)
    {
      var used := SyncAndGenerate(settings, stored, writeOk, pow4, fmt);
      if used.Err? {
        return Err(used.error);
      }
      if !writeOk {
        return Err("OSError");
      }
      if IsEnabled(p) {
        Restart(stopProbe, stored, removeOk, restartWriteOk, spawned, poll, pow4, fmt);
        return Ok(true);
      }
      restarted := Ok(false);
    }

    /** `_generate_config` seen from `apply_config`: which settings were used and whether the file was written. */
    method Regenerate(settings: Option<AppSettings>, stored: SettingsFile, writeOk: bool,
                      pow4: real -> real, fmt: (FC.NumberFormat, real) -> string) returns (used: Result<AppSettings>)
      modifies this`configText
      ensures used == (if settings.Some? then Ok(settings.value) else LoadSettings(stored))
      ensures used.Ok? && writeOk ==> configText.Some?
      ensures used.Err? || !writeOk ==> configText == old(configText)
    {
      used := GenerateConfig(settings, stored, writeOk, pow4, fmt);
    }

    /** The first half of `apply_config`: sync from the given settings, then write the configuration. */
    method SyncAndGenerate(settings: Option<AppSettings>, stored: SettingsFile, writeOk: bool,
                           pow4: real -> real, fmt: (FC.NumberFormat, real) -> string) returns (used: Result<AppSettings>)
      requires Valid()
      modifies this`audio, this`configText
      ensures Valid() && queue == old(queue)
      ensures audio == if settings.Some? then SyncedAudio(settings.value) else old(audio)
      ensures used == (if settings.Some? then Ok(settings.value) else LoadSettings(stored))
      ensures used.Ok? && writeOk ==> configText.Some?
      ensures used.Err? || !writeOk ==> configText == old(configText)
      ensures updating == old(updating) && cachedNodeId == old(cachedNodeId)
    {
      if settings.Some? {
        SyncFromSettings(settings.value);
      }
      used := Regenerate(settings, stored, writeOk, pow4, fmt);
    }
  }

  predicate NoF(s: string)
  {
    forall j :: 0 <= j < |s| ==> s[j] != 'f'
  }

  /** A text whose only 'f' is not followed by 'a' cannot contain "false". */
  lemma NoFalseAroundOneF(a: string, b: string, c: string)
    requires NoF(a) && NoF(b) && NoF(c) && |c| > 0 && c[0] != 'a'
    ensures !Contains(a + (b + "f" + c), "false")
  {
    var s := a + (b + "f" + c);
    forall i | 0 <= i <= |s|
      ensures !IsPrefix("false", s[i..])
    {
      if i + 1 < |s| {
        if i < |a| {
          assert s[i] == a[i];
        } else if i < |a| + |b| {
          assert s[i] == b[i - |a|];
        } else if i == |a| + |b| {
          assert s[i + 1] == c[0];
        } else {
          assert s[i] == c[i - |a| - |b| - 1];
        }
        if 5 <= |s[i..]| {
          assert s[i..][..5][0] == s[i] && s[i..][..5][1] == s[i + 1];
        }
      }
    }
  }

  /** `get_bluetooth_autoswitch` reads back what `set_bluetooth_autoswitch` wrote. */
  lemma BluetoothAutoswitchRoundTrip(enabled: bool)
    ensures BluetoothAutoswitch(Some(BluetoothPolicyText(enabled))) == enabled
    ensures !BluetoothAutoswitch(None)
  {
    var s := BluetoothPolicyText(enabled);
    if enabled {
      var b, c := "    bluetooth.autoswitch-to-headset-pro", "ile = true\n}\n";
      assert BLUETOOTH_POLICY_KEY + "true" + "\n}\n" == b + "f" + c;
      assert NoF(BLUETOOTH_POLICY_FIRST_LINE) && NoF(b) && NoF(c);
      NoFalseAroundOneF(BLUETOOTH_POLICY_FIRST_LINE, b, c);
    } else {
      var k := |BLUETOOTH_POLICY_FIRST_LINE| + |BLUETOOTH_POLICY_KEY|;
      assert s[k..][..5] == "false";
    }
  }
}

=== FILE: profile_service.dfy ===
/**
 * User audio profiles: the `Profile` record and the `ProfileService` that
 * keeps them in a dictionary, together with the active profile id.
 *
 * The dictionary is the map `profiles` plus `order`, its keys in insertion
 * order (Python dictionaries iterate in that order, which `list_profiles`
 * and `_save_profiles` expose). The four built-in profiles are inserted
 * first and can be neither modified nor deleted. The profiles file is the
 * field `saved`; fresh ids (`uuid4`) and timestamps (`datetime.now`) are
 * parameters.
 */
module ProfileService {
  import opened Wrappers
  import opened Strings
  import opened Config

  datatype Profile = Profile(
    id: string,
    name: string,
    description: string,
    createdAt: string,
    modifiedAt: string,
    noiseReductionEnabled: bool,
    noiseModel: string,
    noiseStrength: real,
    gateEnabled: bool,
    gateThreshold: real,
    gateAttack: real,
    gateRelease: real,
    stereoMode: string,
    stereoWidth: real,
    crossfeed: real,
    eqEnabled: bool,
    eqPreset: string,
    eqBands: seq<real>)

  /** `Profile(id=..., name=..., description=...)` with every other field at its default. */
  function NewProfile(id: string, name: string, description: string, now: string): Profile
  {
    Profile(id, name, description, now, now, true, "gtcrn", 0.7, true, -50.0, 5.0, 50.0,
            "mono", 0.5, 0.3, false, "flat", FlatBands())
  }

  /** `str(uuid.uuid4())[:8]`: eight lower-case hexadecimal digits. */
  predicate IsShortUuid(id: string)
  {
    |id| == 8 && forall i :: 0 <= i < |id| ==> id[i] in "0123456789abcdef"
  }

  /** The keys of `DEFAULT_PROFILES`, in their order. */
  const DefaultIds: seq<string> := ["voice_call", "music_recording", "podcast", "gaming"]

  /** `DEFAULT_PROFILES[id]`; `t` is when the class was created. */
  function DefaultProfile(id: string, t: string): (p: Profile)
    requires id in DefaultIds
    ensures p.id == id && |p.eqBands| == EQ_BAND_COUNT
  {
    var base := NewProfile(id, "", "", t);
    if id == "voice_call" then
      base.(name := "Voice Call", description := "Optimized for video calls and meetings",
            noiseModel := "gtcrn", noiseStrength := 0.8, gateEnabled := true, gateThreshold := -45.0,
            stereoMode := "mono", eqEnabled := true, eqPreset := "voice",
            eqBands := [2.0, 1.0, 0.0, 0.0, 3.0, 4.0, 3.0, 0.0, -1.0, -2.0])
    else if id == "music_recording" then
      base.(name := "Music Recording", description := "High quality for music and singing",
            noiseModel := "low_latency", noiseStrength := 0.4, gateEnabled := false,
            stereoMode := "dual_mono", stereoWidth := 0.7, eqEnabled := true, eqPreset := "warmth",
            eqBands := [3.0, 2.0, 1.0, 0.0, -1.0, 0.0, 1.0, 2.0, 3.0, 2.0])
    else if id == "podcast" then
      base.(name := "Podcast", description := "Clean voice for podcasting",
            noiseModel := "gtcrn", noiseStrength := 0.7, gateEnabled := true, gateThreshold := -50.0,
            gateAttack := 3.0, gateRelease := 100.0, stereoMode := "mono", eqEnabled := true,
            eqPreset := "podcast", eqBands := [0.0, -1.0, 0.0, 1.0, 2.0, 3.0, 3.0, 2.0, 0.0, -1.0])
    else
      base.(name := "Gaming", description := "Low latency for gaming communication",
            noiseModel := "low_latency", noiseStrength := 0.6, gateEnabled := true, gateThreshold := -55.0,
            gateAttack := 2.0, gateRelease := 30.0, stereoMode := "mono", eqEnabled := false)
  }

  /** A fresh id never collides with a built-in one. */
  lemma ShortUuidIsNotDefault(id: string)
    requires IsShortUuid(id)
    ensures id !in DefaultIds
  {
  }

  /** `create_profile` from an existing profile: every audio field copied, new id, name and description. */
  function CopyProfile(base: Profile, id: string, name: string, description: string, now: string): (p: Profile)
    ensures p.(id := base.id, name := base.name, description := base.description,
               createdAt := base.createdAt, modifiedAt := base.modifiedAt) == base
    ensures p.id == id && p.name == name && p.description == description
    ensures p.createdAt == now && p.modifiedAt == now
  {
    base.(id := id, name := name, description := description, createdAt := now, modifiedAt := now)
  }

  // ---------------------------------------------------------------------------
  // Lookups over the insertion order
  // ---------------------------------------------------------------------------

  /** The profiles stored under `keys`, in that order. */
  function Lookup(keys: seq<string>, m: map<string, Profile>): (r: seq<Profile>)
    requires forall i :: 0 <= i < |keys| ==> keys[i] in m
    ensures |r| == |keys| && forall i :: 0 <= i < |keys| ==> r[i] == m[keys[i]]
  {
    if keys == [] then [] else [m[keys[0]]] + Lookup(keys[1..], m)
  }

  lemma LookupAppend(a: seq<string>, b: seq<string>, m: map<string, Profile>)
    requires forall i :: 0 <= i < |a| ==> a[i] in m
    requires forall i :: 0 <= i < |b| ==> b[i] in m
    ensures Lookup(a + b, m) == Lookup(a, m) + Lookup(b, m)
  {
  }

  /** The keys that are built-in ids (`keepDefaults`) or that are not, in order. */
  function Filter(keys: seq<string>, keepDefaults: bool): (r: seq<string>)
    ensures forall k :: k in r <==> k in keys && (k in DefaultIds) == keepDefaults
    ensures |r| <= |keys|
  {
    if keys == [] then []
    else (if (keys[0] in DefaultIds) == keepDefaults then [keys[0]] else []) + Filter(keys[1..], keepDefaults)
  }

  lemma {:induction false} FilterAppend(a: seq<string>, b: seq<string>, keepDefaults: bool)
    ensures Filter(a + b, keepDefaults) == Filter(a, keepDefaults) + Filter(b, keepDefaults)
    decreases |a|
  {
    if a == [] {
      assert a + b == b;
    } else {
      assert (a + b)[0] == a[0];
      assert (a + b)[1..] == a[1..] + b;
      FilterAppend(a[1..], b, keepDefaults);
    }
  }

  lemma {:induction false} FilterAll(keys: seq<string>, keepDefaults: bool)
    requires forall k :: k in keys ==> (k in DefaultIds) == keepDefaults
    ensures Filter(keys, keepDefaults) == keys
    decreases |keys|
  {
    if keys != [] {
      FilterAll(keys[1..], keepDefaults);
    }
  }

  lemma {:induction false} FilterNone(keys: seq<string>, keepDefaults: bool)
    requires forall k :: k in keys ==> (k in DefaultIds) != keepDefaults
    ensures Filter(keys, keepDefaults) == []
    decreases |keys|
  {
    if keys != [] {
      FilterNone(keys[1..], keepDefaults);
    }
  }

  // ---------------------------------------------------------------------------
  // Sorting user profiles by lower-cased name
  // ---------------------------------------------------------------------------

  function Key(p: Profile): string
  {
    Lower(p.name)
  }

  predicate SortedByName(s: seq<Profile>)
  {
    forall i, j :: 0 <= i < j < |s| ==> LessOrEqual(Key(s[i]), Key(s[j]))
  }

  /** Insert `p` before the first profile whose key is not smaller. */
  function Insert(p: Profile, s: seq<Profile>): (r: seq<Profile>)
    ensures |r| == |s| + 1 && multiset(r) == multiset(s) + multiset{p}
  {
    if s == [] then [p]
    else if LessOrEqual(Key(p), Key(s[0])) then [p] + s
    else
      assert s == [s[0]] + s[1..];
      [s[0]] + Insert(p, s[1..])
  }

  lemma {:induction false} InsertKeepsSorted(p: Profile, s: seq<Profile>)
    requires SortedByName(s)
    ensures SortedByName(Insert(p, s))
    decreases |s|
  {
    if s != [] {
      if LessOrEqual(Key(p), Key(s[0])) {
        var r := [p] + s;
        forall i, j | 0 <= i < j < |r|
          ensures LessOrEqual(Key(r[i]), Key(r[j]))
        {
          if i == 0 && j > 1 {
            LessOrEqualTransitive(Key(p), Key(s[0]), Key(s[j - 1]));
          }
        }
      } else {
        LessOrEqualTotal(Key(p), Key(s[0]));
        InsertKeepsSorted(p, s[1..]);
        var t := Insert(p, s[1..]);
        var r := [s[0]] + t;
        forall j | 0 <= j < |t|
          ensures LessOrEqual(Key(s[0]), Key(t[j]))
        {
          assert t[j] in multiset(s[1..]) + multiset{p};
          if t[j] != p {
            assert t[j] in s[1..];
            var k :| 0 <= k < |s[1..]| && s[1..][k] == t[j];
            assert s[k + 1] == t[j];
          }
        }
        assert SortedByName(r);
      }
    }
  }

  /** `sorted(ps, key=lambda p: p.name.lower())`, by insertion. */
  function SortByName(ps: seq<Profile>): (r: seq<Profile>)
    ensures |r| == |ps| && multiset(r) == multiset(ps)
  {
    if ps == [] then []
    else
      assert ps == [ps[0]] + ps[1..];
      Insert(ps[0], SortByName(ps[1..]))
  }

  lemma {:induction false} SortByNameSorted(ps: seq<Profile>)
    ensures SortedByName(SortByName(ps))
    decreases |ps|
  {
    if ps != [] {
      SortByNameSorted(ps[1..]);
      InsertKeepsSorted(ps[0], SortByName(ps[1..]));
    }
  }

  // ---------------------------------------------------------------------------
  // Loading
  // ---------------------------------------------------------------------------

  /**
   * The profiles file as read: whether it names an active profile (and
   * which, possibly null) and its profile records in file order.
   */
  datatype ProfilesFile = ProfilesFile(hasActive: bool, active: Option<string>, profiles: seq<Profile>)

  /** What `_save_profiles` writes: the active id and the user profiles. */
  datatype SavedProfiles = SavedProfiles(active: Option<string>, profiles: seq<Profile>)

  /** The built-in profiles as a dictionary. */
  function DefaultMap(t: string): (m: map<string, Profile>)
    ensures forall k :: k in m <==> k in DefaultIds
    ensures forall k :: k in m ==> m[k] == DefaultProfile(k, t)
  {
    map k | k in DefaultIds :: DefaultProfile(k, t)
  }

  /** `self._profiles[p.id] = p` for each profile of the file, in order. */
  function LoadAll(m: map<string, Profile>, ps: seq<Profile>): (r: map<string, Profile>)
    ensures forall k :: k in r <==> k in m || exists j :: 0 <= j < |ps| && ps[j].id == k
  {
    if ps == [] then m else LoadAll(m, ps[..|ps| - 1])[ps[|ps| - 1].id := ps[|ps| - 1]]
  }

  /** A loaded id holds the LAST profile of the file with that id. */
  lemma {:induction false} LoadAllKeepsLast(m: map<string, Profile>, ps: seq<Profile>, j: nat)
    requires j < |ps| && forall l :: j < l < |ps| ==> ps[l].id != ps[j].id
    ensures LoadAll(m, ps)[ps[j].id] == ps[j]
    decreases |ps|
  {
    if j < |ps| - 1 {
      LoadAllKeepsLast(m, ps[..|ps| - 1], j);
    }
  }

  /** Ids the file does not mention keep their built-in profile. */
  lemma {:induction false} LoadAllKeepsOthers(m: map<string, Profile>, ps: seq<Profile>, k: string)
    requires k in m && forall l :: 0 <= l < |ps| ==> ps[l].id != k
    ensures LoadAll(m, ps)[k] == m[k]
    decreases |ps|
  {
    if ps != [] {
      LoadAllKeepsOthers(m, ps[..|ps| - 1], k);
    }
  }

  /** In a key order without repeats that starts with the built-in ids, no later key is built in. */
  lemma NoDefaultAfterPrefix(order: seq<string>)
    requires forall i, j :: 0 <= i < j < |order| ==> order[i] != order[j]
    requires |order| >= |DefaultIds| && order[..|DefaultIds|] == DefaultIds
    ensures forall k :: k in order[|DefaultIds|..] ==> k !in DefaultIds
  {
    var n := |DefaultIds|;
    forall k | k in order[n..]
      ensures k !in DefaultIds
    {
      var i :| 0 <= i < |order[n..]| && order[n..][i] == k;
      assert order[n + i] == k;
      forall d | 0 <= d < n
        ensures DefaultIds[d] != k
      {
        assert order[..n][d] == order[d];
      }
    }
  }

  lemma FilterDefaultsFirst(order: seq<string>)
    requires |order| >= |DefaultIds| && order[..|DefaultIds|] == DefaultIds
    requires forall k :: k in order[|DefaultIds|..] ==> k !in DefaultIds
    ensures Filter(order, true) == DefaultIds
    ensures Filter(order, false) == order[|DefaultIds|..]
  {
    FilterSplit(order, |DefaultIds|);
  }

  lemma DefaultIdsDistinct()
    ensures forall i, j :: 0 <= i < j < |DefaultIds| ==> DefaultIds[i] != DefaultIds[j]
  {
  }

  /** A key order that starts with the built-in ids holds every one of them. */
  lemma DefaultsInPrefix(order: seq<string>, k: string)
    requires |order| >= |DefaultIds| && order[..|DefaultIds|] == DefaultIds && k in DefaultIds
    ensures k in order
  {
    var i :| 0 <= i < |DefaultIds| && DefaultIds[i] == k;
    assert order[i] == order[..|DefaultIds|][i];
  }

  /** Built-in keys followed by user keys filter back into the two parts. */
  lemma FilterSplit(order: seq<string>, n: nat)
    requires n <= |order|
    requires forall k :: k in order[..n] ==> k in DefaultIds
    requires forall k :: k in order[n..] ==> k !in DefaultIds
    ensures Filter(order, true) == order[..n]
    ensures Filter(order, false) == order[n..]
  {
    var pre, rest := order[..n], order[n..];
    assert order == pre + rest;
    FilterAppend(pre, rest, true);
    FilterAll(pre, true);
    FilterNone(rest, true);
    assert Filter(order, true) == pre + [];
    FilterAppend(pre, rest, false);
    FilterNone(pre, false);
    FilterAll(rest, false);
    assert Filter(order, false) == [] + rest;
  }

  /** Removing the key at position `i` (not a built-in one) keeps the key order well formed. */
  lemma RemoveAt(order: seq<string>, i: nat)
    requires forall a, b :: 0 <= a < b < |order| ==> order[a] != order[b]
    requires |DefaultIds| <= i < |order| && order[..|DefaultIds|] == DefaultIds
    ensures var o := order[..i] + order[i + 1..];
            (forall k :: k in o <==> k in order && k != order[i]) &&
            (forall a, b :: 0 <= a < b < |o| ==> o[a] != o[b]) &&
            |o| >= |DefaultIds| && o[..|DefaultIds|] == DefaultIds
  {
    var o := order[..i] + order[i + 1..];
    assert forall a :: 0 <= a < |o| ==> o[a] == (if a < i then order[a] else order[a + 1]);
    assert o[..|DefaultIds|] == order[..|DefaultIds|];
    forall k | k in order && k != order[i]
      ensures k in o
    {
      var j :| 0 <= j < |order| && order[j] == k;
      if j < i {
        assert o[j] == k;
      } else {
        assert o[j - 1] == k;
      }
    }
  }

  // ---------------------------------------------------------------------------
  // The service
  // ---------------------------------------------------------------------------

  class ProfileService {
    var profiles: map<string, Profile>
    /** The keys of `profiles` in insertion order. */
    var order: seq<string>
    var activeId: Option<string>
    /** The profiles file, None until something is saved. */
    var saved: Option<SavedProfiles>

    /**
     * `order` lists each key of `profiles` once, and the built-in profiles
     * come first: they are inserted first and never removed.
     */
    ghost predicate Valid()
      reads this
    {
      (forall k :: k in profiles <==> k in order) &&
      (forall i, j :: 0 <= i < j < |order| ==> order[i] != order[j]) &&
      |order| >= |DefaultIds| && order[..|DefaultIds|] == DefaultIds
    }

    /** Every profile, in insertion order. */
    function Values(): (r: seq<Profile>)
      requires Valid()
      reads this
      ensures |r| == |order|
    {
      Lookup(order, profiles)
    }

    /** The user profiles in insertion order: what `_save_profiles` writes. */
    function UserProfiles(): (r: seq<Profile>)
      requires Valid()
      reads this
    {
      Lookup(Filter(order, false), profiles)
    }

    /** `list_profiles`: the built-in profiles in insertion order, then the user profiles sorted by name. */
    function ListProfiles(): (r: seq<Profile>)
      requires Valid()
      reads this
    {
      Lookup(Filter(order, true), profiles) + SortByName(UserProfiles())
    }

    /** The user keys are exactly the keys after the built-in ones. */
    lemma UserKeys()
      requires Valid()
      ensures Filter(order, true) == DefaultIds
      ensures Filter(order, false) == order[|DefaultIds|..]
    {
      NoDefaultAfterPrefix(order);
      FilterDefaultsFirst(order);
    }

    /**
     * `list_profiles` lists the four built-in profiles first, in their
     * order, then the user profiles sorted by lower-cased name; it lists
     * every stored profile exactly once.
     */
    lemma ListProfilesSpec()
      requires Valid()
      ensures var r := ListProfiles();
              |r| == |order| &&
              r[..|DefaultIds|] == Lookup(DefaultIds, profiles) &&
              SortedByName(r[|DefaultIds|..]) &&
              multiset(r) == multiset(Values())
    {
      UserKeys();
      var n := |DefaultIds|;
      assert order == DefaultIds + order[n..];
      LookupAppend(DefaultIds, order[n..], profiles);
      SortByNameSorted(UserProfiles());
      var r := ListProfiles();
      assert r[n..] == SortByName(UserProfiles());
    }

    /** `_save_profiles` writes exactly the user profiles, each once. */
    lemma UserProfilesSpec()
      requires Valid()
      ensures forall p :: p in UserProfiles() <==> exists k :: k in profiles && k !in DefaultIds && profiles[k] == p
      ensures |UserProfiles()| == |order| - |DefaultIds|
    {
      UserKeys();
      var u := UserProfiles();
      var n := |DefaultIds|;
      forall p
        ensures p in u <==> exists k :: k in profiles && k !in DefaultIds && profiles[k] == p
      {
        if p in u {
          var i :| 0 <= i < |u| && u[i] == p;
          assert order[n + i] in Filter(order, false);
        }
        if exists k :: k in profiles && k !in DefaultIds && profiles[k] == p {
          var k :| k in profiles && k !in DefaultIds && profiles[k] == p;
          assert k in Filter(order, false);
          var i :| 0 <= i < |order[n..]| && order[n..][i] == k;
          assert u[i] == p;
        }
      }
    }

    /** `__init__` and `_load_profiles`: the built-in profiles, then those of the file, if one was read. */
    constructor (file: Option<ProfilesFile>, t: string)
      ensures Valid() && saved.None?
      ensures profiles == LoadAll(DefaultMap(t), if file.Some? then file.value.profiles else [])
      ensures activeId == if file.Some? && file.value.hasActive then file.value.active else None
    {
      DefaultIdsDistinct();
      profiles := DefaultMap(t);
      order := DefaultIds;
      activeId := None;
      saved := None;
      new;
      assert Valid();
      if file.Some? {
        if file.value.hasActive {
          activeId := file.value.active;
        }
        LoadFileProfiles(file.value.profiles);
      }
    }

    /** The loop of `_load_profiles` over the file's profiles: each one stored under its id, in file order. */
    method LoadFileProfiles(ps: seq<Profile>)
      requires Valid()
      modifies this`profiles, this`order
      ensures Valid() && profiles == LoadAll(old(profiles), ps)
    {
      var i := 0;
      while i < |ps|
        invariant 0 <= i <= |ps|
        invariant Valid()
        invariant profiles == LoadAll(old(profiles), ps[..i])
      {
        assert ps[..i + 1][..i] == ps[..i];
        if ps[i].id in DefaultIds {
          DefaultsInPrefix(order, ps[i].id);
        }
        Put(ps[i]);
        i := i + 1;
      }
      assert ps[..|ps|] == ps;
    }

    /** `self._profiles[p.id] = p`: a new key goes last, an existing one keeps its place. */
    method Put(p: Profile)
      requires Valid()
      requires p.id in DefaultIds ==> p.id in profiles
      modifies this`profiles, this`order
      ensures Valid() && profiles == old(profiles)[p.id := p]
      ensures order == if p.id in old(profiles) then old(order) else old(order) + [p.id]
    {
      if p.id !in profiles {
        order := order + [p.id];
      }
      profiles := profiles[p.id := p];
    }

    /**
     * `_save_profiles`: `writeOk` is whether writing and moving the temporary
     * file succeeds; a failure is logged and leaves the old file in place.
     */
    method SaveProfiles(writeOk: bool)
      requires Valid()
      modifies this`saved
      ensures saved == if writeOk then Some(SavedProfiles(activeId, UserProfiles())) else old(saved)
    {
      if writeOk {
        saved := Some(SavedProfiles(activeId, UserProfiles()));
      }
    }

    /** `get_profile` */
    function GetProfile(id: string): (r: Option<Profile>)
      reads this
      ensures r.Some? <==> id in profiles
      ensures r.Some? ==> r.value == profiles[id]
    {
      if id in profiles then Some(profiles[id]) else None
    }

    /** `get_active_profile`: an empty or unknown active id gives None. */
    function GetActiveProfile(): (r: Option<Profile>)
      reads this
      ensures r.Some? <==> activeId.Some? && activeId.value != "" && activeId.value in profiles
      ensures r.Some? ==> r.value == profiles[activeId.value]
    {
      if activeId.Some? && activeId.value != "" then GetProfile(activeId.value) else None
    }

    /** `set_active_profile`: an unknown id is ignored; None clears the active profile. */
    method SetActiveProfile(id: Option<string>, writeOk: bool)
      requires Valid()
      modifies this`activeId, this`saved
      ensures id.Some? && id.value !in profiles ==> activeId == old(activeId) && saved == old(saved)
      ensures id.None? || id.value in profiles ==>
                activeId == id && saved == if writeOk then Some(SavedProfiles(id, UserProfiles())) else old(saved)
      ensures id.Some? && id.value in profiles && id.value != "" ==> GetActiveProfile() == Some(profiles[id.value])
    {
      if id.Some? && id.value !in profiles {
        return;
      }
      activeId := id;
      SaveProfiles(writeOk);
    }

    /**
     * `create_profile`: a copy of an existing base profile (a truthy id
     * that is present), else the default fields; stored under the fresh id.
     */
    method CreateProfile(name: string, description: string, baseId: Option<string>, newId: string, now: string,
                         writeOk: bool)
      returns (p: Profile)
      requires Valid() && IsShortUuid(newId)
      modifies this`profiles, this`order, this`saved
      ensures Valid()
      ensures baseId.Some? && baseId.value != "" && baseId.value in old(profiles) ==>
                p == CopyProfile(old(profiles)[baseId.value], newId, name, description, now)
      ensures !(baseId.Some? && baseId.value != "" && baseId.value in old(profiles)) ==>
                p == NewProfile(newId, name, description, now)
      ensures profiles == old(profiles)[newId := p]
      ensures saved == if writeOk then Some(SavedProfiles(activeId, UserProfiles())) else old(saved)
    {
      if baseId.Some? && baseId.value != "" && baseId.value in profiles {
        p := CopyProfile(profiles[baseId.value], newId, name, description, now);
      } else {
        p := NewProfile(newId, name, description, now);
      }
      ShortUuidIsNotDefault(newId);
      Put(p);
      SaveProfiles(writeOk);
    }

    /** `update_profile`: a missing or built-in id is ignored; otherwise only that entry changes. */
    method UpdateProfile(p: Profile, now: string, writeOk: bool)
      requires Valid()
      modifies this`profiles, this`saved
      ensures Valid() && order == old(order)
      ensures p.id !in old(profiles) || p.id in DefaultIds ==> profiles == old(profiles) && saved == old(saved)
      ensures p.id in old(profiles) && p.id !in DefaultIds ==>
                profiles == old(profiles)[p.id := p.(modifiedAt := now)] &&
                saved == if writeOk then Some(SavedProfiles(activeId, UserProfiles())) else old(saved)
    {
      if p.id !in profiles {
        return;
      }
      if p.id in DefaultIds {
        return;
      }
      profiles := profiles[p.id := p.(modifiedAt := now)];
      SaveProfiles(writeOk);
    }

    /**
     * `delete_profile`: False for a built-in or missing id, with nothing
     * changed; otherwise the entry is removed (and the active id cleared when
     * it was the active one).
     */
    method DeleteProfile(id: string, writeOk: bool) returns (deleted: bool)
      requires Valid()
      modifies this`profiles, this`order, this`activeId, this`saved
      ensures Valid()
      ensures deleted <==> id in old(profiles) && id !in DefaultIds
      ensures !deleted ==> profiles == old(profiles) && order == old(order) && activeId == old(activeId) &&
                           saved == old(saved)
      ensures deleted ==> profiles == old(profiles) - {id} && id !in order &&
                          activeId == (if old(activeId) == Some(id) then None else old(activeId)) &&
                          saved == if writeOk then Some(SavedProfiles(activeId, UserProfiles())) else old(saved)
    {
      if id in DefaultIds {
        return false;
      }
      if id !in profiles {
        return false;
      }
      if activeId == Some(id) {
        activeId := None;
      }
      var i :| 0 <= i < |order| && order[i] == id;
      assert forall d :: 0 <= d < |DefaultIds| ==> order[d] == order[..|DefaultIds|][d];
      RemoveAt(order, i);
      order := order[..i] + order[i + 1..];
      profiles := profiles - {id};
      SaveProfiles(writeOk);
      deleted := true;
    }

    /**
     * `duplicate_profile`: None for a missing id; otherwise a copy named
     * `new_name`, or when that is empty or None the original name plus " (Copy)".
     */
    method DuplicateProfile(id: string, newName: Option<string>, newId: string, now: string, writeOk: bool)
      returns (r: Option<Profile>)
      requires Valid() && IsShortUuid(newId)
      modifies this`profiles, this`order, this`saved
      ensures Valid()
      ensures id !in old(profiles) ==> r.None? && profiles == old(profiles) && saved == old(saved)
      ensures id in old(profiles) ==>
                var original := old(profiles)[id];
                var name := if newName.Some? && newName.value != "" then newName.value else original.name + " (Copy)";
                r.Some? && r.value.name == name && r.value.description == original.description &&
                (id != "" ==> r.value == CopyProfile(original, newId, name, original.description, now)) &&
                profiles == old(profiles)[newId := r.value] &&
                saved == if writeOk then Some(SavedProfiles(activeId, UserProfiles())) else old(saved)
    {
      if id !in profiles {
        return None;
      }
      var original := profiles[id];
      var name := if newName.Some? && newName.value != "" then newName.value else original.name + " (Copy)";
      var p := CreateProfile(name, original.description, Some(id), newId, now, writeOk);
      r := Some(p);
    }

    /** `export_profile`: False for a missing id or a failed write. */
    method ExportProfile(id: string, writable: bool) returns (ok: bool, written: Option<Profile>)
      ensures ok <==> id in profiles && writable
      ensures ok ==> written == Some(profiles[id])
      ensures !ok ==> written.None?
    {
      if id !in profiles || !writable {
        return false, None;
      }
      return true, Some(profiles[id]);
    }

    /**
     * `import_profile`: the file's profile under a fresh id, its name (or
     * "Imported") followed by " (Imported)", with fresh timestamps; None when
     * the file cannot be read.
     */
    method ImportProfile(file: Option<(Option<string>, Profile)>, newId: string, now: string, writeOk: bool)
      returns (r: Option<Profile>)
      requires Valid() && IsShortUuid(newId)
      modifies this`profiles, this`order, this`saved
      ensures Valid()
      ensures file.None? ==> r.None? && profiles == old(profiles) && saved == old(saved)
      ensures file.Some? ==>
                r == Some(file.value.1.(id := newId, name := file.value.0.GetOr("Imported") + " (Imported)",
                                        createdAt := now, modifiedAt := now)) &&
                profiles == old(profiles)[newId := r.value] && newId in order &&
                saved == if writeOk then Some(SavedProfiles(activeId, UserProfiles())) else old(saved)
    {
      if file.None? {
        return None;
      }
      var p := file.value.1.(id := newId, name := file.value.0.GetOr("Imported") + " (Imported)",
                             createdAt := now, modifiedAt := now);
      ShortUuidIsNotDefault(newId);
      Put(p);
      SaveProfiles(writeOk);
      r := Some(p);
    }

    /**
     * `apply_profile`: False for a missing id. Otherwise the given settings
     * records take the profile's values (an unknown stereo mode string gives
     * MONO) and the profile becomes the active one, which saves the profile
     * file with that id as active.
     */
    method ApplyProfile(id: string, noise: Option<NoiseReductionConfig>, stereo: Option<StereoConfig>,
                        eq: Option<EqualizerConfig>, writeOk: bool)
      returns (ok: bool, noise': Option<NoiseReductionConfig>, stereo': Option<StereoConfig>,
               eq': Option<EqualizerConfig>)
      requires Valid()
      modifies this`activeId, this`saved
      ensures !ok <==> id !in profiles
      ensures !ok ==> noise' == noise && stereo' == stereo && eq' == eq && activeId == old(activeId) && saved == old(saved)
      ensures ok ==> activeId == Some(id) &&
                     saved == if writeOk then Some(SavedProfiles(Some(id), UserProfiles())) else old(saved)
      ensures ok && noise.Some? ==>
                noise' == Some(noise.value.(enabled := profiles[id].noiseReductionEnabled,
                                            strength := profiles[id].noiseStrength))
      ensures ok && stereo.Some? ==>
                stereo' == Some(stereo.value.(mode := StereoModeFromValue(profiles[id].stereoMode).GetOr(Mono),
                                              width := profiles[id].stereoWidth))
      ensures ok && eq.Some? ==>
                eq' == Some(eq.value.(enabled := profiles[id].eqEnabled, bands := profiles[id].eqBands))
      ensures noise.None? ==> noise'.None?
      ensures stereo.None? ==> stereo'.None?
      ensures eq.None? ==> eq'.None?
    {
      if id !in profiles {
        return false, noise, stereo, eq;
      }
      var p := profiles[id];
      noise' := if noise.Some? then Some(noise.value.(enabled := p.noiseReductionEnabled, strength := p.noiseStrength))
                else None;
      var mode := StereoModeFromValue(p.stereoMode);
      stereo' := if stereo.Some? then Some(stereo.value.(mode := mode.GetOr(Mono), width := p.stereoWidth))
                 else None;
      eq' := if eq.Some? then Some(eq.value.(enabled := p.eqEnabled, bands := p.eqBands)) else None;
      SetActiveProfile(Some(id), writeOk);
      ok := true;
    }
  }
}

=== FILE: pynum.dfy ===
/** The Python numeric built-ins the program relies on, over `real` and `int`. */
module PyNum {
  /** `int(x)` on a float: truncation toward zero. */
  function Trunc(x: real): (r: int)
    ensures 0.0 <= x ==> 0 <= r && r as real <= x < r as real + 1.0
    ensures x < 0.0 ==> r <= 0 && r as real - 1.0 < x <= r as real
  {
    if 0.0 <= x then x.Floor else -((-x).Floor)
  }

  /** `max(a, b)` */
  function Max(a: real, b: real): (r: real)
    ensures r >= a && r >= b && (r == a || r == b)
  {
    if a >= b then a else b
  }

  /** `min(a, b)` */
  function Min(a: real, b: real): (r: real)
    ensures r <= a && r <= b && (r == a || r == b)
  {
    if a <= b then a else b
  }

  /** `max(s)` of a nonempty list. */
  function MaxOf(s: seq<real>): (r: real)
    requires |s| > 0
    ensures forall i :: 0 <= i < |s| ==> r >= s[i]
    ensures exists i :: 0 <= i < |s| && r == s[i]
  {
    if |s| == 1 then s[0]
    else
      var rest := MaxOf(s[1..]);
      assert forall i :: 1 <= i < |s| ==> s[i] == s[1..][i - 1];
      Max(s[0], rest)
  }

  /** `max(0.0, min(1.0, x))` */
  function Clamp01(x: real): (r: real)
    ensures 0.0 <= r <= 1.0
    ensures 0.0 <= x <= 1.0 ==> r == x
    ensures x < 0.0 ==> r == 0.0
    ensures x > 1.0 ==> r == 1.0
  {
    Max(0.0, Min(1.0, x))
  }

  // Multiplication facts the solver needs stated on their own.

  lemma MulLe(a: int, b: int, n: nat)
    requires a <= b
    ensures a * n <= b * n
  {
  }

  lemma MulLt(a: int, b: int, n: int)
    requires a < b && n > 0
    ensures a * n < b * n
  {
  }

  lemma CancelLt(a: int, b: int, m: int)
    requires m > 0 && a * m < b * m
    ensures a < b
  {
  }

  lemma CancelLe(a: int, b: int, m: int)
    requires m > 0 && a * m <= b * m
    ensures a <= b
  {
  }

  lemma RealMulStep(k: real, d: real)
    requires 0.0 <= k && 0.0 <= d
    ensures (k + 1.0) * d == k * d + d && 0.0 <= k * d
  {
  }
}

=== FILE: spectrum_widget.dfy ===
/**
 * The spectrum analyzer widget's state: the displayed and target band
 * heights, the per-band peak markers with their hold counters, and the
 * overall peak meter with its peak hold. Drawing (Cairo, colours, layout)
 * is not modelled; the numbers the drawing shows are.
 */
module SpectrumWidget {
  import opened PyNum

  const SPECTRUM_NUM_BANDS: nat := 30
  const SMOOTH_FACTOR: real := 0.45
  /** How far a displayed band must be from its target before it moves. */
  const MOVE_THRESHOLD: real := 0.001
  /** A band's peak marker: held 40 frames, then falls by 0.01 per frame. */
  const BAND_HOLD_FRAMES: nat := 40
  const BAND_PEAK_DECAY: real := 0.01
  /** The meter's peak hold: held 60 frames, then falls by 0.005 per frame. */
  const METER_HOLD_FRAMES: nat := 60
  const METER_HOLD_DECAY: real := 0.005
  /** The meter's level falls by 0.01 per frame and is never held. */
  const METER_LEVEL_DECAY: real := 0.01
  /** Meter ratios at or below this show as the floor of the scale. */
  const METER_FLOOR_RATIO: real := 0.0001

  // ---------------------------------------------------------------------------
  // set_bands: resampling the input onto the widget's bands
  // ---------------------------------------------------------------------------

  /**
   * `min(int(i * n / m), n - 1)`: the input band shown at widget band `i`
   * of `m`, for `n` input bands. Band `i` lies in input slot `j` of the
   * interval [0, m) cut into `n` slots, so the `min` never applies.
   */
  function SourceIndex(i: nat, n: nat, m: nat): (j: nat)
    requires i < m && n > 0
    ensures j < n
    ensures j * m <= i * n < (j + 1) * m
  {
    SourceIndexFacts(i, n, m);
    var q := i * n / m;
    if q < n - 1 then q else n - 1
  }

  lemma SourceIndexFacts(i: nat, n: nat, m: nat)
    requires i < m && n > 0
    ensures (i * n / m) * m <= i * n < (i * n / m + 1) * m
    ensures i * n / m < n
  {
    var q := i * n / m;
    var r := i * n % m;
    assert i * n == q * m + r && 0 <= r < m;
    MulLt(i, m, n);
    assert q * m < n * m;
    CancelLt(q, n, m);
  }

  /** The widget shows the input bands in order: a later widget band never shows an earlier input band. */
  lemma {:induction false} SourceIndexMonotone(i: nat, i': nat, n: nat, m: nat)
    requires i <= i' < m && n > 0
    ensures SourceIndex(i, n, m) <= SourceIndex(i', n, m)
  {
    var j := SourceIndex(i, n, m);
    var j' := SourceIndex(i', n, m);
    MulLe(i, i', n);
    CancelLt(j, j' + 1, m);
  }

  /** With as many input bands as widget bands, every band shows its own input. */
  lemma SourceIndexIdentity(i: nat, m: nat)
    requires i < m
    ensures SourceIndex(i, m, m) == i
  {
    var j := SourceIndex(i, m, m);
    CancelLe(j, i, m);
    CancelLt(i, j + 1, m);
  }

  /** The target of widget band `i` of `m` for the input `bs`. */
  function Target(bs: seq<real>, i: nat, m: nat): (t: real)
    requires |bs| > 0 && i < m
    ensures 0.0 <= t <= 1.0
  {
    if |bs| == m then Clamp01(bs[i]) else Clamp01(bs[SourceIndex(i, |bs|, m)])
  }

  /** The targets `set_bands` writes. */
  function Resample(bs: seq<real>, m: nat): (ts: seq<real>)
    requires |bs| > 0
    ensures |ts| == m
    ensures forall i :: 0 <= i < m ==> ts[i] == Target(bs, i, m)
  {
    seq(m, i requires 0 <= i < m => Target(bs, i, m))
  }

  /**
   * Every target lies in [0, 1], is the clamped value of some input band,
   * and the same-length shortcut agrees with the general rule.
   */
  lemma ResampleMeaning(bs: seq<real>, m: nat)
    requires |bs| > 0
    ensures forall i :: 0 <= i < m ==> 0.0 <= Resample(bs, m)[i] <= 1.0
    ensures forall i :: 0 <= i < m ==> Resample(bs, m)[i] == Clamp01(bs[SourceIndex(i, |bs|, m)])
    ensures |bs| == m ==> forall i :: 0 <= i < m ==> Resample(bs, m)[i] == Clamp01(bs[i])
  {
    forall i | 0 <= i < m
      ensures Resample(bs, m)[i] == Clamp01(bs[SourceIndex(i, |bs|, m)])
    {
      if |bs| == m {
        SourceIndexIdentity(i, m);
      }
    }
  }

  // ---------------------------------------------------------------------------
  // _animate: smoothing and peak hold
  // ---------------------------------------------------------------------------

  /** A displayed band moves 45% of the way toward its target, unless it is within 0.001. */
  function NextBand(band: real, target: real): (r: real)
    ensures Min(band, target) <= r <= Max(band, target)
    ensures Abs(target - band) > MOVE_THRESHOLD ==> Abs(target - r) == (1.0 - SMOOTH_FACTOR) * Abs(target - band)
    ensures Abs(target - band) <= MOVE_THRESHOLD ==> r == band
  {
    var diff := target - band;
    if Abs(diff) > MOVE_THRESHOLD then band + diff * SMOOTH_FACTOR else band
  }

  function Abs(x: real): real
  {
    if x < 0.0 then -x else x
  }

  /** A peak marker: its value and the frames it is still held for. */
  datatype Held = Held(value: real, time: int)

  /**
   * One frame of a held peak: a new high is taken and held for `frames`
   * frames; while held the peak stays; afterwards it falls by `decay`,
   * never below 0.
   */
  function HoldStep(h: Held, x: real, frames: nat, decay: real): (r: Held)
    ensures r.value >= x || (x <= h.value && h.time <= 0)
    ensures 0.0 <= decay && 0.0 <= h.value ==> r.value <= Max(h.value, x)
    ensures 0.0 <= h.value && 0.0 <= x ==> 0.0 <= r.value
    ensures 0 <= h.time <= frames ==> 0 <= r.time <= frames
    ensures x > h.value ==> r.time == frames
  {
    if x > h.value then Held(x, frames)
    else if h.time > 0 then Held(h.value, h.time - 1)
    else Held(Max(0.0, h.value - decay), h.time)
  }

  /** The held peak after the frames `xs`, first to last. */
  function HoldRun(h: Held, xs: seq<real>, frames: nat, decay: real): Held
    decreases |xs|
  {
    if xs == [] then h else HoldRun(HoldStep(h, xs[0], frames, decay), xs[1..], frames, decay)
  }

  /** While no frame exceeds the held peak, it stays for as many frames as its counter says. */
  lemma {:induction false} HoldLasts(h: Held, xs: seq<real>, frames: nat, decay: real)
    requires |xs| <= h.time
    requires forall k :: 0 <= k < |xs| ==> xs[k] <= h.value
    ensures HoldRun(h, xs, frames, decay) == Held(h.value, h.time - |xs|)
    decreases |xs|
  {
    if xs != [] {
      HoldLasts(Held(h.value, h.time - 1), xs[1..], frames, decay);
    }
  }

  /** Frames in which nothing is heard. */
  predicate Silent(xs: seq<real>)
  {
    forall k :: 0 <= k < |xs| ==> xs[k] == 0.0
  }

  /** `v` after falling by `d` per frame for `k` frames, never below 0. */
  function Fallen(v: real, k: nat, d: real): real
    decreases k
  {
    if k == 0 then v else Fallen(Max(0.0, v - d), k - 1, d)
  }

  /** Falling by `d` for `k` frames is falling by `k * d`, floored at 0. */
  lemma {:induction false} FallenClosedForm(v: real, k: nat, d: real)
    requires 0.0 <= v && 0.0 <= d
    ensures Fallen(v, k, d) == Max(0.0, v - k as real * d)
    decreases k
  {
    if k > 0 {
      FallenClosedForm(Max(0.0, v - d), k - 1, d);
      DecayCompose(v, d, (k - 1) as real);
    }
  }

  /** Falling by `d` and then by `k * d` is falling by `(k + 1) * d`, floored at 0 either way. */
  lemma DecayCompose(v: real, d: real, k: real)
    requires 0.0 <= d && 0.0 <= k
    ensures Max(0.0, Max(0.0, v - d) - k * d) == Max(0.0, v - (k + 1.0) * d)
  {
    RealMulStep(k, d);
  }

  /** Once the hold has run out, each silent frame takes `decay` off the peak, down to 0. */
  lemma {:induction false} DecayAfterHold(h: Held, xs: seq<real>, frames: nat, decay: real)
    requires h.time == 0 && 0.0 <= h.value && 0.0 <= decay && Silent(xs)
    ensures HoldRun(h, xs, frames, decay) == Held(Fallen(h.value, |xs|, decay), 0)
    decreases |xs|
  {
    if xs != [] {
      assert xs[0] == 0.0;
      var h' := HoldStep(h, xs[0], frames, decay);
      assert h' == Held(Max(0.0, h.value - decay), 0);
      assert Silent(xs[1..]) by {
        forall k | 0 <= k < |xs[1..]| ensures xs[1..][k] == 0.0 {
          assert xs[1..][k] == xs[k + 1];
        }
      }
      DecayAfterHold(h', xs[1..], frames, decay);
    }
  }

  /**
   * A new high `x` followed by silence is shown unchanged for `frames`
   * frames, then falls by `decay` per frame (by FallenClosedForm, by
   * `k * decay` after `k` frames), floored at 0.
   */
  lemma NewPeakHeldThenDecays(h: Held, x: real, quiet: seq<real>, frames: nat, decay: real)
    requires x > h.value && 0.0 <= x && 0.0 <= decay && Silent(quiet) && |quiet| >= frames
    ensures HoldRun(h, [x] + quiet, frames, decay) == Held(Fallen(x, |quiet| - frames, decay), 0)
  {
    var held := HoldStep(h, x, frames, decay);
    assert held == Held(x, frames);
    var run := [x] + quiet;
    assert run[0] == x && run[1..] == quiet;
    assert HoldRun(h, run, frames, decay) == HoldRun(held, quiet, frames, decay);
    var during, after := quiet[..frames], quiet[frames..];
    assert during + after == quiet;
    HoldRunAppend(held, during, after, frames, decay);
    assert forall k :: 0 <= k < |during| ==> during[k] == quiet[k];
    HoldLasts(held, during, frames, decay);
    assert HoldRun(held, during, frames, decay) == Held(x, 0);
    assert forall k :: 0 <= k < |after| ==> after[k] == quiet[k + frames];
    DecayAfterHold(Held(x, 0), after, frames, decay);
  }

  lemma {:induction false} HoldRunAppend(h: Held, xs: seq<real>, ys: seq<real>, frames: nat, decay: real)
    ensures HoldRun(h, xs + ys, frames, decay) == HoldRun(HoldRun(h, xs, frames, decay), ys, frames, decay)
    decreases |xs|
  {
    if xs == [] {
      assert xs + ys == ys;
    } else {
      assert (xs + ys)[0] == xs[0] && (xs + ys)[1..] == xs[1..] + ys;
      HoldRunAppend(HoldStep(h, xs[0], frames, decay), xs[1..], ys, frames, decay);
    }
  }

  /** The meter level: a new high is taken at once, otherwise it falls by 0.01 per frame (a peak with no hold). */
  function FallingLevel(level: real, x: real): real
  {
    HoldStep(Held(level, 0), x, 0, METER_LEVEL_DECAY).value
  }

  /** `max(self._target_bands) if self._target_bands else 0.0` */
  function MaxBand(ts: seq<real>): (r: real)
    ensures ts == [] ==> r == 0.0
    ensures forall i :: 0 <= i < |ts| ==> ts[i] <= r
    ensures ts != [] ==> exists i :: 0 <= i < |ts| && r == ts[i]
  {
    if ts == [] then 0.0 else MaxOf(ts)
  }

  predicate InUnit(s: seq<real>)
  {
    forall i :: 0 <= i < |s| ==> 0.0 <= s[i] <= 1.0
  }

  // ---------------------------------------------------------------------------
  // _draw_peak_meter: levels in dB
  // ---------------------------------------------------------------------------

  /** A meter ratio in dB on the scale from -80 to 0; ratios at or below 0.0001 show as -80. */
  function Db(ratio: real): (db: real)
    ensures -80.0 <= db <= 0.0
    ensures ratio <= METER_FLOOR_RATIO ==> db == -80.0
    ensures METER_FLOOR_RATIO < ratio <= 1.0 ==> db == -80.0 + ratio * 80.0
    ensures ratio >= 1.0 ==> db == 0.0
  {
    var r := if ratio > METER_FLOOR_RATIO then ratio else 0.0;
    Max(-80.0, Min(0.0, -80.0 + r * 80.0))
  }

  /** A higher meter ratio never shows a lower dB value. */
  lemma DbMonotone(a: real, b: real)
    ensures a <= b ==> Db(a) <= Db(b)
  {
  }

  datatype MeterColour = Red | Orange | Normal

  /** Above -3 dB the reading is red, above -10 dB orange, otherwise the normal colour. */
  function Colour(db: real): (c: MeterColour)
    ensures c == Red <==> db > -3.0
    ensures c == Orange <==> -10.0 < db <= -3.0
  {
    if db > -3.0 then Red else if db > -10.0 then Orange else Normal
  }

  // ---------------------------------------------------------------------------
  // The widget
  // ---------------------------------------------------------------------------

  class SpectrumAnalyzer {
    const numBands: nat
    var bands: seq<real>
    var targetBands: seq<real>
    var peaks: seq<real>
    var peakHoldTimes: seq<int>
    var peakLevel: real
    var peakHold: real
    var peakHoldTime: int

    /** Every height, target and peak lies in [0, 1]; every counter within its hold. */
    ghost predicate Valid()
      reads this
    {
      |bands| == numBands && |targetBands| == numBands && |peaks| == numBands && |peakHoldTimes| == numBands &&
      InUnit(bands) && InUnit(targetBands) && InUnit(peaks) &&
      (forall i :: 0 <= i < numBands ==> 0 <= peakHoldTimes[i] <= BAND_HOLD_FRAMES) &&
      0.0 <= peakLevel <= 1.0 && 0.0 <= peakHold <= 1.0 && 0 <= peakHoldTime <= METER_HOLD_FRAMES
    }

    /** `__init__`: everything at zero. */
    constructor (n: nat)
      ensures Valid() && numBands == n
      ensures bands == seq(n, _ => 0.0) && targetBands == bands && peaks == bands
      ensures peakHoldTimes == seq(n, _ => 0)
      ensures peakLevel == 0.0 && peakHold == 0.0 && peakHoldTime == 0
    {
      numBands := n;
      bands := seq(n, _ => 0.0);
      targetBands := seq(n, _ => 0.0);
      peaks := seq(n, _ => 0.0);
      peakHoldTimes := seq(n, _ => 0);
      peakLevel := 0.0;
      peakHold := 0.0;
      peakHoldTime := 0;
    }

    /** `set_bands`: an empty input changes nothing; otherwise every target is rewritten from the input. */
    method SetBands(bs: seq<real>)
      requires Valid()
      modifies this`targetBands
      ensures Valid()
      ensures bs == [] ==> targetBands == old(targetBands)
      ensures bs != [] ==> targetBands == Resample(bs, numBands)
    {
      if |bs| == 0 {
        return;
      }
      var i := 0;
      while i < numBands
        invariant 0 <= i <= numBands && |targetBands| == numBands && InUnit(targetBands)
        invariant forall j :: 0 <= j < i ==> targetBands[j] == Target(bs, j, numBands)
      {
        if |bs| == numBands {
          targetBands := targetBands[i := Clamp01(bs[i])];
        } else {
          var src := SourceIndex(i, |bs|, numBands);
          targetBands := targetBands[i := Clamp01(bs[src])];
        }
        i := i + 1;
      }
    }

    /** The meter part of `_animate`: the level and the peak hold follow the highest target. */
    method AnimateMeter()
      requires Valid()
      modifies this`peakLevel, this`peakHold, this`peakHoldTime
      ensures Valid()
      ensures peakLevel == FallingLevel(old(peakLevel), MaxBand(targetBands))
      ensures Held(peakHold, peakHoldTime) ==
              HoldStep(Held(old(peakHold), old(peakHoldTime)), MaxBand(targetBands), METER_HOLD_FRAMES, METER_HOLD_DECAY)
    {
      var maxBand := if |targetBands| > 0 then MaxOf(targetBands) else 0.0;
      if maxBand > peakLevel {
        peakLevel := maxBand;
      } else {
        peakLevel := Max(0.0, peakLevel - METER_LEVEL_DECAY);
      }
      if maxBand > peakHold {
        peakHold := maxBand;
        peakHoldTime := METER_HOLD_FRAMES;
      } else if peakHoldTime > 0 {
        peakHoldTime := peakHoldTime - 1;
      } else {
        peakHold := Max(0.0, peakHold - METER_HOLD_DECAY);
      }
    }

    /** The band part of `_animate`: each band moves toward its target, then its peak marker follows it. */
    method AnimateBands()
      requires Valid()
      modifies this`bands, this`peaks, this`peakHoldTimes
      ensures Valid()
      ensures forall i :: 0 <= i < numBands ==> bands[i] == NextBand(old(bands)[i], targetBands[i])
      ensures forall i :: 0 <= i < numBands ==>
                Held(peaks[i], peakHoldTimes[i]) ==
                HoldStep(Held(old(peaks)[i], old(peakHoldTimes)[i]), bands[i], BAND_HOLD_FRAMES, BAND_PEAK_DECAY)
    {
      var i := 0;
      while i < numBands
        invariant 0 <= i <= numBands && Valid()
        invariant forall j :: i <= j < numBands ==>
                    bands[j] == old(bands)[j] && peaks[j] == old(peaks)[j] && peakHoldTimes[j] == old(peakHoldTimes)[j]
        invariant forall j :: 0 <= j < i ==> bands[j] == NextBand(old(bands)[j], targetBands[j])
        invariant forall j :: 0 <= j < i ==>
                    Held(peaks[j], peakHoldTimes[j]) ==
                    HoldStep(Held(old(peaks)[j], old(peakHoldTimes)[j]), bands[j], BAND_HOLD_FRAMES, BAND_PEAK_DECAY)
      {
        var b := NextBand(bands[i], targetBands[i]);
        bands := bands[i := b];
        if b > peaks[i] {
          peaks := peaks[i := b];
          peakHoldTimes := peakHoldTimes[i := BAND_HOLD_FRAMES];
        } else if peakHoldTimes[i] > 0 {
          peakHoldTimes := peakHoldTimes[i := peakHoldTimes[i] - 1];
        } else {
          peaks := peaks[i := Max(0.0, peaks[i] - BAND_PEAK_DECAY)];
        }
        i := i + 1;
      }
    }

    /** `_animate`: one frame of the meter, then of the bands. */
    method Animate()
      requires Valid()
      modifies this`bands, this`peaks, this`peakHoldTimes, this`peakLevel, this`peakHold, this`peakHoldTime
      ensures Valid()
      ensures peakLevel == FallingLevel(old(peakLevel), MaxBand(targetBands))
      ensures Held(peakHold, peakHoldTime) ==
              HoldStep(Held(old(peakHold), old(peakHoldTime)), MaxBand(targetBands), METER_HOLD_FRAMES, METER_HOLD_DECAY)
      ensures forall i :: 0 <= i < numBands ==> bands[i] == NextBand(old(bands)[i], targetBands[i])
      ensures forall i :: 0 <= i < numBands ==>
                Held(peaks[i], peakHoldTimes[i]) ==
                HoldStep(Held(old(peaks)[i], old(peakHoldTimes)[i]), bands[i], BAND_HOLD_FRAMES, BAND_PEAK_DECAY)
    {
      AnimateMeter();
      AnimateBands();
    }

    /** The two numbers of the peak meter: the level and the peak hold, in dB. */
    function MeterDb(): (r: (real, real))
      reads this
      ensures -80.0 <= r.0 <= 0.0 && -80.0 <= r.1 <= 0.0
      ensures peakHold >= peakLevel ==> r.1 >= r.0
    {
      DbMonotone(peakLevel, peakHold);
      (Db(peakLevel), Db(peakHold))
    }

    /**
     * `reset`: bands, targets, peaks, counters, level and peak hold go to
     * zero; the peak-hold counter is not reset.
     */
    method Reset()
      requires Valid()
      modifies this`bands, this`targetBands, this`peaks, this`peakHoldTimes, this`peakLevel, this`peakHold
      ensures Valid()
      ensures bands == seq(numBands, _ => 0.0) && targetBands == bands && peaks == bands
      ensures peakHoldTimes == seq(numBands, _ => 0)
      ensures peakLevel == 0.0 && peakHold == 0.0
    {
      bands := seq(numBands, _ => 0.0);
      targetBands := seq(numBands, _ => 0.0);
      peaks := seq(numBands, _ => 0.0);
      peakHoldTimes := seq(numBands, _ => 0);
      peakLevel := 0.0;
      peakHold := 0.0;
    }
  }
}

=== FILE: strings.dfy ===
/**
 * The few Python `str` operations the program relies on: whitespace
 * (`str.isspace`), `strip`, `split()`, `splitlines`, `in` on strings,
 * `int(...)` on a decimal literal and `str(n)` of a natural number.
 */
module Strings {
  import opened Wrappers

  /** The characters Python's `str.isspace` accepts. */
  predicate IsSpace(c: char)
  {
    c == ' ' || ('\t' <= c <= '\r') || ('\U{1c}' <= c <= '\U{1f}') || c == '\U{85}' || c == '\U{a0}' ||
    c == '\U{1680}' || ('\U{2000}' <= c <= '\U{200a}') || c == '\U{2028}' || c == '\U{2029}' ||
    c == '\U{202f}' || c == '\U{205f}' || c == '\U{3000}'
  }

  /** The line boundaries of Python's `str.splitlines`. */
  predicate IsLineBreak(c: char)
  {
    c == '\n' || c == '\r' || c == '\U{b}' || c == '\U{c}' || ('\U{1c}' <= c <= '\U{1e}') ||
    c == '\U{85}' || c == '\U{2028}' || c == '\U{2029}'
  }

  predicate NoSpace(s: string)
  {
    forall i :: 0 <= i < |s| ==> !IsSpace(s[i])
  }

  predicate IsDigit(c: char)
  {
    '0' <= c <= '9'
  }

  /** `str.lstrip()` */
  function LStrip(s: string): (r: string)
    ensures |r| <= |s| && r == s[|s| - |r|..]
    ensures forall i :: 0 <= i < |s| - |r| ==> IsSpace(s[i])
    ensures r == [] || !IsSpace(r[0])
  {
    if |s| > 0 && IsSpace(s[0]) then
      var r := LStrip(s[1..]);
      assert forall i :: 1 <= i < |s| - |r| ==> s[i] == s[1..][i - 1];
      r
    else s
  }

  /** `str.rstrip()` */
  function RStrip(s: string): (r: string)
    ensures |r| <= |s| && r == s[..|r|]
    ensures forall i :: |r| <= i < |s| ==> IsSpace(s[i])
    ensures r == [] || !IsSpace(r[|r| - 1])
  {
    if |s| > 0 && IsSpace(s[|s| - 1]) then
      var r := RStrip(s[..|s| - 1]);
      assert forall i :: |r| <= i < |s| - 1 ==> s[i] == s[..|s| - 1][i];
      r
    else s
  }

  lemma SliceOfSlice(s: string, a: nat, k: nat)
    requires a + k <= |s|
    ensures s[a..][..k] == s[a..a + k]
    ensures s[a..][k..] == s[a + k..]
  {
  }

  /** `str.strip()`: a slice of `s` with no whitespace at either end. */
  function Strip(s: string): (r: string)
    ensures |r| <= |LStrip(s)| <= |s|
    ensures r == s[|s| - |LStrip(s)|..|s| - |LStrip(s)| + |r|]
    ensures r == [] || (!IsSpace(r[0]) && !IsSpace(r[|r| - 1]))
  {
    var l := LStrip(s);
    var r := RStrip(l);
    StripFacts(s, l, r);
    r
  }

  /** `strip()` cuts only whitespace: everything before and after the kept slice is space. */
  lemma StripCutsOnlySpace(s: string)
    ensures forall i :: 0 <= i < |s| - |LStrip(s)| ==> IsSpace(s[i])
    ensures forall i :: |s| - |LStrip(s)| + |Strip(s)| <= i < |s| ==> IsSpace(s[i])
  {
    var l := LStrip(s);
    var r := RStrip(l);
    StripFacts(s, l, r);
  }

  /** The slice arithmetic behind `Strip`'s contract. */
  lemma StripFacts(s: string, l: string, r: string)
    requires |l| <= |s| && l == s[|s| - |l|..] && (l == [] || !IsSpace(l[0]))
    requires |r| <= |l| && r == l[..|r|] && forall i :: |r| <= i < |l| ==> IsSpace(l[i])
    requires r == [] || !IsSpace(r[|r| - 1])
    ensures r == s[|s| - |l|..|s| - |l| + |r|]
    ensures forall i :: |s| - |l| + |r| <= i < |s| ==> IsSpace(s[i])
    ensures r == [] || (!IsSpace(r[0]) && !IsSpace(r[|r| - 1]))
  {
    var a := |s| - |l|;
    SliceOfSlice(s, a, |r|);
    forall i | a + |r| <= i < |s|
      ensures IsSpace(s[i])
    {
      assert s[i] == l[i - a];
    }
  }

  /** A string with no whitespace at either end is its own `strip()`. */
  lemma StripKeepsTrimmed(s: string)
    requires 0 < |s| && !IsSpace(s[0]) && !IsSpace(s[|s| - 1])
    ensures Strip(s) == s
  {
    assert LStrip(s) == s;
    assert RStrip(s) == s;
  }

  predicate IsPrefix(p: string, s: string)
  {
    |p| <= |s| && s[..|p|] == p
  }

  /** `sub in s` */
  predicate Contains(s: string, sub: string)
  {
    exists i :: 0 <= i <= |s| && IsPrefix(sub, s[i..])
  }

  /** The first position at which `sub` occurs in `s`, if any. */
  function Find(s: string, sub: string): (r: Option<nat>)
    ensures r.Some? ==> r.value <= |s| && IsPrefix(sub, s[r.value..])
    ensures r.Some? ==> forall i :: 0 <= i < r.value ==> !IsPrefix(sub, s[i..])
    ensures r.None? <==> !Contains(s, sub)
    decreases |s|
  {
    if IsPrefix(sub, s) then
      assert s[0..] == s;
      Some(0)
    else if |s| == 0 then None
    else
      var rest := Find(s[1..], sub);
      assert forall i :: 1 <= i <= |s| ==> s[i..] == s[1..][i - 1..];
      assert s[0..] == s;
      if rest.None? then None else Some(rest.value + 1)
  }

  function DigitChar(d: nat): char
    requires d < 10
  {
    "0123456789"[d]
  }

  /** `str(n)` for a natural number. */
  function NatToString(n: nat): (r: string)
    ensures |r| > 0 && forall i :: 0 <= i < |r| ==> IsDigit(r[i])
    decreases n
  {
    if n < 10 then [DigitChar(n)] else NatToString(n / 10) + [DigitChar(n % 10)]
  }

  /** The value of a nonempty run of decimal digits. */
  function DigitsValue(s: string): (r: nat)
    requires forall i :: 0 <= i < |s| ==> IsDigit(s[i])
  {
    if |s| == 0 then 0
    else
      assert IsDigit(s[|s| - 1]);
      10 * DigitsValue(s[..|s| - 1]) + (s[|s| - 1] as int - '0' as int)
  }

  /**
   * `int(s)` on a string: surrounding whitespace, an optional sign, then one
   * or more ASCII digits; anything else is a ValueError (`None`).
   */
  function ParseInt(s: string): (r: Option<int>)
    ensures r.Some? ==> |Strip(s)| > 0
  {
    var t := Strip(s);
    var neg := |t| > 0 && t[0] == '-';
    var body := if |t| > 0 && (t[0] == '-' || t[0] == '+') then t[1..] else t;
    if |body| > 0 && forall i :: 0 <= i < |body| ==> IsDigit(body[i]) then
      var v: int := DigitsValue(body);
      Some(if neg then -v else v)
    else None
  }

  function WordLength(t: string): (k: nat)
    ensures k <= |t|
    ensures NoSpace(t[..k])
    ensures k < |t| ==> IsSpace(t[k])
    ensures |t| > 0 && !IsSpace(t[0]) ==> k > 0
  {
    if |t| == 0 || IsSpace(t[0]) then 0 else 1 + WordLength(t[1..])
  }

  /** `str.split()` with no separator: the maximal runs of non-whitespace. */
  function Words(s: string): (r: seq<string>)
    ensures forall w :: w in r ==> |w| > 0 && NoSpace(w)
    decreases |s|
  {
    var t := LStrip(s);
    if t == [] then []
    else
      var k := WordLength(t);
      [t[..k]] + Words(t[k..])
  }

  /** The position of the first line boundary in `s`, or `|s|`. */
  function LineEnd(s: string): (k: nat)
    ensures k <= |s|
    ensures forall i :: 0 <= i < k ==> !IsLineBreak(s[i])
    ensures k < |s| ==> IsLineBreak(s[k])
  {
    if |s| == 0 || IsLineBreak(s[0]) then 0 else 1 + LineEnd(s[1..])
  }

  /** `str.splitlines()`: "\r\n" counts as one boundary and no line holds a boundary. */
  function SplitLines(s: string): (r: seq<string>)
    ensures forall l :: l in r ==> forall i :: 0 <= i < |l| ==> !IsLineBreak(l[i])
    decreases |s|
  {
    if |s| == 0 then []
    else
      var k := LineEnd(s);
      if k == |s| then [s]
      else
        var skip := if s[k] == '\r' && k + 1 < |s| && s[k + 1] == '\n' then 2 else 1;
        [s[..k]] + SplitLines(s[k + skip..])
  }

  /** `s.split(sep, 1)[1]`: the text after the first `sep`, if there is one. */
  function AfterFirst(s: string, sep: char): (r: Option<string>)
    ensures r.Some? ==> exists i :: 0 <= i < |s| && s[i] == sep && r.value == s[i + 1..] &&
                                    forall j :: 0 <= j < i ==> s[j] != sep
    ensures r.None? <==> sep !in s
  {
    if |s| == 0 then None
    else if s[0] == sep then Some(s[1..])
    else
      var rest := AfterFirst(s[1..], sep);
      if rest.None? then None
      else
        ghost var i :| 0 <= i < |s[1..]| && s[1..][i] == sep && rest.value == s[1..][i + 1..] &&
                       forall j :: 0 <= j < i ==> s[1..][j] != sep;
        assert s[i + 1] == sep && rest.value == s[i + 2..];
        rest
  }

  /** `str.lower()` on ASCII letters; other characters are kept. */
  function Lower(s: string): (r: string)
    ensures |r| == |s|
    ensures forall i :: 0 <= i < |s| ==> r[i] == (if 'A' <= s[i] <= 'Z' then (s[i] as int + 32) as char else s[i])
  {
    seq(|s|, i requires 0 <= i < |s| => if 'A' <= s[i] <= 'Z' then (s[i] as int + 32) as char else s[i])
  }

  /** Python's ordering of strings: code point by code point, a proper prefix first. */
  predicate LessOrEqual(a: string, b: string)
  {
    if |a| == 0 then true
    else if |b| == 0 then false
    else if a[0] != b[0] then a[0] < b[0]
    else LessOrEqual(a[1..], b[1..])
  }

  lemma {:induction false} LessOrEqualTotal(a: string, b: string)
    ensures LessOrEqual(a, b) || LessOrEqual(b, a)
    decreases |a|
  {
    if |a| > 0 && |b| > 0 && a[0] == b[0] {
      LessOrEqualTotal(a[1..], b[1..]);
    }
  }

  lemma {:induction false} LessOrEqualTransitive(a: string, b: string, c: string)
    requires LessOrEqual(a, b) && LessOrEqual(b, c)
    ensures LessOrEqual(a, c)
    decreases |a|
  {
    if |a| > 0 && |b| > 0 && |c| > 0 && a[0] == b[0] && b[0] == c[0] {
      LessOrEqualTransitive(a[1..], b[1..], c[1..]);
    }
  }
}

=== FILE: tooltip_helper.dfy ===
/**
 * The tooltip helper's colour arithmetic and its hover state. The tooltip
 * background is the theme background lightened (dark themes) or darkened
 * (light themes); the border is a fixed grey chosen by the same test. The
 * hover state is the widget whose tooltip is pending or shown and the
 * timer that will show it.
 */
module TooltipHelper {
  import opened Wrappers
  import opened Strings

  // ---------------------------------------------------------------------------
  // Parsing "#rrggbb"
  // ---------------------------------------------------------------------------

  /** The value of one hexadecimal digit, either case. */
  function HexDigit(c: char): (d: Option<nat>)
    ensures d.Some? ==> d.value < 16
  {
    if '0' <= c <= '9' then Some(c as int - '0' as int)
    else if 'a' <= c <= 'f' then Some(c as int - 'a' as int + 10)
    else if 'A' <= c <= 'F' then Some(c as int - 'A' as int + 10)
    else None
  }

  predicate AllHexDigits(s: string)
  {
    forall i :: 0 <= i < |s| ==> HexDigit(s[i]).Some?
  }

  function HexDigitsValue(s: string): (v: nat)
    requires AllHexDigits(s)
  {
    if |s| == 0 then 0 else 16 * HexDigitsValue(s[..|s| - 1]) + HexDigit(s[|s| - 1]).value
  }

  /**
   * Python's `int(s, 16)`: surrounding whitespace, an optional sign, an
   * optional "0x"/"0X" prefix, then one or more hexadecimal digits.
   */
  function ParseHexInt(s: string): Option<int>
  {
    var t := Strip(s);
    var neg := |t| > 0 && t[0] == '-';
    var unsigned := if |t| > 0 && (t[0] == '-' || t[0] == '+') then t[1..] else t;
    var body := if |unsigned| >= 2 && unsigned[0] == '0' && (unsigned[1] == 'x' || unsigned[1] == 'X')
                then unsigned[2..] else unsigned;
    if |body| > 0 && AllHexDigits(body) then
      var v: int := HexDigitsValue(body);
      Some(if neg then -v else v)
    else None
  }

  /** A field of at most two characters parses to a value in -15..255. */
  lemma ShortFieldRange(s: string)
    requires |s| <= 2 && ParseHexInt(s).Some?
    ensures -15 <= ParseHexInt(s).value <= 255
  {
    var t := Strip(s);
    var unsigned := if |t| > 0 && (t[0] == '-' || t[0] == '+') then t[1..] else t;
    var body := if |unsigned| >= 2 && unsigned[0] == '0' && (unsigned[1] == 'x' || unsigned[1] == 'X')
                then unsigned[2..] else unsigned;
    assert |body| <= |unsigned| <= |t| <= 2;
    assert |t| > 0 && t[0] == '-' ==> |body| <= 1;
    ShortDigitsBound(body);
  }

  /** One hex digit is at most 15, two at most 255. */
  lemma ShortDigitsBound(b: string)
    requires AllHexDigits(b) && |b| <= 2
    ensures HexDigitsValue(b) <= 255
    ensures |b| <= 1 ==> HexDigitsValue(b) <= 15
  {
    if |b| > 0 {
      var init := b[..|b| - 1];
      assert AllHexDigits(init) && |init| <= 1;
      if |init| == 1 {
        assert init[..0] == [];
      }
      assert HexDigitsValue(init) <= 15;
    }
  }

  /** `lstrip("#")`: every leading '#' removed. */
  function LStripHash(s: string): (r: string)
    ensures |r| <= |s| && r == s[|s| - |r|..]
    ensures forall i :: 0 <= i < |s| - |r| ==> s[i] == '#'
    ensures r == [] || r[0] != '#'
  {
    if |s| > 0 && s[0] == '#' then LStripHash(s[1..]) else s
  }

  /** Python's `s[i:j]` for `0 <= i <= j`: the bounds are clipped to the string. */
  function PySlice(s: string, i: nat, j: nat): (r: string)
    requires i <= j
    ensures |r| <= j - i
  {
    var a := if i < |s| then i else |s|;
    var b := if j < |s| then j else |s|;
    s[a..b]
  }

  datatype Rgb = Rgb(r: int, g: int, b: int)

  /** The three channels read from characters 0-1, 2-4 and 4-6 after the leading '#'s, or None on a ValueError. */
  function ParseRgb(colour: string): (c: Option<Rgb>)
    ensures c.Some? ==> -15 <= c.value.r <= 255 && -15 <= c.value.g <= 255 && -15 <= c.value.b <= 255
  {
    var hex := LStripHash(colour);
    var r := ParseHexInt(PySlice(hex, 0, 2));
    var g := ParseHexInt(PySlice(hex, 2, 4));
    var b := ParseHexInt(PySlice(hex, 4, 6));
    if r.Some? && g.Some? && b.Some? then
      ShortFieldRange(PySlice(hex, 0, 2));
      ShortFieldRange(PySlice(hex, 2, 4));
      ShortFieldRange(PySlice(hex, 4, 6));
      Some(Rgb(r.value, g.value, b.value))
    else None
  }

  /** The theme is dark when the weighted luminance is below one half. */
  predicate IsDark(c: Rgb)
  {
    (0.299 * c.r as real + 0.587 * c.g as real + 0.114 * c.b as real) / 255.0 < 0.5
  }

  // ---------------------------------------------------------------------------
  // Formatting "#rrggbb"
  // ---------------------------------------------------------------------------

  /** The lowercase digit for `d`. */
  function HexChar(d: nat): (c: char)
    requires d < 16
    ensures HexDigit(c) == Some(d) && !IsSpace(c) && c != 'x' && c != 'X'
  {
    if d < 10 then ('0' as int + d) as char else ('a' as int + d - 10) as char
  }

  /** `f"{n:02x}"` for a channel value. */
  function Hex2(n: nat): (s: string)
    requires n < 256
    ensures |s| == 2
  {
    [HexChar(n / 16), HexChar(n % 16)]
  }

  /** Two lowercase digits read back as the value they were written from. */
  lemma Hex2RoundTrip(n: nat)
    requires n < 256
    ensures ParseHexInt(Hex2(n)) == Some(n)
  {
    var s := Hex2(n);
    StripKeepsTrimmed(s);
    assert s[..1][..0] == [] && s[..1][0] == s[0];
    assert HexDigitsValue(s[..1]) == n / 16;
    assert HexDigitsValue(s) == 16 * (n / 16) + n % 16;
  }

  function FormatRgb(c: Rgb): (s: string)
    requires 0 <= c.r < 256 && 0 <= c.g < 256 && 0 <= c.b < 256
    ensures |s| == 7 && s[0] == '#'
  {
    "#" + Hex2(c.r) + Hex2(c.g) + Hex2(c.b)
  }

  /** A formatted colour parses back to its channels. */
  lemma FormatRgbRoundTrip(c: Rgb)
    requires 0 <= c.r < 256 && 0 <= c.g < 256 && 0 <= c.b < 256
    ensures ParseRgb(FormatRgb(c)) == Some(c)
  {
    var s := FormatRgb(c);
    var hex := LStripHash(s);
    assert s[1..] == Hex2(c.r) + Hex2(c.g) + Hex2(c.b);
    assert LStripHash(s[1..]) == s[1..];
    assert hex == s[1..];
    assert PySlice(hex, 0, 2) == Hex2(c.r);
    assert PySlice(hex, 2, 4) == Hex2(c.g);
    assert PySlice(hex, 4, 6) == Hex2(c.b);
    Hex2RoundTrip(c.r);
    Hex2RoundTrip(c.g);
    Hex2RoundTrip(c.b);
  }

  // ---------------------------------------------------------------------------
  // Tooltip background and border
  // ---------------------------------------------------------------------------

  /** The adjusted channels: +50 capped at 255 on a dark theme, -30 floored at 0 on a light one. */
  function AdjustRgb(c: Rgb): (a: Rgb)
    requires -15 <= c.r <= 255 && -15 <= c.g <= 255 && -15 <= c.b <= 255
    ensures 0 <= a.r < 256 && 0 <= a.g < 256 && 0 <= a.b < 256
    ensures IsDark(c) ==> c.r <= a.r && c.g <= a.g && c.b <= a.b && a.r - c.r <= 50 && a.g - c.g <= 50 && a.b - c.b <= 50
    ensures !IsDark(c) ==> (a.r <= c.r || (c.r < 0 && a.r == 0)) && (a.g <= c.g || (c.g < 0 && a.g == 0)) &&
                           (a.b <= c.b || (c.b < 0 && a.b == 0)) && c.r - a.r <= 30 && c.g - a.g <= 30 && c.b - a.b <= 30
  {
    if IsDark(c) then
      Rgb(if c.r + 50 < 255 then c.r + 50 else 255,
          if c.g + 50 < 255 then c.g + 50 else 255,
          if c.b + 50 < 255 then c.b + 50 else 255)
    else
      Rgb(if c.r - 30 > 0 then c.r - 30 else 0,
          if c.g - 30 > 0 then c.g - 30 else 0,
          if c.b - 30 > 0 then c.b - 30 else 0)
  }

  /** `_adjust_tooltip_background`: the adjusted colour as "#rrggbb", or the input when it does not parse. */
  function AdjustTooltipBackground(colour: string): (out: string)
    ensures ParseRgb(colour).None? ==> out == colour
    ensures ParseRgb(colour).Some? ==> |out| == 7 && out[0] == '#' && ParseRgb(out) == Some(AdjustRgb(ParseRgb(colour).value))
  {
    match ParseRgb(colour)
    case None => colour
    case Some(c) =>
      var a := AdjustRgb(c);
      FormatRgbRoundTrip(a);
      FormatRgb(a)
  }

  /** The border grey: "#707070" on a background that parses and is dark, else "#a0a0a0". */
  function BorderColour(background: string): (border: string)
    ensures border == "#707070" <==> ParseRgb(background).Some? && IsDark(ParseRgb(background).value)
    ensures border == "#707070" || border == "#a0a0a0"
  {
    var dark := match ParseRgb(background) case Some(c) => IsDark(c) case None => false;
    if dark then "#707070" else "#a0a0a0"
  }

  /** Hexadecimal of the usual "#rrggbb" form is read exactly. */
  lemma ParsesStandardColours(c: Rgb)
    requires 0 <= c.r < 256 && 0 <= c.g < 256 && 0 <= c.b < 256
    ensures AdjustTooltipBackground(FormatRgb(c)) == FormatRgb(AdjustRgb(c))
    ensures BorderColour(FormatRgb(c)) == if IsDark(c) then "#707070" else "#a0a0a0"
  {
    FormatRgbRoundTrip(c);
  }

  /**
   * The border and the background follow the same test: with the dark
   * border the tooltip is no darker than the theme, with the light border
   * no lighter (channels written with a minus sign aside).
   */
  lemma AdjustMovesAwayFromTheme(colour: string)
    requires ParseRgb(colour).Some?
    requires 0 <= ParseRgb(colour).value.r && 0 <= ParseRgb(colour).value.g && 0 <= ParseRgb(colour).value.b
    ensures var c := ParseRgb(colour).value;
            var a := ParseRgb(AdjustTooltipBackground(colour)).value;
            (BorderColour(colour) == "#707070" ==> c.r <= a.r && c.g <= a.g && c.b <= a.b) &&
            (BorderColour(colour) == "#a0a0a0" ==> a.r <= c.r && a.g <= c.g && a.b <= c.b)
  {
    var c := ParseRgb(colour).value;
    assert ParseRgb(AdjustTooltipBackground(colour)).value == AdjustRgb(c);
    assert BorderColour(colour) == "#707070" <==> IsDark(c);
  }

  // ---------------------------------------------------------------------------
  // Hover state
  // ---------------------------------------------------------------------------

  /** Widgets are known by an identity; timers by the id the main loop gave them. */
  type WidgetId = nat

  /** GLib never hands out timer id 0, the value `_clear_timer`'s truth test would read as "no timer". */
  type TimerId = n: nat | n > 0 witness 1

  class HoverState {
    var activeWidget: Option<WidgetId>
    var showTimer: Option<TimerId>
    /** Whether the tooltip popover is on screen. */
    var shown: bool
    /** Every timer id handed back to the main loop, oldest first. */
    var removedTimers: seq<TimerId>

    /** A shown tooltip always belongs to the active widget and leaves no timer pending. */
    ghost predicate Valid()
      reads this
    {
      shown ==> activeWidget.Some? && showTimer.None?
    }

    constructor ()
      ensures Valid() && activeWidget.None? && showTimer.None? && !shown && removedTimers == []
    {
      activeWidget := None;
      showTimer := None;
      shown := false;
      removedTimers := [];
    }

    /** `_clear_timer` */
    method ClearTimer()
      modifies this`showTimer, this`removedTimers
      ensures showTimer.None?
      ensures removedTimers == old(removedTimers) + (if old(showTimer).Some? then [old(showTimer).value] else [])
    {
      if showTimer.Some? {
        removedTimers := removedTimers + [showTimer.value];
        showTimer := None;
      }
    }

    /** `_hide_tooltip`; the fade-out delay is not modelled. */
    method HideTooltip()
      modifies this`shown
      ensures !shown
    {
      shown := false;
    }

    /**
     * `_on_enter`, with `enabled` the answer of the tooltips-enabled
     * callback and `timer` the id of the new 250 ms show timer.
     */
    method OnEnter(enabled: bool, widget: WidgetId, timer: TimerId)
      requires Valid()
      modifies this
      ensures Valid()
      ensures !enabled || old(activeWidget) == Some(widget) ==>
                activeWidget == old(activeWidget) && showTimer == old(showTimer) && shown == old(shown) &&
                removedTimers == old(removedTimers)
      ensures enabled && old(activeWidget) != Some(widget) ==>
                activeWidget == Some(widget) && showTimer == Some(timer) && !shown &&
                removedTimers == old(removedTimers) + (if old(showTimer).Some? then [old(showTimer).value] else [])
    {
      if !enabled || activeWidget == Some(widget) {
        return;
      }
      ClearTimer();
      HideTooltip();
      activeWidget := Some(widget);
      showTimer := Some(timer);
    }

    /** `_on_leave`: the pending timer is cancelled and nothing stays active or shown. */
    method OnLeave()
      requires Valid()
      modifies this
      ensures Valid()
      ensures activeWidget.None? && showTimer.None?
      ensures old(activeWidget).Some? ==> !shown
      ensures old(activeWidget).None? ==> shown == old(shown)
      ensures removedTimers == old(removedTimers) + (if old(showTimer).Some? then [old(showTimer).value] else [])
    {
      ClearTimer();
      if activeWidget.Some? {
        HideTooltip();
        activeWidget := None;
      }
    }

    /**
     * `_show_tooltip`, when the timer fires. `usable` says the widget is
     * still mapped, visible and inside a window; `hasText` that a tooltip
     * text exists for it; `popupOk` that showing raised nothing. It runs
     * only while its timer is pending, and the timer is forgotten only when the method gets as far as showing; the early
     * returns keep its id.
     */
    method ShowTooltip(usable: bool, hasText: bool, popupOk: bool) returns (again: bool)
      requires Valid() && showTimer.Some?
      modifies this`activeWidget, this`showTimer, this`shown
      ensures Valid() && !again
      ensures old(activeWidget).None? ==> activeWidget == old(activeWidget) && showTimer == old(showTimer) && shown == old(shown)
      ensures old(activeWidget).Some? && !usable ==> activeWidget.None? && showTimer == old(showTimer) && shown == old(shown)
      ensures old(activeWidget).Some? && usable && !hasText ==>
                activeWidget == old(activeWidget) && showTimer == old(showTimer) && shown == old(shown)
      ensures old(activeWidget).Some? && usable && hasText ==>
                showTimer.None? && shown == popupOk && (activeWidget == if popupOk then old(activeWidget) else None)
    {
      again := false;
      if activeWidget.None? {
        return;
      }
      if !usable {
        activeWidget := None;
        return;
      }
      if !hasText {
        return;
      }
      if popupOk {
        shown := true;
      } else {
        shown := false;
        activeWidget := None;
      }
      showTimer := None;
    }
  }
}

=== FILE: validators.dfy ===
/**
 * Value validation and conversion helpers: range checks, clamping,
 * normalisation, the percentage/decibel slider mapping, the filter-chain
 * parameter table and the name checks used for sources and profiles.
 */
module Validators {
  import opened Wrappers
  import opened Strings

  /** `validate_range`: the value itself, or a ValueError when it lies outside [lo, hi]. */
  function ValidateRange(value: real, lo: real, hi: real): (r: Result<real>)
    ensures r.Err? <==> value < lo || value > hi
    ensures r.Ok? ==> r.value == value
  {
    if value < lo || value > hi then Err("ValueError: value out of range") else Ok(value)
  }

  /** `clamp(value, lo, hi)` = `max(lo, min(hi, value))`. */
  function Clamp(value: real, lo: real, hi: real): (r: real)
    ensures lo <= hi ==> lo <= r <= hi
    ensures lo <= value <= hi ==> r == value
    ensures value < lo || hi < lo ==> r == lo
    ensures lo <= hi < value ==> r == hi
  {
    var m := if hi < value then hi else value;
    if lo < m then m else lo
  }

  /** The same clamp on integers (`max(lo, min(hi, v))` with int arguments). */
  function ClampInt(value: int, lo: int, hi: int): (r: int)
    ensures lo <= hi ==> lo <= r <= hi
    ensures lo <= value <= hi ==> r == value
    ensures value < lo || hi < lo ==> r == lo
    ensures lo <= hi < value ==> r == hi
  {
    var m := if hi < value then hi else value;
    if lo < m then m else lo
  }

  lemma ScaleBounds(c: real, d: real)
    requires 0.0 <= c <= 1.0
    ensures 0.0 <= d ==> 0.0 <= c * d <= d
    ensures d <= 0.0 ==> d <= c * d <= 0.0
  {
    if 0.0 <= d {
      assert c * d <= 1.0 * d;
    } else {
      assert 1.0 * d <= c * d;
    }
  }

  /** `c * d` for a factor `c` in [0, 1], which lies between 0 and `d`. */
  function Scale(c: real, d: real): (p: real)
    requires 0.0 <= c <= 1.0
    ensures 0.0 <= d ==> 0.0 <= p <= d
    ensures d <= 0.0 ==> d <= p <= 0.0
    ensures p == c * d
  {
    var p := c * d;
    ScaleBounds(c, d);
    p
  }

  lemma SymmetricScale(n: real, d: real)
    requires -1.0 <= n <= 1.0 && 0.0 <= d
    ensures -d <= n * d <= d
  {
    if 0.0 <= n {
      ScaleBounds(n, d);
    } else {
      ScaleBounds(-n, d);
      assert (-n) * d == -(n * d);
    }
  }

  lemma QuotientBounds(x: real, d: real)
    requires 0.0 < d && 0.0 <= x <= d
    ensures 0.0 <= x / d <= 1.0
    ensures (x / d) * d == x
  {
  }

  /** Outside [0, d] the quotient by d falls outside [0, 1] on the same side. */
  lemma QuotientOutside(x: real, d: real)
    requires 0.0 < d
    ensures x <= 0.0 ==> x / d <= 0.0
    ensures d <= x ==> 1.0 <= x / d
  {
    var q := x / d;
    assert q * d == x;
    assert 0.0 < q ==> 0.0 < q * d;
    assert q < 1.0 ==> 0.0 < (1.0 - q) * d;
  }

  /** `normalize`: 0 for an empty range, otherwise the clamped relative position. */
  function Normalize(value: real, lo: real, hi: real): (r: real)
    ensures 0.0 <= r <= 1.0
    ensures hi == lo ==> r == 0.0
    ensures lo < hi && lo <= value <= hi ==> r * (hi - lo) == value - lo
    ensures lo < hi && value <= lo ==> r == 0.0
    ensures lo < hi && hi <= value ==> r == 1.0
  {
    if hi == lo then 0.0
    else
      if lo < hi && lo <= value <= hi then
        QuotientBounds(value - lo, hi - lo);
        QuotientOutside(value - lo, hi - lo);
        Clamp((value - lo) / (hi - lo), 0.0, 1.0)
      else if lo < hi then QuotientOutside(value - lo, hi - lo); Clamp((value - lo) / (hi - lo), 0.0, 1.0)
      else Clamp((value - lo) / (hi - lo), 0.0, 1.0)
  }

  /** `denormalize`: the point at relative position `clamp(value, 0, 1)` of [lo, hi]. */
  function Denormalize(value: real, lo: real, hi: real): (r: real)
    ensures lo <= hi ==> lo <= r <= hi
    ensures hi <= lo ==> hi <= r <= lo
  {
    lo + Scale(Clamp(value, 0.0, 1.0), hi - lo)
  }

  /** Normalising then denormalising gives back any value of the range. */
  lemma DenormalizeNormalize(value: real, lo: real, hi: real)
    requires lo < hi && lo <= value <= hi
    ensures Denormalize(Normalize(value, lo, hi), lo, hi) == value
  {
    var n := Normalize(value, lo, hi);
    assert n * (hi - lo) == value - lo;
  }

  /** Denormalising then normalising gives back any position in [0, 1]. */
  lemma NormalizeDenormalize(value: real, lo: real, hi: real)
    requires lo < hi && 0.0 <= value <= 1.0
    ensures Normalize(Denormalize(value, lo, hi), lo, hi) == value
  {
    var d := Denormalize(value, lo, hi);
    assert d - lo == value * (hi - lo);
    CancelFactor(Normalize(d, lo, hi), value, hi - lo);
  }

  /** A non-zero common factor cancels. */
  lemma CancelFactor(a: real, b: real, w: real)
    requires w != 0.0 && a * w == b * w
    ensures a == b
  {
    assert (a - b) * w == 0.0;
  }

  /** `percentage_to_db`: 50% is 0 dB, 0% is -range and 100% is +range. */
  function PercentageToDb(percentage: real, rangeDb: real): (r: real)
    ensures percentage == 50.0 ==> r == 0.0
    ensures percentage == 0.0 ==> r == -rangeDb
    ensures percentage == 100.0 ==> r == rangeDb
    ensures 0.0 <= rangeDb && 0.0 <= percentage <= 100.0 ==> -rangeDb <= r <= rangeDb
  {
    var normalized := (percentage - 50.0) / 50.0;
    if 0.0 <= rangeDb && 0.0 <= percentage <= 100.0 then
      SymmetricScale(normalized, rangeDb);
      normalized * rangeDb
    else normalized * rangeDb
  }

  /** `db_to_percentage`: a value in [0, 100]; a zero range divides by zero. */
  function DbToPercentage(db: real, rangeDb: real): (r: Result<real>)
    ensures r.Err? <==> rangeDb == 0.0
    ensures r.Ok? ==> 0.0 <= r.value <= 100.0
  {
    if rangeDb == 0.0 then Err("ZeroDivisionError")
    else
      var normalized := Clamp(db / rangeDb, -1.0, 1.0);
      Ok(normalized * 50.0 + 50.0)
  }

  /** `db_to_percentage` inverts `percentage_to_db` on [0, 100] for every nonzero range. */
  lemma DbToPercentageInverts(percentage: real, rangeDb: real)
    requires rangeDb != 0.0 && 0.0 <= percentage <= 100.0
    ensures DbToPercentage(PercentageToDb(percentage, rangeDb), rangeDb) == Ok(percentage)
  {
    var n := (percentage - 50.0) / 50.0;
    assert PercentageToDb(percentage, rangeDb) / rangeDb == n;
    assert -1.0 <= n <= 1.0;
  }

  /** The parameter table of `validate_filter_chain_param`. */
  const FilterChainParamRanges: map<string, (real, real)> := map[
    "strength" := (0.0, 1.0),
    "threshold" := (-96.0, 0.0),
    "attack" := (0.1, 500.0),
    "release" := (1.0, 5000.0),
    "width" := (0.0, 1.0),
    "crossfeed" := (0.0, 1.0),
    "gain" := (-24.0, 24.0)
  ]

  /** `validate_filter_chain_param`: a known parameter is clamped to its range, any other passes through. */
  function ValidateFilterChainParam(name: string, value: real): (r: real)
    ensures name in FilterChainParamRanges ==>
      FilterChainParamRanges[name].0 <= r <= FilterChainParamRanges[name].1
    ensures name in FilterChainParamRanges && FilterChainParamRanges[name].0 <= value ==>
              value <= FilterChainParamRanges[name].1 ==> r == value
    ensures name !in FilterChainParamRanges ==> r == value
  {
    if name in FilterChainParamRanges then
      var (lo, hi) := FilterChainParamRanges[name];
      Clamp(value, lo, hi)
    else value
  }

  /** The table holds exactly the seven documented parameters, each with a nonempty range. */
  lemma FilterChainParamTable()
    ensures FilterChainParamRanges.Keys == {"strength", "threshold", "attack", "release", "width", "crossfeed", "gain"}
    ensures forall k :: k in FilterChainParamRanges ==> FilterChainParamRanges[k].0 < FilterChainParamRanges[k].1
  {
  }

  const SourceNameInvalidChars: string := "<>:\"|?*"

  /** `is_valid_source_name`: nonempty and free of `<>:"|?*`. */
  function IsValidSourceName(name: string): (r: bool)
    ensures r <==> |name| > 0 && forall i :: 0 <= i < |name| ==> name[i] !in SourceNameInvalidChars
  {
    |name| > 0 && forall c :: c in name ==> c !in SourceNameInvalidChars
  }

  const ProfileNameInvalidChars: string := "<>:\"/\\|?*"
  const ProfileNameMaxLength: nat := 64

  /** `s` with every character of `chars` replaced by an underscore (`str.replace` per character). */
  function ReplaceChars(s: string, chars: string): (r: string)
    ensures |r| == |s|
    ensures forall i :: 0 <= i < |s| ==> r[i] == if s[i] in chars then '_' else s[i]
  {
    seq(|s|, i requires 0 <= i < |s| => if s[i] in chars then '_' else s[i])
  }

  /** The result of `sanitize_profile_name`, stated on values. */
  function SanitizedName(name: string): string
  {
    CutOrUntitled(Strip(ReplaceChars(name, ProfileNameInvalidChars)))
  }

  /** `t[:64] or "Untitled"` */
  function CutOrUntitled(t: string): string
  {
    var cut := if |t| <= ProfileNameMaxLength then t else t[..ProfileNameMaxLength];
    if cut == [] then "Untitled" else cut
  }

  lemma CutOrUntitledSafe(t: string)
    requires Avoids(t, ProfileNameInvalidChars)
    ensures 0 < |CutOrUntitled(t)| <= ProfileNameMaxLength
    ensures Avoids(CutOrUntitled(t), ProfileNameInvalidChars)
  {
    if |t| > ProfileNameMaxLength {
      AvoidsSlice(t, ProfileNameInvalidChars, 0, ProfileNameMaxLength);
    }
    assert Avoids("Untitled", ProfileNameInvalidChars);
  }

  /** `sanitize_profile_name`: one replacement pass per invalid character, then strip, cut and fallback. */
  method SanitizeProfileName(name: string) returns (r: string)
    ensures r == SanitizedName(name)
  {
    var result := name;
    var k := 0;
    while k < |ProfileNameInvalidChars|
      invariant 0 <= k <= |ProfileNameInvalidChars|
      invariant result == ReplaceChars(name, ProfileNameInvalidChars[..k])
    {
      var c := ProfileNameInvalidChars[k];
      result := seq(|result|, i requires 0 <= i < |result| => if result[i] == c then '_' else result[i]);
      assert ProfileNameInvalidChars[..k + 1] == ProfileNameInvalidChars[..k] + [c];
      k := k + 1;
    }
    assert ProfileNameInvalidChars[..k] == ProfileNameInvalidChars;
    result := Strip(result);
    if |result| > ProfileNameMaxLength {
      result := result[..ProfileNameMaxLength];
    }
    r := if result == [] then "Untitled" else result;
  }

  predicate Avoids(s: string, chars: string)
  {
    forall i :: 0 <= i < |s| ==> s[i] !in chars
  }

  lemma AvoidsSlice(s: string, chars: string, a: nat, b: nat)
    requires Avoids(s, chars) && a <= b <= |s|
    ensures Avoids(s[a..b], chars)
  {
    assert forall i :: 0 <= i < b - a ==> s[a..b][i] == s[a + i];
  }

  lemma ReplaceCharsAvoids(s: string, chars: string)
    requires '_' !in chars
    ensures Avoids(ReplaceChars(s, chars), chars)
  {
  }

  lemma StripAvoids(s: string, chars: string)
    requires Avoids(s, chars)
    ensures Avoids(Strip(s), chars)
  {
    var a := |s| - |LStrip(s)|;
    AvoidsSlice(s, chars, a, a + |Strip(s)|);
  }

  /** A sanitized name is nonempty, at most 64 characters and free of `<>:"/\|?*`. */
  lemma SanitizedNameIsSafe(name: string)
    ensures 0 < |SanitizedName(name)| <= ProfileNameMaxLength
    ensures Avoids(SanitizedName(name), ProfileNameInvalidChars)
  {
    var replaced := ReplaceChars(name, ProfileNameInvalidChars);
    ReplaceCharsAvoids(name, ProfileNameInvalidChars);
    StripAvoids(replaced, ProfileNameInvalidChars);
    CutOrUntitledSafe(Strip(replaced));
  }

  /** A name that is already short, trimmed and free of invalid characters is kept as is. */
  lemma SanitizedNameKeepsSafeNames(name: string)
    requires 0 < |name| <= ProfileNameMaxLength
    requires !IsSpace(name[0]) && !IsSpace(name[|name| - 1])
    requires Avoids(name, ProfileNameInvalidChars)
    ensures SanitizedName(name) == name
  {
    ReplaceCharsKeeps(name, ProfileNameInvalidChars);
    StripKeepsTrimmed(name);
  }

  lemma ReplaceCharsKeeps(s: string, chars: string)
    requires Avoids(s, chars)
    ensures ReplaceChars(s, chars) == s
  {
    var replaced := ReplaceChars(s, chars);
    assert forall i :: 0 <= i < |s| ==> replaced[i] == s[i];
  }
}

=== FILE: visualizer_widget.dfy ===
/**
 * The simple display widgets: the level bar with its peak marker, the bar
 * spectrum visualizer, and the waveform ring buffer. GTK timers become the
 * methods they call (`Animate`, `DecayPeak`); drawing becomes the sequence
 * of samples the waveform draws, in order.
 */
module VisualizerWidget {
  import opened PyNum

  function Abs(x: real): real
  {
    if x < 0.0 then -x else x
  }

  predicate InUnit(s: seq<real>)
  {
    forall i :: 0 <= i < |s| ==> 0.0 <= s[i] <= 1.0
  }

  // ---------------------------------------------------------------------------
  // LevelBar
  // ---------------------------------------------------------------------------

  /**
   * One frame of `LevelBar._animate`: the level moves 30% of the way to the
   * target, and lands on it once it was within 0.001.
   */
  function Glide(level: real, target: real): (r: real)
    ensures level <= target ==> level <= r <= target
    ensures target <= level ==> target <= r <= level
    ensures Abs(target - r) <= 0.7 * Abs(target - level)
    ensures Abs(target - level) < 0.001 ==> r == target
  {
    var diff := target - level;
    if Abs(diff) < 0.001 then target else level + diff * 0.3
  }

  /** The level after `k` frames toward a fixed target. */
  function GlideRun(level: real, target: real, k: nat): real
    decreases k
  {
    if k == 0 then level else GlideRun(Glide(level, target), target, k - 1)
  }

  /** `0.7` to the power `k`. */
  function Pow07(k: nat): (p: real)
    ensures 0.0 < p <= 1.0
  {
    if k == 0 then 1.0 else 0.7 * Pow07(k - 1)
  }

  /** After `k` frames the distance to the target has shrunk at least by the factor `0.7^k`. */
  lemma {:induction false} GlideConverges(level: real, target: real, k: nat)
    ensures Abs(target - GlideRun(level, target, k)) <= Pow07(k) * Abs(target - level)
    decreases k
  {
    if k > 0 {
      var next := Glide(level, target);
      GlideConverges(next, target, k - 1);
      assert GlideRun(level, target, k) == GlideRun(next, target, k - 1);
      ShrinkStep(Abs(target - GlideRun(next, target, k - 1)), Abs(target - next), Abs(target - level), Pow07(k - 1));
    }
  }

  /** One more frame multiplies the bound by 0.7. */
  lemma ShrinkStep(e: real, a: real, d: real, p: real)
    requires 0.0 <= p && e <= p * a && a <= 0.7 * d
    ensures e <= (0.7 * p) * d
  {
    MulLeReal(a, 0.7 * d, p);
    assert p * (0.7 * d) == (0.7 * p) * d;
  }

  lemma MulLeReal(a: real, b: real, p: real)
    requires a <= b && 0.0 <= p
    ensures p * a <= p * b
  {
  }

  /** `LevelBar`: the displayed level, its target and the peak marker, with the peak-hold timer pending or not. */
  class LevelBar {
    var level: real
    var targetLevel: real
    var peak: real
    var peakTimer: bool

    ghost predicate Valid()
      reads this
    {
      0.0 <= level <= 1.0 && 0.0 <= targetLevel <= 1.0 && 0.0 <= peak
    }

    constructor ()
      ensures Valid() && level == 0.0 && targetLevel == 0.0 && peak == 0.0 && !peakTimer
    {
      level := 0.0;
      targetLevel := 0.0;
      peak := 0.0;
      peakTimer := false;
    }

    /**
     * `set_level`: the target is the level clamped to [0, 1]; a level above
     * the peak becomes the peak, unclamped, and restarts the hold timer.
     */
    method SetLevel(x: real)
      requires Valid()
      modifies this`targetLevel, this`peak, this`peakTimer
      ensures Valid()
      ensures targetLevel == Clamp01(x)
      ensures peak == Max(old(peak), x) && peak >= x
      ensures peakTimer == (old(peakTimer) || x > old(peak))
    {
      targetLevel := Max(0.0, Min(1.0, x));
      if x > peak {
        peak := x;
        peakTimer := true;
      }
    }

    /** `_decay_peak`, when the hold timer fires: the marker drops to the current level. */
    method DecayPeak()
      requires Valid()
      modifies this`peak, this`peakTimer
      ensures Valid() && peak == level && !peakTimer
    {
      peak := level;
      peakTimer := false;
    }

    /** `_animate` */
    method Animate()
      requires Valid()
      modifies this`level
      ensures Valid() && level == Glide(old(level), targetLevel)
    {
      var diff := targetLevel - level;
      level := level + diff * 0.3;
      if Abs(diff) < 0.001 {
        level := targetLevel;
      }
    }
  }

  // ---------------------------------------------------------------------------
  // SpectrumVisualizerWidget
  // ---------------------------------------------------------------------------

  /** A bar moves 25% of the way toward its target, unless it is within 0.001. */
  function NextBar(bar: real, target: real): (r: real)
    ensures bar <= target ==> bar <= r <= target
    ensures target <= bar ==> target <= r <= bar
    ensures Abs(target - bar) > 0.001 ==> Abs(target - r) == 0.75 * Abs(target - bar)
    ensures Abs(target - bar) <= 0.001 ==> r == bar
  {
    var diff := target - bar;
    if Abs(diff) > 0.001 then bar + diff * 0.25 else bar
  }

  /**
   * The targets after `set_bands(bs)`: the first `min(|bs|, |ts|)` are the
   * clamped inputs, the others keep their value.
   */
  function Overlay(ts: seq<real>, bs: seq<real>): (r: seq<real>)
    ensures |r| == |ts|
    ensures forall i :: 0 <= i < |ts| && i < |bs| ==> r[i] == Clamp01(bs[i])
    ensures forall i :: |bs| <= i < |ts| ==> r[i] == ts[i]
  {
    seq(|ts|, i requires 0 <= i < |ts| => if i < |bs| then Clamp01(bs[i]) else ts[i])
  }

  /** Setting the same bands twice is setting them once. */
  lemma OverlayIdempotent(ts: seq<real>, bs: seq<real>)
    ensures Overlay(Overlay(ts, bs), bs) == Overlay(ts, bs)
  {
  }

  /** An input covering every bar forgets the previous targets. */
  lemma OverlayCoveringForgets(ts: seq<real>, us: seq<real>, bs: seq<real>)
    requires |ts| == |us| <= |bs|
    ensures Overlay(ts, bs) == Overlay(us, bs)
  {
  }

  class SpectrumVisualizer {
    const numBands: nat
    var bands: seq<real>
    var targetBands: seq<real>

    ghost predicate Valid()
      reads this
    {
      |bands| == numBands && |targetBands| == numBands && InUnit(bands) && InUnit(targetBands)
    }

    constructor (n: nat)
      ensures Valid() && numBands == n && bands == seq(n, _ => 0.0) && targetBands == bands
    {
      numBands := n;
      bands := seq(n, _ => 0.0);
      targetBands := seq(n, _ => 0.0);
    }

    /** `set_bands` */
    method SetBands(bs: seq<real>)
      requires Valid()
      modifies this`targetBands
      ensures Valid() && targetBands == Overlay(old(targetBands), bs)
    {
      var i := 0;
      var count := if |bs| < numBands then |bs| else numBands;
      while i < count
        invariant 0 <= i <= count && |targetBands| == numBands && InUnit(targetBands)
        invariant forall j :: 0 <= j < i ==> targetBands[j] == Clamp01(bs[j])
        invariant forall j :: i <= j < numBands ==> targetBands[j] == old(targetBands)[j]
      {
        targetBands := targetBands[i := Max(0.0, Min(1.0, bs[i]))];
        i := i + 1;
      }
    }

    /** `_animate`: every bar moves toward its target. */
    method Animate()
      requires Valid()
      modifies this`bands
      ensures Valid()
      ensures |bands| == numBands && forall i :: 0 <= i < numBands ==> bands[i] == NextBar(old(bands)[i], targetBands[i])
    {
      var i := 0;
      while i < numBands
        invariant 0 <= i <= numBands && |bands| == numBands && InUnit(bands)
        invariant forall j :: 0 <= j < i ==> bands[j] == NextBar(old(bands)[j], targetBands[j])
        invariant forall j :: i <= j < numBands ==> bands[j] == old(bands)[j]
      {
        bands := bands[i := NextBar(bands[i], targetBands[i])];
        i := i + 1;
      }
    }
  }

  // ---------------------------------------------------------------------------
  // WaveformWidget
  // ---------------------------------------------------------------------------

  /** The ring `a` read from slot `start` round to the slot before it. */
  function Unroll(a: seq<real>, start: nat): (r: seq<real>)
    requires start < |a| || (a == [] && start == 0)
    ensures |r| == |a|
    ensures forall i :: 0 <= i < |a| ==> r[i] == a[(start + i) % |a|]
  {
    seq(|a|, i requires 0 <= i < |a| => a[(start + i) % |a|])
  }

  /** The last `n` samples of the history, padded in front with the buffer's initial zeros. */
  function Recent(n: nat, history: seq<real>): (r: seq<real>)
    ensures |r| == n
  {
    (seq(n, _ => 0.0) + history)[|history|..]
  }

  lemma ModBelowTwice(x: int, n: int)
    requires 0 < n && 0 <= x < 2 * n
    ensures x % n == if x < n then x else x - n
  {
  }

  /** The slot `_draw` reads at step `i`: `(sample_index + i) % buffer_size`. */
  function Slot(start: nat, i: nat, n: nat): nat
    requires n > 0
  {
    (start + i) % n
  }

  /** The step at which the traversal from `start` reaches slot `k`. */
  function StepOf(start: nat, k: nat, n: nat): nat
    requires start < n && k < n
  {
    if k >= start then k - start else k + n - start
  }

  /** The draw traversal visits every slot exactly once: no slot twice, none left out. */
  lemma TraversalVisitsEverySlotOnce(start: nat, n: nat)
    requires start < n
    ensures forall i, j :: 0 <= i < j < n ==> Slot(start, i, n) != Slot(start, j, n)
    ensures forall k :: 0 <= k < n ==> StepOf(start, k, n) < n && Slot(start, StepOf(start, k, n), n) == k
  {
    forall i, j | 0 <= i < j < n
      ensures Slot(start, i, n) != Slot(start, j, n)
    {
      ModBelowTwice(start + i, n);
      ModBelowTwice(start + j, n);
    }
    forall k | 0 <= k < n
      ensures StepOf(start, k, n) < n && Slot(start, StepOf(start, k, n), n) == k
    {
      ModBelowTwice(start + StepOf(start, k, n), n);
    }
  }

  /** Writing `v` at the read start and advancing it drops the oldest sample and appends `v`. */
  lemma UnrollAfterWrite(a: seq<real>, start: nat, v: real)
    requires start < |a|
    ensures Unroll(a[start := v], (start + 1) % |a|) == Unroll(a, start)[1..] + [v]
  {
    var n := |a|;
    var b := a[start := v];
    ModBelowTwice(start + 1, n);
    var next := (start + 1) % n;
    forall i | 0 <= i < n
      ensures Unroll(b, next)[i] == (Unroll(a, start)[1..] + [v])[i]
    {
      ModBelowTwice(next + i, n);
      ModBelowTwice(start + i + 1, n);
      if i < n - 1 {
        assert (next + i) % n == (start + i + 1) % n;
        assert (start + i + 1) % n != start;
      } else {
        assert (next + i) % n == start;
      }
    }
  }

  /** A new sample shifts the recent window by one. */
  lemma RecentSnoc(n: nat, history: seq<real>, v: real)
    requires n > 0
    ensures Recent(n, history + [v]) == Recent(n, history)[1..] + [v]
  {
    var z := seq(n, _ => 0.0);
    assert z + (history + [v]) == (z + history) + [v];
  }

  /** `any(s != 0 for s in self._samples)` */
  predicate HasSignal(s: seq<real>)
  {
    exists i :: 0 <= i < |s| && s[i] != 0.0
  }

  /** `WaveformWidget`: the sample ring and the slot the next sample goes to. */
  class Waveform {
    const bufferSize: nat
    const samples: array<real>
    var sampleIndex: nat
    /** Every sample added so far, oldest first. */
    ghost var history: seq<real>

    /** The ring, read from the next slot round, holds the last `bufferSize` samples, oldest first. */
    ghost predicate Valid()
      reads this, samples
    {
      samples.Length == bufferSize &&
      (if bufferSize == 0 then sampleIndex == 0 else sampleIndex < bufferSize) &&
      Unroll(samples[..], sampleIndex) == Recent(bufferSize, history)
    }

    constructor (n: nat)
      ensures Valid() && bufferSize == n && fresh(samples)
      ensures samples[..] == seq(n, _ => 0.0) && sampleIndex == 0 && history == []
    {
      bufferSize := n;
      samples := new real[n](_ => 0.0);
      sampleIndex := 0;
      history := [];
      new;
      assert samples[..] == seq(n, _ => 0.0);
      assert Unroll(samples[..], 0) == samples[..];
    }

    /**
     * `add_sample`: the slot at the index takes the sample, no other slot
     * changes, and the index advances round the ring. With no slots at all
     * the source raises an IndexError: `ok` is false and nothing changes.
     */
    method AddSample(v: real) returns (ok: bool)
      requires Valid()
      modifies this`sampleIndex, this`history, samples
      ensures Valid()
      ensures ok == (bufferSize > 0)
      ensures !ok ==> samples[..] == old(samples[..]) && sampleIndex == old(sampleIndex) && history == old(history)
      ensures ok ==> samples[..] == old(samples[..])[old(sampleIndex) := v]
      ensures ok ==> sampleIndex == (old(sampleIndex) + 1) % bufferSize && history == old(history) + [v]
      ensures ok ==> Unroll(samples[..], sampleIndex) == Unroll(old(samples[..]), old(sampleIndex))[1..] + [v]
    {
      if bufferSize == 0 {
        return false;
      }
      ghost var before := samples[..];
      samples[sampleIndex] := v;
      assert samples[..] == before[sampleIndex := v];
      UnrollAfterWrite(before, sampleIndex, v);
      RecentSnoc(bufferSize, history, v);
      sampleIndex := (sampleIndex + 1) % bufferSize;
      history := history + [v];
      ok := true;
    }

    /**
     * The samples `_draw` plots, left to right: none when every sample is
     * zero, otherwise every slot once, starting at the index.
     */
    method DrawOrder() returns (drawn: seq<real>)
      requires Valid()
      ensures !HasSignal(samples[..]) ==> drawn == []
      ensures HasSignal(samples[..]) ==> drawn == Unroll(samples[..], sampleIndex)
      ensures HasSignal(samples[..]) ==> drawn == Recent(bufferSize, history)
    {
      var k := 0;
      while k < bufferSize && samples[k] == 0.0
        invariant 0 <= k <= bufferSize
        invariant forall j :: 0 <= j < k ==> samples[j] == 0.0
      {
        k := k + 1;
      }
      if k == bufferSize {
        return [];
      }
      drawn := [];
      var i := 0;
      while i < bufferSize
        invariant 0 <= i <= bufferSize
        invariant drawn == Unroll(samples[..], sampleIndex)[..i]
      {
        drawn := drawn + [samples[(sampleIndex + i) % bufferSize]];
        i := i + 1;
      }
    }
  }
}

=== FILE: wrappers.dfy ===
/** Option and Result wrappers shared by the other modules. */
module Wrappers {
  datatype Option<T> = None | Some(value: T)
  {
    function GetOr(default: T): T
    {
      if Some? then value else default
    }
  }

  /** A Python exception or error return is an `Err` carrying a short description. */
  datatype Result<T> = Ok(value: T) | Err(error: string)
}
